=== FILE: README.md ===
# A verified model of the Bid auction backend

This project models the business core of the Bid backend: a Spring service for online auctions with
a wallet and card/bank payments. It states, as Dafny contracts and lemmas, what the services promise.
Every module is pure: the database, the cache, the search index and the payment gateway become
immutable values (sequences, maps and sets) or function-typed parameters, and time is an integer
`now` in seconds.

The modules follow the services they model:

- `Wrappers`, `Strings`: Option/Result/Outcome, and the Java string operations the services use
  (trim, case mapping, `contains`, `lastIndexOf`, `replace`, `Integer.parseInt` and `Long.parseLong`,
  `String.format("%02d")`); `Seqs`: the filter every repository query shares.
- `Responses`, `Exceptions`: the `RsData` envelope and its result-code prefix, the `ServiceException`
  factories, the product error codes, and the global exception handler.
- `ProductEnums`, `Paging`: category ids, auction durations, sale and auction statuses, the search sort
  types and their `Sort`, `PageRequest` and `Page` arithmetic, and the page clamps of the services.
- `Products`, `ProductRules`, `Files`, `Tracker`: the product entity and its constructor, the checks of
  product creation, modification and deletion (location, images, status, bidders), image storage and
  deletion, the file-extension and safe-delete rules of the file services, and the change tracker that
  publishes index updates after a product changes.
- `Bidding`, `BidQueue`, `BidPayment`, `Scheduler`: placing a bid directly and through the bid queue,
  the invariant that a product's current price is its highest live bid, the outbid notice, paying for
  a won bid from the wallet, and the minute jobs that open and close auctions.
- `PaymentMethods`, `Payments`, `Wallet`: the member's cards and bank accounts (exclusive field sets,
  at most one default, promotion of a successor), charging a wallet through the payment gateway with
  an idempotency key, and the wallet ledger with its listing, detail and links.
- `Notifications`, `NotificationQueue`, `Presence`, `Search`: the notification queue with its
  three-attempt retry limit and the inbox, online presence over several sessions, and the search
  filters and sort options of the database and search-engine repositories.

## Model

| member | source | states |
|---|---|---|
| Responses.RsStatus.StatusCode | src/main/java/com/backend/global/response/RsStatus.java:7-21 | the success statuses have 2xx codes, the client errors 4xx and the server errors 5xx |
| Responses.RsStatus.ResultCode | src/main/java/com/backend/global/response/RsStatus.java:31-33 | the result code is three decimal digits that parse back to the status code |
| Responses.StatusCodeInjective | src/main/java/com/backend/global/response/RsStatus.java:7-21 | no two statuses share an HTTP code |
| Responses.ResultCodeInjective | src/main/java/com/backend/global/response/RsStatus.java:31-33 | distinct statuses have distinct result codes |
| Responses.NewRsData | src/main/java/com/backend/global/response/RsData.java:16-18 | the constructor succeeds exactly when the text before the first '-' is a number, and the envelope then carries that number as its HTTP code with the given code, message and payload |
| Responses.NewRsDataNoData | src/main/java/com/backend/global/response/RsData.java:12-14 | the two-argument constructor gives the same envelope with no payload |
| Responses.CodeStatusOfPlainCode | src/main/java/com/backend/global/response/RsData.java:17 | a plain result code such as "404" yields its own status as the HTTP code |
| Responses.CodeStatusOfDetailedCode | src/main/java/com/backend/global/response/RsData.java:17 | a detailed code "<status>-<detail>" yields the status before the dash, whatever the detail |
| Responses.OfStatus | src/main/java/com/backend/global/response/RsData.java:20-46 | an envelope built from a status is consistent and equals what the parsing constructor builds from the status's code |
| Responses.Ok | src/main/java/com/backend/global/response/RsData.java:20-26 | `ok` answers 200 with a consistent code, the message and the payload |
| Responses.Created | src/main/java/com/backend/global/response/RsData.java:28-30 | `created` answers 201 with a consistent code |
| Responses.Fail | src/main/java/com/backend/global/response/RsData.java:32-34 | `fail` answers 400 with a consistent code |
| Responses.NotFound | src/main/java/com/backend/global/response/RsData.java:36-38 | `notFound` answers 404 with no payload |
| Responses.Unauthorized | src/main/java/com/backend/global/response/RsData.java:40-42 | `unauthorized` answers 401 with no payload |
| Responses.Forbidden | src/main/java/com/backend/global/response/RsData.java:44-46 | `forbidden` answers 403 with no payload |
| Exceptions.ServiceException.Message | src/main/java/com/backend/global/exception/ServiceException.java:12-16 | the exception message starts with "<code>:" and the rest of it is exactly the human message |
| Exceptions.ServiceException.GetRsData | src/main/java/com/backend/global/exception/ServiceException.java:17-19 | the envelope exists exactly when the code's prefix parses, and carries the code, the message and no payload |
| Exceptions.OfStatus | src/main/java/com/backend/global/exception/ServiceException.java:21-35 | a status factory's code is the bare status code, read back both by the envelope and as a whole number |
| Exceptions.BadRequest | src/main/java/com/backend/global/exception/ServiceException.java:21-23 | `badRequest` carries the code "400" |
| Exceptions.Unauthorized | src/main/java/com/backend/global/exception/ServiceException.java:25-27 | `unauthorized` carries the code "401" |
| Exceptions.Forbidden | src/main/java/com/backend/global/exception/ServiceException.java:29-31 | `forbidden` carries the code "403" |
| Exceptions.NotFound | src/main/java/com/backend/global/exception/ServiceException.java:33-35 | `notFound` carries the code "404" |
| Exceptions.ProductCode | src/main/java/com/backend/domain/product/exception/ProductException.java:12-14 | a product code "<status>-<detail>" yields its status family as the envelope's HTTP code but does not parse as a whole number |
| Exceptions.ProductCodeInjective | src/main/java/com/backend/domain/product/exception/ProductException.java:12-54 | a product code determines its status and its detail number |
| Exceptions.ProductError.Status | src/main/java/com/backend/domain/product/exception/ProductException.java:11-99 | every product error belongs to the not-found, forbidden or bad-request family |
| Exceptions.ProductError.Detail | src/main/java/com/backend/domain/product/exception/ProductException.java:16-99 | detail numbers run 1-2 for not-found, 1-4 for forbidden and 1-9 for bad-request |
| Exceptions.ProductCodesDistinct | src/main/java/com/backend/domain/product/exception/ProductException.java:16-99 | no two product errors share a result code |
| Exceptions.StatusDetailInjective | src/main/java/com/backend/domain/product/exception/ProductException.java:16-99 | the family and the detail number together name one product error |
| Exceptions.NotFoundCode | src/main/java/com/backend/domain/product/exception/ProductException.java:12-14 | a not-found product code with a one-digit detail is "404-" followed by that digit |
| Exceptions.NotFoundResultCode | src/main/java/com/backend/global/response/RsStatus.java:16 | the not-found result code is "404" |
| Exceptions.NotFoundCodes | src/main/java/com/backend/domain/product/exception/ProductException.java:16-24 | the product and image not-found codes are "404-1" and "404-2" |
| Exceptions.StripCodePrefix | src/main/java/com/backend/global/exception/GlobalExceptionHandler.java:30-33 | a leading "<code>:" is removed from the message and any other message is kept whole |
| Exceptions.Respond | src/main/java/com/backend/global/exception/GlobalExceptionHandler.java:34 | a response exists exactly when the envelope constructor accepts the code and the status is a known HTTP status; its body is consistent, with the code and message given |
| Exceptions.HandleServiceException | src/main/java/com/backend/global/exception/GlobalExceptionHandler.java:21-35 | the handler answers with the whole result code parsed as the HTTP status, 400 when it does not parse, and the message without its code prefix |
| Exceptions.ProductNotFoundAnsweredWith400 | src/main/java/com/backend/global/exception/GlobalExceptionHandler.java:24-28 | a product not-found error is answered with HTTP 400 while its body says 404 (see Findings) |
| Exceptions.HandleServiceExceptionFixed | src/main/java/com/backend/global/exception/GlobalExceptionHandler.java:21-35 | with the status taken from the code's prefix, the HTTP status always equals the body's status |
| Exceptions.FixedHandlerAnswersProductStatus | src/main/java/com/backend/domain/product/exception/ProductException.java:12-54 | with that correction every product error is answered with the status family its code names |
| Exceptions.Handle | src/main/java/com/backend/global/exception/GlobalExceptionHandler.java:17-87 | service exceptions go to their handler; a response-status exception keeps its status and reason; every other handler answers with a body whose status matches the HTTP status |
| Exceptions.FixedHandlerCodes | src/main/java/com/backend/global/exception/GlobalExceptionHandler.java:44-86 | validation errors answer 400, missing elements and null pointers 404, authentication 401, access denial 403, anything else 500 |
| Exceptions.HandleResponseStatus | src/main/java/com/backend/global/exception/GlobalExceptionHandler.java:38-42 | a response-status exception is answered with its own status, spelled as the result code, and its reason |
| Exceptions.Plain | src/main/java/com/backend/global/exception/GlobalExceptionHandler.java:50-86 | a fixed-status response exists exactly for a known status and carries that status in both places |
| Paging.GetPageable | src/main/java/com/backend/domain/product/service/ProductService.java:110-114 | the zero-based page is one less than a positive requested page, and 0 otherwise; the size is kept inside 1..100 and becomes 20 outside it; the sort comes from the sort type |
| Paging.GetPageableIdempotent | src/main/java/com/backend/domain/product/service/ProductService.java:110-114 | asking again for the page a request describes gives the same request |
| Paging.GetPageableValid | src/main/java/com/backend/domain/product/service/ProductService.java:110-114 | a valid page and size pass through unchanged, shifted to zero-based |
| Paging.CashPageRequest | src/main/java/com/backend/domain/cash/service/CashService.java:56-57 | the ledger's page is at least the first and its size at least 1, with no upper bound |
| Paging.CashClampAgreesOnValidInput | src/main/java/com/backend/domain/cash/service/CashService.java:56-57 | on valid input the ledger and the product services pick the same page, and the same size exactly when the size is at most 100 |
| Paging.PageOf | src/main/java/com/backend/domain/cash/service/CashService.java:59 | a page holds exactly the results from its start position on, as many as remain up to `size`, each the result at its absolute position, and reports the request and the total count |
| Paging.ElementOnItsPage | src/main/java/com/backend/domain/cash/service/CashService.java:59 | every result appears on the page its position names, at the offset its position names |
| Paging.FromPage | src/main/java/com/backend/standard/page/dto/PageDto.java:11-23 | the DTO keeps the content, makes the page number one-based, and has a previous page exactly after the first and a next page exactly before the last |
| Paging.FromPageEchoesRequest | src/main/java/com/backend/standard/page/dto/PageDto.java:11-23 | a page fetched for a one-based page number reports that number back |
| ProductEnums.FirstWithId | src/main/java/com/backend/domain/product/enums/ProductCategory.java:31-36 | the search finds a category with the id when one exists, and reports none only when no category has it |
| ProductEnums.CategoryFromId | src/main/java/com/backend/domain/product/enums/ProductCategory.java:31-36 | a category found for an id has that id |
| ProductEnums.CategoryIdsDistinct | src/main/java/com/backend/domain/product/enums/ProductCategory.java:9-20 | category ids lie in 1..12 and no two categories share one |
| ProductEnums.CategoryFromIdOfId | src/main/java/com/backend/domain/product/enums/ProductCategory.java:31-36 | looking up a category's own id gives that category back |
| ProductEnums.CategoryFromIdDomain | src/main/java/com/backend/domain/product/enums/ProductCategory.java:31-36 | the lookup succeeds exactly for ids 1..12 and throws otherwise |
| ProductEnums.DurationFromValue | src/main/java/com/backend/domain/product/enums/AuctionDuration.java:21-27 | "24시간" gives 24 hours, "48시간" gives 48, and any other label throws |
| ProductEnums.FromSaleStatus | src/main/java/com/backend/domain/product/enums/SaleStatus.java:18-24 | every sale status maps to an auction status and a null one throws |
| ProductEnums.FromSaleStatusBijective | src/main/java/com/backend/domain/product/enums/SaleStatus.java:18-24 | the mapping is the inverse of the customer view of an auction status, in both directions |
| ProductEnums.FromSaleStatusInjective | src/main/java/com/backend/domain/product/enums/SaleStatus.java:18-24 | distinct sale statuses map to distinct auction statuses |
| ProductEnums.ProductSearchSortType.ToSort | src/main/java/com/backend/domain/product/enums/ProductSearchSortType.java:24-30 | a sort type orders by its one field, ascending exactly when its direction text is "ASC" |
| ProductEnums.SortTypeOrders | src/main/java/com/backend/domain/product/enums/ProductSearchSortType.java:8-12 | the five sort types order by creation date descending, price descending and ascending, end time ascending and bidder count descending |
| Products.NewProduct | src/main/java/com/backend/domain/product/entity/Product.java:81-99 | a new product's current price is its initial price, its auction lasts `duration` hours from the start, and it is open exactly when it starts no later than now, else not yet started; it has no bids and no images |
| Products.DistinctCount | src/main/java/com/backend/domain/product/entity/Product.java:105-108 | counting distinct ids never exceeds the number of bids |
| Products.DistinctCountIsCardinality | src/main/java/com/backend/domain/product/entity/Product.java:105-108 | the distinct count is the size of the set of bidder ids |
| Products.BiddersCount | src/main/java/com/backend/domain/product/entity/Product.java:102-109 | the bidder count is 0 for a null bid list and otherwise the number of different bidders |
| Products.AddBid | src/main/java/com/backend/domain/bid/service/BidService.java:291 | adding a bid appends its bidder to the bid list and changes nothing else |
| Products.AddBidBiddersCount | src/main/java/com/backend/domain/product/entity/Product.java:102-109 | a repeat bidder leaves the bidder count unchanged and a new bidder raises it by one |
| Products.AddProductImage | src/main/java/com/backend/domain/product/entity/Product.java:111-114 | the image is appended, linked back to this product, and nothing else changes |
| Products.RemoveImage | src/main/java/com/backend/domain/product/service/ProductImageService.java:81 | removing an image drops exactly the entries with its id and keeps every other one |
| Files.GetFileExtension | src/main/java/com/backend/global/file/service/FileService.java:30-35 | the extension is empty exactly for a null name or one without a dot; otherwise it is the name's suffix from its last dot, and holds no other dot |
| Files.ExtensionOfStemAndSuffix | src/main/java/com/backend/domain/product/service/FileService.java:52-57 | a name made of any stem, a dot and a dot-free extension yields that extension |
| Files.Components | src/main/java/com/backend/global/file/service/LocalFileService.java:83 | the names a path string parses into are non-empty and hold no slash |
| Files.ParsePath | src/main/java/com/backend/global/file/service/LocalFileService.java:83 | a parsed path is absolute exactly when the string starts with a slash |
| Files.Normalize | src/main/java/com/backend/global/file/service/LocalFileService.java:86 | normalizing keeps the kind of path and leaves no "." and no ".." except as the leading run of a relative path |
| Files.NormStepIsNormal | src/main/java/com/backend/global/file/service/LocalFileService.java:86 | one normalizing step keeps a normal path normal |
| Files.NormFromIsNormal | src/main/java/com/backend/global/file/service/LocalFileService.java:86 | normalizing the rest of a path from a normal prefix gives a normal path |
| Files.NormFromAppend | src/main/java/com/backend/global/file/service/LocalFileService.java:86 | normalizing a path in two pieces is normalizing the second from where the first ended |
| Files.NormFromOfNormal | src/main/java/com/backend/global/file/service/LocalFileService.java:86 | normalizing changes nothing in a path that is already normal |
| Files.NormalizeIdempotent | src/main/java/com/backend/global/file/service/LocalFileService.java:86 | normalizing twice is normalizing once |
| Files.DeleteTarget | src/main/java/com/backend/global/file/service/LocalFileService.java:73-92 | a URL not under the base URL is ignored; otherwise the file is deleted exactly when the normalized path of the URL, with the base URL replaced by the upload directory, lies under the normalized upload directory, and that path is the one deleted; any other target is refused |
| Files.DeleteFile | src/main/java/com/backend/domain/product/service/FileService.java:59-80 | deleting removes exactly the file at the URL's translated, normalized path when that path lies under the upload directory, and otherwise changes nothing; it never fails to the caller |
| Files.ClimbingOutEscapes | src/main/java/com/backend/global/file/service/LocalFileService.java:85-89 | a path that climbs out of the upload directory with ".." into a sibling directory normalizes to that sibling, which does not lie under the upload directory |
| Files.ComponentsJoin | src/main/java/com/backend/global/file/service/LocalFileService.java:83 | the names of two path strings joined by a slash are the names of the first followed by those of the second |
| Files.SiblingUrlEscapes | src/main/java/com/backend/global/file/service/LocalFileService.java:73-89 | a URL made of the base URL, "/../" and a sibling directory name is refused as leaving the upload directory |
| ProductRules.ValidateLocation | src/main/java/com/backend/domain/product/service/ProductService.java:158-164 | a request passes exactly when it names no delivery method, names DELIVERY, or carries a non-blank location; otherwise it fails with the location error |
| ProductRules.CheckImage | src/main/java/com/backend/domain/product/service/ProductService.java:189-213 | a rejected file is rejected for being empty, too large, badly named or of an unsupported type, and for nothing else |
| ProductRules.CheckImageSpec | src/main/java/com/backend/domain/product/service/ProductImageService.java:112-137 | a file passes exactly when it is non-empty, at most 5 MB, named with a dot, and its lower-cased extension is jpg, jpeg, png, gif or webp; the emptiness, size and name checks come first in that order |
| ProductRules.FirstFailure | src/main/java/com/backend/domain/product/service/ProductService.java:191-212 | a list of checks passes exactly when every element passes |
| ProductRules.FirstFailureIsFirst | src/main/java/com/backend/domain/product/service/ProductService.java:191-212 | the first element that fails decides the error |
| ProductRules.ValidateImages | src/main/java/com/backend/domain/product/service/ProductService.java:189-213 | a list of files passes exactly when every file passes |
| ProductRules.ValidateImagesFirstFailure | src/main/java/com/backend/domain/product/service/ProductImageService.java:112-137 | the error for a list of files is that of its first rejected file |
| ProductRules.ValidateImagesForCreate | src/main/java/com/backend/domain/product/service/ProductService.java:166-176 | creation passes exactly for one to five acceptable files; no files is the image-required error and more than five the maximum-count error |
| ProductRules.ValidateImagesForModify | src/main/java/com/backend/domain/product/service/ProductService.java:178-187 | no new files always passes; otherwise the files pass exactly when existing plus new images number at most five and each file is acceptable |
| ProductRules.AcceptedImageName | src/main/java/com/backend/domain/product/service/ProductService.java:202-210 | a file of acceptable size named stem, dot and an allowed extension in any letter case is accepted, whatever dots the stem holds |
| ProductRules.Without | src/main/java/com/backend/domain/product/service/ProductImageService.java:71-86 | filtering out ids never lengthens the image list |
| ProductRules.WithoutMembers | src/main/java/com/backend/domain/product/service/ProductImageService.java:71-86 | after filtering, an image is present exactly when it was present and its id is not listed |
| ProductRules.RemoveImageIsWithout | src/main/java/com/backend/domain/product/service/ProductImageService.java:81 | removing one image is filtering out its id |
| ProductRules.WithoutTwice | src/main/java/com/backend/domain/product/service/ProductImageService.java:72-83 | deleting two sets of ids one after the other is deleting their union |
| ProductRules.WithoutConcat | src/main/java/com/backend/domain/product/service/ProductImageService.java:72-83 | filtering distributes over joining two lists |
| ProductRules.DeletableStep | src/main/java/com/backend/domain/product/service/ProductImageService.java:72-83 | a deletion list is valid exactly when its first id names a stored image of the product and the rest is valid against the repository without it |
| ProductRules.DeleteEach | src/main/java/com/backend/domain/product/service/ProductImageService.java:72-83 | the deletion loop fails only with image-not-found or image-not-of-this-product, and on success collects one URL per id |
| ProductRules.FilesDeleted | src/main/java/com/backend/domain/product/service/ProductImageService.java:72-83 | the files handed to the file service are those of the listed images, in order, up to the first id that is missing (or already deleted) or belongs to another product, whatever the outcome |
| ProductRules.FilesDeletedOnSuccess | src/main/java/com/backend/domain/product/service/ProductImageService.java:72-83 | when every listed image is deleted, the collected URLs are exactly the files deleted |
| ProductRules.FilesDeletedDespiteImageRequired | src/main/java/com/backend/domain/product/service/ProductImageService.java:71-86 | deleting all of a product's images is refused with 400-2 after every listed file has already been deleted |
| ProductRules.DeleteEachSpec | src/main/java/com/backend/domain/product/service/ProductImageService.java:72-83 | the loop succeeds exactly when every id names a stored image of this product and none repeats, and then exactly the listed images leave the product and the repository |
| ProductRules.WithoutNothing | src/main/java/com/backend/domain/product/service/ProductImageService.java:71-86 | filtering out no ids keeps the list as it is |
| ProductRules.DeleteProductImages | src/main/java/com/backend/domain/product/service/ProductImageService.java:71-86 | deleting succeeds exactly for a valid deletion list that leaves at least one image, and the product keeps exactly its other images |
| ProductRules.DuplicateDeletionFails | src/main/java/com/backend/domain/product/service/ProductImageService.java:72-74 | a deletion list naming one image twice always fails |
| ProductRules.NewImages | src/main/java/com/backend/domain/product/service/ProductImageService.java:58-69 | one new image per uploaded URL, numbered consecutively and linked to the product |
| ProductRules.CreateImages | src/main/java/com/backend/domain/product/service/ProductService.java:64-76 | creating images appends one per URL, in order, to the product's list, changes nothing else in the product, and uses one repository id per URL |
| ProductRules.CreateImagesKeeps | src/main/java/com/backend/domain/product/service/ProductImageService.java:65-69 | images stored before the upload stay as they were |
| ProductRules.CreateImagesStores | src/main/java/com/backend/domain/product/service/ProductImageService.java:65-69 | every uploaded URL is stored under the id it was given, linked to the product |
| ProductRules.ValidateAndModifyImages | src/main/java/com/backend/domain/product/service/ProductImageService.java:32-49 | with no new files and no deletions nothing changes; success implies the new files were acceptable and fit the five-image limit, at least one image remains after a deletion, and the product ends with its old and new images minus the deleted ids |
| ProductRules.DropIfSame | src/main/java/com/backend/domain/product/service/ProductService.java:230-237 | a field is kept exactly when it is given and differs from the current value |
| ProductRules.DropUnchanged | src/main/java/com/backend/domain/product/service/ProductService.java:219-240 | the reduction throws exactly for an unknown category id or duration label; otherwise each field survives exactly when it differs from the product's current value |
| ProductRules.ValidateModifyRequest | src/main/java/com/backend/domain/product/service/ProductService.java:215-241 | an auction that has started cannot be modified; a request failing the location rule is refused; otherwise the request is reduced to its changes |
| ProductRules.GetDurationString | src/main/java/com/backend/domain/product/service/KakaoProductService.java:184-186 | the label is the 24-hour one exactly for a 24-hour auction and the 48-hour one otherwise |
| ProductRules.DurationStringRoundTrip | src/main/java/com/backend/domain/product/service/KakaoProductService.java:184-186 | reading the label back gives the product's duration |
| ProductRules.FillFrom | src/main/java/com/backend/domain/product/service/KakaoProductService.java:172-181 | every field is filled; a given field is kept and a missing one takes the product's current value |
| ProductRules.MergeModifyRequest | src/main/java/com/backend/domain/product/service/KakaoProductService.java:162-182 | the Kakao service refuses a started auction, and otherwise accepts exactly the requests that meet the location rule, completing them from the product |
| ProductRules.FillAfterDrop | src/main/java/com/backend/domain/product/service/ProductService.java:215-241 | completing the reduced request from the product gives the same result as completing the original, so the two services describe the same change |
| ProductRules.DropUnchangedIdempotent | src/main/java/com/backend/domain/product/service/ProductService.java:230-237 | reducing an already reduced request changes nothing |
| ProductRules.ServicesAgreeOnAcceptance | src/main/java/com/backend/domain/product/service/KakaoProductService.java:162-170 | for a known category and duration, the two services accept and refuse the same requests |
| ProductRules.ModifyProduct | src/main/java/com/backend/domain/product/service/ProductService.java:118-143 | a started auction is refused; the request succeeds exactly when it passes validation, the new files pass the image check, and a deletion list names deletable images and leaves at least one; the product then holds its old and new images minus the deleted ids, the repository loses exactly those ids, and the deleted files are exactly those the loop handed to the file service |
| ProductRules.Uploaded | src/main/java/com/backend/domain/product/service/ProductService.java:124-127 | a non-empty upload appends the new images to the product and advances the repository's id counter by their number; otherwise nothing changes |
| ProductRules.DeleteProduct | src/main/java/com/backend/domain/product/service/ProductService.java:145-155 | deletion fails exactly for an auction that has started, and otherwise hands every image URL, in order, to the file service |
| ProductRules.StartedProductIsFrozen | src/main/java/com/backend/domain/product/service/KakaoProductService.java:123-166 | once its start has passed, a product can be neither modified by either service nor deleted |
| Tracker.Snapshot | src/main/java/com/backend/domain/product/event/helper/ProductChangeTracker.java:41-58 | the snapshot records the product's id, current price, status and bidder count |
| Tracker.PublishChanges | src/main/java/com/backend/domain/product/event/helper/ProductChangeTracker.java:69-96 | at most three events; a price, status or bidder-count event is published exactly when that field changed, and it carries the product id with the old and new values |
| Tracker.NoChangeNoEvents | src/main/java/com/backend/domain/product/event/helper/ProductChangeTracker.java:69-96 | a product compared with its own snapshot publishes nothing |
| Tracker.UntrackedFieldsProduceNoEvents | src/main/java/com/backend/domain/product/event/helper/ProductChangeTracker.java:69-96 | changing fields other than price, status and bidder count publishes nothing |
| Bidding.HighestBidPrice | src/main/java/com/backend/domain/bid/repository/BidRepository.java:17-19 | the highest price is absent exactly when the product has no live bid, and is otherwise the price of some live bid and at least the price of every one |
| Bidding.HighestBidPriceAppend | src/main/java/com/backend/domain/bid/repository/BidRepository.java:17-19 | a new bid changes no other product's highest price, and a live bid above all earlier ones becomes its product's highest price |
| Bidding.BidError.ResultCode | src/main/java/com/backend/domain/bid/service/BidService.java:56-60 | a missing product or member is answered "404" and every rule violation "400" |
| Bidding.ValidateAuction | src/main/java/com/backend/domain/bid/service/BidService.java:241-262 | the auction passes exactly when it is open, now lies within its start and end, and the bidder is not the seller; the status check comes before the time checks, and the start check before the end check |
| Bidding.ValidatePrice | src/main/java/com/backend/domain/bid/service/BidService.java:264-285 | a price passes exactly when it is given, positive, above the highest live bid (0 when none), a multiple of 100 and at least 100 above the highest; the checks fire in that order |
| Bidding.IncrementCheckRedundant | src/main/java/com/backend/domain/bid/service/BidService.java:277-284 | when the highest price is itself a multiple of 100, the minimum-raise check is never the one that fails |
| Bidding.ApplyBid | src/main/java/com/backend/domain/bid/service/BidService.java:84-92 | an accepted bid is stored live, joins its product's bid list and becomes that product's current price; no other product changes; the tracker's events and a 201 envelope holding the bid come back |
| Bidding.CreateBid | src/main/java/com/backend/domain/bid/service/BidService.java:56-81 | a missing product or member is refused first; a bid is accepted exactly when the auction and price checks pass against the highest live bid, and it then becomes that product's highest live bid |
| Bidding.FreshStoreValid | src/main/java/com/backend/domain/product/entity/Product.java:81-86 | a store with no bids, whose products still carry their initial price, satisfies the bid invariant |
| Bidding.ApplyBidKeepsValid | src/main/java/com/backend/domain/bid/service/BidService.java:288-295 | applying a bid above every live bid on its product keeps live prices strictly increasing and each current price equal to the highest live bid |
| Bidding.AppendLiveBidKeepsValid | src/main/java/com/backend/domain/bid/service/BidService.java:288-295 | appending a live bid above every earlier one, which becomes its product's price, keeps the bid invariant |
| Bidding.ApplyBidKeepsHundredUnits | src/main/java/com/backend/domain/bid/service/BidService.java:277-279 | applying a whole-unit bid keeps every live price a multiple of 100 |
| Bidding.AppendKeepsHundredUnits | src/main/java/com/backend/domain/bid/service/BidService.java:277-279 | appending a whole-unit bid keeps every live price a multiple of 100 |
| Bidding.CreateBidKeepsValid | src/main/java/com/backend/domain/bid/service/BidService.java:264-295 | an accepted bid keeps the bid invariant and keeps live prices multiples of 100 |
| Bidding.CreateBidNeverFailsOnIncrement | src/main/java/com/backend/domain/bid/service/BidService.java:282-284 | in a store whose live prices are multiples of 100, a bid is never refused by the minimum-raise check |
| Bidding.RunBidsKeepsValid | src/main/java/com/backend/domain/bid/service/BidService.java:46-53 | any sequence of bid requests, each applied under the product lock, keeps the accepted prices of each product strictly increasing and its current price equal to the highest accepted one |
| Bidding.CurrentPriceIsHighestBid | src/main/java/com/backend/domain/bid/service/BidService.java:288-295 | where the bid invariant holds, a product's current price is at least every live bid's price and is the price of some live bid |
| Bidding.FirstBidBelowInitialPrice | src/main/java/com/backend/domain/bid/service/BidService.java:271 | a first bid of 100 on a product starting at 1,000,000 is accepted and lowers its current price (see Findings) |
| Bidding.CurrentPrices | src/main/java/com/backend/domain/bid/repository/BidRepository.java:40-48 | the price map holds exactly the listed products that have a live bid, each with its highest live price |
| Bidding.MyBidItems | src/main/java/com/backend/domain/bid/service/BidService.java:193-223 | one row per bid, in order, carrying its product's highest price (0 when unknown) and marked winning exactly when the bid's price equals it |
| Bidding.WinningIsLatestLiveBid | src/main/java/com/backend/domain/bid/service/BidService.java:197-198 | when live prices are increasing, a live bid is shown as winning exactly when no later live bid exists on its product |
| BidQueue.ValidateQueuedPrice | src/main/java/com/backend/domain/bid/service/BidConsumerService.java:163-179 | a queued price passes exactly when it is given, positive, above the floor and a multiple of 100; there is no minimum-raise error |
| BidQueue.QueuedPriceAgreesOnWholeUnits | src/main/java/com/backend/domain/bid/service/BidConsumerService.java:163-179 | against the same highest price that is a multiple of 100, the queue accepts exactly the prices the direct path accepts |
| BidQueue.NewestFirst | src/main/java/com/backend/domain/bid/repository/BidRepository.java:29-31 | the listing holds every live bid on the product and nothing else |
| BidQueue.NewestFirstByCreateDate | src/main/java/com/backend/domain/bid/repository/BidRepository.java:33-34 | with bids stored in creation order, the listing runs from the latest creation date down |
| BidQueue.NewestFirstHead | src/main/java/com/backend/domain/bid/repository/BidRepository.java:29-31 | the newest live bid heads the list |
| BidQueue.RecentBids | src/main/java/com/backend/domain/bid/service/BidConsumerService.java:82 | the recent bids are the first ten of the newest-first listing, or all of it when it has fewer |
| BidQueue.FirstAtPrice | src/main/java/com/backend/domain/bid/service/BidConsumerService.java:83-86 | the search finds the first bid at the price, and reports none only when no bid has that price |
| BidQueue.FirstAtPriceIsFirst | src/main/java/com/backend/domain/bid/service/BidConsumerService.java:83-86 | the bid found sits at some position in the list and no bid before it has the price |
| BidQueue.PreviousHighestBid | src/main/java/com/backend/domain/bid/service/BidConsumerService.java:77-87 | with no highest price there is no previous leader; a previous leader is a live bid at the highest price |
| BidQueue.OutbidRecipient | src/main/java/com/backend/domain/bid/service/BidConsumerService.java:105-112 | the outbid notice goes to the previous leader's member exactly when there is one and it is not the new bidder |
| BidQueue.OutbidGoesToLatestBidder | src/main/java/com/backend/domain/bid/service/BidConsumerService.java:77-112 | with increasing live prices the previous leader is the newest live bid, and the notice goes to its bidder unless that bidder bids again |
| BidQueue.ProcessBid | src/main/java/com/backend/domain/bid/service/BidConsumerService.java:63-114 | a missing product or member is refused first; a queued bid is accepted exactly when the auction checks pass and the price beats the highest live bid, or the initial price when there is none; it is then applied like a direct bid and names the member to notify |
| BidQueue.ProcessBidRaisesCurrentPrice | src/main/java/com/backend/domain/bid/service/BidConsumerService.java:170-173 | where the bid invariant holds, an accepted queued bid strictly raises the product's current price (the corrected behaviour of Findings row 2) |
| BidQueue.ProcessBidKeepsValid | src/main/java/com/backend/domain/bid/service/BidConsumerService.java:163-190 | an accepted queued bid keeps the bid invariant and keeps live prices multiples of 100 |
| BidQueue.ConsumeBidQueue | src/main/java/com/backend/domain/bid/service/BidConsumerService.java:45-60 | one message is popped per run; an unreadable message or one whose processing fails is dropped and leaves the store unchanged |
| BidQueue.ConsumeKeepsValid | src/main/java/com/backend/domain/bid/service/BidConsumerService.java:45-60 | draining a message never makes a valid store invalid, whatever the message |
| BidQueue.FirstQueuedBidAboveInitialPrice | src/main/java/com/backend/domain/bid/service/BidConsumerService.java:163-179 | on a product without bids an accepted queued bid exceeds the initial price, and so does the new current price |
| BidQueue.QueuedFirstBidBelowInitialPriceRefused | src/main/java/com/backend/domain/bid/service/BidConsumerService.java:163-179 | the first bid below the starting price that the direct path accepts is refused on the queue path |
| BidPayment.FindBid | src/main/java/com/backend/domain/bid/service/BidPaymentService.java:47-50 | the lookup finds the bid with the id when one exists, and reports none only when no bid has it |
| BidPayment.PayForBid | src/main/java/com/backend/domain/bid/service/BidPaymentService.java:25-44 | checked in order: a missing bid is 404, another member's bid 403, an auction that was not won 400; an already-paid bid is answered from its stored amount and time with no transaction and no withdrawal; a price that is no longer the highest live bid is 400; once the price check passes, a failed withdrawal is refused with its result code and a successful one is accepted, withdrawing the bid price, recording the payment time and the paid amount, and returning the transaction; products never change |
| BidPayment.PayTwiceWithdrawsOnce | src/main/java/com/backend/domain/bid/service/BidPaymentService.java:34-37 | paying a second time succeeds, withdraws nothing, changes nothing and reports the amount the first payment reported |
| BidPayment.FindBidSameIds | src/main/java/com/backend/domain/bid/service/BidPaymentService.java:87-88 | recording a payment on a bid does not move it |
| Scheduler.Ended | src/main/java/com/backend/global/scheduler/AuctionSchedulerService.java:35-40 | the ended-auctions query selects an auction that is BIDDING with its end time reached |
| Scheduler.EndingSoon | src/main/java/com/backend/global/scheduler/AuctionSchedulerService.java:57-63 | the ending-soon query selects a BIDDING auction whose end lies between ten and eleven minutes from now, both ends included |
| Scheduler.Starting | src/main/java/com/backend/global/scheduler/AuctionSchedulerService.java:79-84 | the starting-auctions query selects an auction that is BEFORE_START with its start time reached |
| Scheduler.Select | src/main/java/com/backend/global/scheduler/AuctionSchedulerService.java:35-40 | a query selects exactly the stored products that satisfy it |
| Scheduler.QueriesDisjoint | src/main/java/com/backend/global/scheduler/AuctionSchedulerService.java:35-84 | no product is due both to end and to start, and an auction ending in ten to eleven minutes has not ended |
| Scheduler.EndAuction | src/main/java/com/backend/global/scheduler/AuctionSchedulerService.java:107-137 | an auction is won exactly when its highest live bid is positive, and then takes that bid as its price; otherwise it fails with its price unchanged; nothing else changes |
| Scheduler.StartAuction | src/main/java/com/backend/global/scheduler/AuctionSchedulerService.java:140-155 | starting opens the auction and changes nothing else |
| Scheduler.ProcessEndedAuctions | src/main/java/com/backend/global/scheduler/AuctionSchedulerService.java:29-47 | every open auction past its end, unless its lookup throws, is closed by the end rule applied to its highest bid price; every other product, all bids and all members stay as they were |
| Scheduler.EndedAuctionWonIffBid | src/main/java/com/backend/global/scheduler/AuctionSchedulerService.java:107-130 | an ended auction is won exactly when it has a positive highest bid, and then its price becomes that bid; otherwise it fails with its price unchanged |
| Scheduler.ProcessStartingAuctions | src/main/java/com/backend/global/scheduler/AuctionSchedulerService.java:73-91 | every not-yet-open auction whose start has come is opened by the start rule, even when its start notice throws, since the status is set first and the caught error does not undo it; every other product, all bids and all members stay as they were |
| Scheduler.Stage | src/main/java/com/backend/global/scheduler/AuctionSchedulerService.java:114-143 | the life-cycle stage is final exactly for a won or failed auction |
| Scheduler.BatchesOnlyAdvance | src/main/java/com/backend/global/scheduler/AuctionSchedulerService.java:29-91 | neither batch moves an auction back to an earlier stage |
| Scheduler.NothingLeftToEnd | src/main/java/com/backend/global/scheduler/AuctionSchedulerService.java:29-47 | after a closing pass with no failure, no open auction is past its end |
| Scheduler.NothingLeftToStart | src/main/java/com/backend/global/scheduler/AuctionSchedulerService.java:73-91 | after an opening pass no auction still waits for a start that has come |
| Scheduler.EndingKeepsValid | src/main/java/com/backend/global/scheduler/AuctionSchedulerService.java:110-115 | a closing pass keeps the bid invariant and changes no price, since a won auction's price already is its highest live bid |
| Scheduler.StartingKeepsValid | src/main/java/com/backend/global/scheduler/AuctionSchedulerService.java:140-155 | an opening pass keeps the bid invariant |
| Scheduler.ClosedAuctionRefusesBids | src/main/java/com/backend/domain/bid/service/BidService.java:241-245 | once an auction has been closed, every later bid on it is refused as not biddable |
| Scheduler.OpenedAuctionTakesBids | src/main/java/com/backend/global/scheduler/AuctionSchedulerService.java:140-155 | an opened auction accepts, within its window, a bid from anyone but the seller at a whole-unit price at least 100 above every live bid |
| PaymentMethods.MethodError.Status | src/main/java/com/backend/domain/payment/service/PaymentMethodService.java:162-259 | a missing method ends in 404 and every field, type or alias error in 400 |
| PaymentMethods.NvlBlankToNull | src/main/java/com/backend/domain/payment/service/PaymentMethodService.java:262-266 | the result is null exactly for null or blank input, and is otherwise the trimmed, non-empty text |
| PaymentMethods.NvlBlankToNullIdempotent | src/main/java/com/backend/domain/payment/service/PaymentMethodService.java:262-266 | normalising twice is normalising once |
| PaymentMethods.ParseMethodType | src/main/java/com/backend/domain/payment/service/PaymentMethodService.java:44-49 | a type is read exactly when the trimmed, upper-cased text (or "null") is that type's name, and refused otherwise |
| PaymentMethods.ParseMethodTypeOfName | src/main/java/com/backend/domain/payment/service/PaymentMethodService.java:44-49 | each type's own name reads back as that type, and a missing type is refused |
| PaymentMethods.NullIsNoType | src/main/java/com/backend/domain/payment/service/PaymentMethodService.java:46 | a null type, printed as "null", names no type |
| PaymentMethods.FindOwned | src/main/java/com/backend/domain/payment/service/PaymentMethodService.java:166-167 | the lookup finds the member's live method with the id when there is one, and reports none only when the member has no live method with that id |
| PaymentMethods.FirstDefault | src/main/java/com/backend/domain/payment/service/PaymentMethodService.java:65-67 | the lookup finds a live default of the member when there is one, and reports none only when the member has no live default |
| PaymentMethods.Newest | src/main/java/com/backend/domain/payment/service/PaymentMethodService.java:284-286 | the lookup finds a live method of the member created no earlier than any other, and reports none exactly when the member has no live method |
| PaymentMethods.ClearDefault | src/main/java/com/backend/domain/payment/service/PaymentMethodService.java:65-67 | only the method at the given position loses its default flag; every other method is unchanged |
| PaymentMethods.FormatPadded | src/main/java/com/backend/domain/payment/service/PaymentMethodService.java:319 | a non-negative number is printed zero-padded to the width, and a negative one starts with a minus sign |
| PaymentMethods.ExpireDate | src/main/java/com/backend/domain/payment/service/PaymentMethodService.java:318-320 | the expiry is shown exactly when both year and month are stored, and is at least seven characters long |
| PaymentMethods.ExpireDateRoundTrip | src/main/java/com/backend/domain/payment/service/PaymentMethodService.java:318-320 | for a four-digit year and a calendar month the expiry is "yyyy-MM", and the year and month parse back from it |
| PaymentMethods.ToResponse | src/main/java/com/backend/domain/payment/service/PaymentMethodService.java:298-322 | the response copies the stored fields and the type's name, and carries an expiry exactly when both expiry fields are stored |
| PaymentMethods.TakeDefault | src/main/java/com/backend/domain/payment/service/PaymentMethodService.java:64-67 | storing a method never changes how many methods there were before it |
| PaymentMethods.NewMethodFields | src/main/java/com/backend/domain/payment/service/PaymentMethodService.java:73-104 | a card needs a non-blank brand and last four digits and a bank account a non-blank bank name and last four digits; the other type's fields are left null |
| PaymentMethods.Create | src/main/java/com/backend/domain/payment/service/PaymentMethodService.java:37-131 | succeeds exactly when the member exists, the type reads as CARD or BANK, a given alias is free and the type's required fields are present; checked in order: an unknown member, an unreadable type and a taken alias are refused; a created method gets the next id, the requested alias and token, is active, keeps the two types' fields apart, and is the default exactly when asked or when it is the member's first; an old default gives up the role |
| PaymentMethods.CheckCrossType | src/main/java/com/backend/domain/payment/service/PaymentMethodService.java:241-259 | an edit passes exactly when a card edit carries no non-blank bank field and a bank edit no non-blank card field or expiry |
| PaymentMethods.Merge | src/main/java/com/backend/domain/payment/service/PaymentMethodService.java:204-223 | a given value replaces the stored one, and a missing value keeps it |
| PaymentMethods.EditFields | src/main/java/com/backend/domain/payment/service/PaymentMethodService.java:201-237 | the merged fields pass exactly when a card keeps brand, last four digits and both expiry fields, or a bank account keeps bank name and last four digits; the type is kept, the other type's fields are cleared, and nothing else changes |
| PaymentMethods.Normalize | src/main/java/com/backend/domain/payment/service/PaymentMethodService.java:170-176 | every string field of an edit is normalised and the others are kept |
| PaymentMethods.Edit | src/main/java/com/backend/domain/payment/service/PaymentMethodService.java:162-238 | an unknown member or method is 404; a successful edit keeps the method's id and type, passed the cross-type check, uses an alias no other live method of the member holds, sets the default flag as asked, and merges the alias |
| PaymentMethods.EditSucceedsExactly | src/main/java/com/backend/domain/payment/service/PaymentMethodService.java:162-238 | an edit succeeds exactly when the member and the live method exist, no field of the other type is given, a given alias is free among the member's other methods, and the merged fields are complete |
| PaymentMethods.EditFrame | src/main/java/com/backend/domain/payment/service/PaymentMethodService.java:162-238 | an edit changes no other method except the member's former default, which loses the role when the edited method takes it, and the edited method is the request merged into it |
| PaymentMethods.CheckCrossTypeNormalized | src/main/java/com/backend/domain/payment/service/PaymentMethodService.java:170-178 | normalising blank strings to null before the cross-type check does not change its verdict |
| PaymentMethods.Delete | src/main/java/com/backend/domain/payment/service/PaymentMethodService.java:271-296 | succeeds exactly when the member and their live method exist, 404 otherwise; the method is removed and reported deleted; when it was the default, the member's newest remaining method becomes the default and its id is reported |
| PaymentMethods.PromoteNewest | src/main/java/com/backend/domain/payment/service/PaymentMethodService.java:284-286 | a new default is reported exactly when the member has a live method left, and otherwise nothing changes |
| PaymentMethods.ClearDefaultKeeps | src/main/java/com/backend/domain/payment/service/PaymentMethodService.java:65-67 | clearing a default flag keeps at most one default per member and changes nothing else |
| PaymentMethods.ClearFirstDefaultLeavesNone | src/main/java/com/backend/domain/payment/service/PaymentMethodService.java:65-67 | clearing the member's default leaves the member with no default |
| PaymentMethods.TakeDefaultKeeps | src/main/java/com/backend/domain/payment/service/PaymentMethodService.java:59-67 | storing a method after the old default gave up the role keeps at most one default per member, and a new default is then its member's only one |
| PaymentMethods.InsertKeepsValid | src/main/java/com/backend/domain/payment/service/PaymentMethodService.java:107-128 | storing a well-formed method under the next id keeps ids distinct, the types' fields apart and at most one default per member |
| PaymentMethods.CreateKeepsValid | src/main/java/com/backend/domain/payment/service/PaymentMethodService.java:37-131 | create keeps every invariant of the store |
| PaymentMethods.NewDefaultIsOnlyDefault | src/main/java/com/backend/domain/payment/service/PaymentMethodService.java:59-67 | a newly created default is the member's only default |
| PaymentMethods.EditKeepsValid | src/main/java/com/backend/domain/payment/service/PaymentMethodService.java:162-238 | edit keeps every invariant of the store |
| PaymentMethods.SetKeepsValid | src/main/java/com/backend/domain/payment/service/PaymentMethodService.java:191-199 | replacing a method by an edited copy keeps the invariants when a newly default copy is the member's only default |
| PaymentMethods.RemoveKeepsValid | src/main/java/com/backend/domain/payment/service/PaymentMethodService.java:281 | removing a method keeps the invariants |
| PaymentMethods.PromoteNewestKeeps | src/main/java/com/backend/domain/payment/service/PaymentMethodService.java:283-287 | promotion makes the member's newest method the member's only default and keeps the invariants |
| PaymentMethods.RemovedDefaultLeavesNone | src/main/java/com/backend/domain/payment/service/PaymentMethodService.java:279-281 | once the member's default is removed, none of the member's remaining methods is the default |
| PaymentMethods.DeleteKeepsValid | src/main/java/com/backend/domain/payment/service/PaymentMethodService.java:271-296 | delete keeps every invariant, and a deleted default passes the role to the member's newest remaining method, which is then the only default |
| Wallet.FindWallet | src/main/java/com/backend/domain/cash/service/CashService.java:53-54 | finds the member's wallet when there is one, and reports absence only when no wallet belongs to the member |
| Wallet.NewestFirst | src/main/java/com/backend/domain/cash/service/CashService.java:59 | the listing holds exactly the rows of the given wallet, taken from the ledger |
| Wallet.NewestFirstIsDescending | src/main/java/com/backend/domain/cash/service/CashService.java:59 | in a ledger stored in id order the listing is in strictly decreasing id order, newest first |
| Wallet.ToItem | src/main/java/com/backend/domain/cash/service/CashService.java:73-96 | an item carries the row's id, wallet, amount and balance after, and has a related part exactly when both the related type and id are present |
| Wallet.GetMyTransactions | src/main/java/com/backend/domain/cash/service/CashService.java:52-71 | no wallet answers 404; otherwise the response echoes the caller's page and size, reports the total of the wallet's rows, and lists exactly the rows of the wallet, newest first, from max(0, page-1) times max(1, size) on, as many as fit in max(1, size) |
| Wallet.ListingShowsOwnRowsOnly | src/main/java/com/backend/domain/cash/service/CashService.java:59-63 | every listed row is a ledger row of the caller's own wallet |
| Wallet.BidProduct | src/main/java/com/backend/domain/cash/service/CashService.java:144-146 | a bid's product is known exactly when the bid exists |
| Wallet.BuildLinks | src/main/java/com/backend/domain/cash/service/CashService.java:137-154 | a payment links to its receipt path plus its id, a bid to the bid page of its product or to nothing when the bid is gone, and every other type to nothing |
| Wallet.PaymentLinkNamesPayment | src/main/java/com/backend/domain/cash/service/CashService.java:140-142 | the payment id can be read back from the tail of the receipt link |
| Wallet.FindTx | src/main/java/com/backend/domain/cash/service/CashService.java:107-108 | the detail lookup finds a row only by both its id and the caller's wallet |
| Wallet.GetMyTransactionDetail | src/main/java/com/backend/domain/cash/service/CashService.java:100-135 | succeeds exactly when the caller has a wallet holding a row with that id, and answers 404 otherwise |
| Wallet.DetailHidesOtherWallets | src/main/java/com/backend/domain/cash/service/CashService.java:106-108 | a row of another member's wallet is answered with 404, never shown |
| Wallet.Deposit | src/main/java/com/backend/domain/payment/service/PaymentService.java:126-139 | the member's wallet, created at 0 when missing, grows by the amount (a null balance read as 0), one DEPOSIT row records the amount and the new balance, and no other member's balance changes |
| Wallet.WalletUpdateFinds | src/main/java/com/backend/domain/payment/service/PaymentService.java:128-129 | changing a wallet's balance leaves every member's wallet lookup as it was |
| Wallet.DepositKeepsValid | src/main/java/com/backend/domain/payment/service/PaymentService.java:126-139 | a deposit keeps ids increasing and at most one wallet per member |
| Wallet.DepositKeepsReconciled | src/main/java/com/backend/domain/payment/service/PaymentService.java:128-139 | after a deposit every wallet's newest row still shows its current balance |
| Payments.FindByKey | src/main/java/com/backend/domain/payment/service/PaymentService.java:53 | finds an earlier payment of the same member under the same key, and reports absence only when there is none |
| Payments.ToResponse | src/main/java/com/backend/domain/payment/service/PaymentService.java:152-171 | the receipt carries the payment's id, status name, amount and key, with the given balance and deposit row id |
| Payments.CheckRequest | src/main/java/com/backend/domain/payment/service/PaymentService.java:43-50 | passes exactly when the amount lies in [100, 1,000,000] and the key is present and not blank; a missing or small amount fails first, then a large one |
| Payments.CheckMethod | src/main/java/com/backend/domain/payment/service/PaymentService.java:61-69 | accepts only the member's own non-deleted method that is not inactive and holds a non-blank billing key; a missing method is 404 |
| Payments.NewPayment | src/main/java/com/backend/domain/payment/service/PaymentService.java:72-88 | the stored payment is PENDING, in KRW, for the requested amount and key, with no transaction id or payment time |
| Payments.Charge | src/main/java/com/backend/domain/payment/service/PaymentService.java:40-146 | request errors come first; a known key returns the earlier receipt with the current balance, no deposit row and no change; method errors come next; then a thrown gateway call and a declined answer fail with a FAILED payment, and a successful answer succeeds, appending one SUCCESS payment of the member's requested amount and key, growing the balance by the amount, reporting the deposit row, the payment time and the gateway's transaction id |
| Payments.ChargeTwiceChargesOnce | src/main/java/com/backend/domain/payment/service/PaymentService.java:52-58 | a repeat with the same member and key changes nothing, needs no gateway answer and returns the same payment with no deposit row |
| Payments.ChargeLeavesOtherWallets | src/main/java/com/backend/domain/payment/service/PaymentService.java:126-129 | a charge never changes another member's balance |
| Payments.ChargeWritesOneDeposit | src/main/java/com/backend/domain/payment/service/PaymentService.java:131-139 | a successful new charge appends exactly one DEPOSIT row for the amount, tied to this payment and showing the new balance |
| Payments.GatewayFailureChargesNothing | src/main/java/com/backend/domain/payment/service/PaymentService.java:104-120 | a gateway exception or refusal leaves the stores unchanged |
| Notifications.MarkAsProcessing | src/main/java/com/backend/domain/notification/service/NotificationQueueService.java:118-120 | the row becomes PROCESSING and keeps its attempt count |
| Notifications.MarkAsSent | src/main/java/com/backend/domain/notification/service/NotificationQueueService.java:125-127 | the row becomes SENT with the sending time and keeps its attempt count |
| Notifications.MarkAsFailed | src/main/java/com/backend/domain/notification/service/NotificationQueueService.java:128-130 | the row becomes FAILED with the reason and counts one more failed attempt |
| Notifications.ResetToPending | src/main/java/com/backend/domain/notification/service/NotificationQueueService.java:91-92 | the row goes back to PENDING and keeps its attempt count |
| Notifications.Enqueue | src/main/java/com/backend/domain/notification/service/NotificationQueueService.java:29-55 | the new row is unread, PENDING, with no attempts, the given schedule (none for an immediate notification) and the next id, appended to the table, which stays valid |
| Notifications.Take | src/main/java/com/backend/domain/notification/service/NotificationQueueService.java:75-88 | a page holds the first min(limit, count) rows |
| Notifications.PendingBatch | src/main/java/com/backend/domain/notification/repository/NotificationRepository.java:37-40 | the pending batch is the first fifty of the rows that are PENDING and unscheduled or due, in table order, or all of them when fewer |
| Notifications.RetryBatch | src/main/java/com/backend/domain/notification/repository/NotificationRepository.java:43-46 | the retry batch is the first ten of the rows that are FAILED with fewer than three attempts, in table order, or all of them when fewer |
| Notifications.FilterChronological | src/main/java/com/backend/domain/notification/repository/NotificationRepository.java:37-46 | selecting rows from a table kept in creation order keeps them in creation order |
| Notifications.BatchesOldestFirst | src/main/java/com/backend/domain/notification/repository/NotificationRepository.java:37-46 | both batches come out oldest first when the table is kept in creation order |
| Notifications.StuckBatch | src/main/java/com/backend/domain/notification/repository/NotificationRepository.java:49-51 | the stuck query returns exactly the PROCESSING rows last saved before the threshold |
| Notifications.ProcessOne | src/main/java/com/backend/domain/notification/service/NotificationQueueService.java:116-139 | a delivered notification ends SENT and any other outcome ends FAILED with one more attempt; an exception's message is recorded after its prefix |
| Notifications.ApplyTo | src/main/java/com/backend/domain/notification/service/NotificationQueueService.java:79-81 | every row picked for a batch is replaced by its processed form and every other row is untouched |
| Notifications.ProcessPending | src/main/java/com/backend/domain/notification/service/NotificationQueueService.java:74-84 | the pending step keeps every row in place with its id and owner, and never lowers an attempt count |
| Notifications.RetryFailed | src/main/java/com/backend/domain/notification/service/NotificationQueueService.java:86-99 | the retry step keeps every row in place with its id and owner, and never lowers an attempt count |
| Notifications.RetryOne | src/main/java/com/backend/domain/notification/service/NotificationQueueService.java:90-94 | a retry counts one more attempt exactly when the processor does not deliver |
| Notifications.RecoverStuck | src/main/java/com/backend/domain/notification/service/NotificationQueueService.java:101-113 | after recovery no row is PROCESSING with a last save five minutes or more ago |
| Notifications.ProcessQueue | src/main/java/com/backend/domain/notification/service/NotificationQueueService.java:59-72 | a queue pass keeps every row's place, id and owner, never lowers an attempt count, and leaves no stuck row |
| Notifications.ProcessPendingKeepsBound | src/main/java/com/backend/domain/notification/service/NotificationQueueService.java:74-84 | the pending step respects the three-attempt limit |
| Notifications.RetryFailedKeepsBound | src/main/java/com/backend/domain/notification/service/NotificationQueueService.java:86-99 | the retry step respects the three-attempt limit |
| Notifications.RecoverStuckKeepsBound | src/main/java/com/backend/domain/notification/service/NotificationQueueService.java:101-113 | recovery respects the three-attempt limit |
| Notifications.ProcessQueueKeepsRetryBound | src/main/java/com/backend/domain/notification/repository/NotificationRepository.java:43-46 | whatever the processor does, a queue pass never counts a fourth failed attempt and never queues a row that has none left |
| Notifications.EnqueueKeepsRetryBound | src/main/java/com/backend/domain/notification/service/NotificationQueueService.java:29-40 | enqueueing respects the three-attempt limit |
| Notifications.FinalRowsStay | src/main/java/com/backend/domain/notification/service/NotificationQueueService.java:59-72 | a SENT row and a FAILED row with three attempts are left as they are by a queue pass |
| Notifications.DueNotificationIsAttempted | src/main/java/com/backend/domain/notification/service/NotificationQueueService.java:74-81 | a due row with fewer than fifty due rows before it is processed in the pending step |
| NotificationQueue.IncrementRetryCount | src/main/java/com/backend/domain/notification/entity/NotificationQueue.java:60-62 | the counter grows by exactly one and the status stays |
| NotificationQueue.Retried | src/main/java/com/backend/domain/notification/entity/NotificationQueue.java:43-62 | a fresh entry after k increments has counter k |
| NotificationQueue.CanRetryExactlyThreeTimes | src/main/java/com/backend/domain/notification/entity/NotificationQueue.java:55-57 | after k increments an entry can be retried exactly when it has failed and k is below three |
| NotificationQueue.IncrementNeverRevives | src/main/java/com/backend/domain/notification/entity/NotificationQueue.java:55-62 | an increment never makes a non-retryable entry retryable |
| Notifications.Listing | src/main/java/com/backend/domain/notification/service/NotificationService.java:58-70 | the listing holds exactly the member's rows with the requested read flag, or all of the member's rows when no flag is given |
| Notifications.ListingNewestFirst | src/main/java/com/backend/domain/notification/repository/NotificationRepository.java:17-24 | with the table in creation order, each listing runs from the latest creation date down |
| Notifications.UnreadCount | src/main/java/com/backend/domain/notification/repository/NotificationRepository.java:26-27 | the unread count never exceeds the number of rows |
| Notifications.UnreadCountIsUnreadListing | src/main/java/com/backend/domain/notification/repository/NotificationRepository.java:20-27 | the unread count equals the length of the unread listing |
| Notifications.ReadFiltersPartition | src/main/java/com/backend/domain/notification/service/NotificationService.java:58-70 | the read and unread listings split the full listing without overlap |
| Notifications.GetNotifications | src/main/java/com/backend/domain/notification/service/NotificationService.java:24-50 | a negative page or a size below one is refused; otherwise the page holds exactly the entries of the filtered listing from position page × size on, at most size of them, with the filtered total, the page and size asked for, and the member's unread count |
| Notifications.FindOwned | src/main/java/com/backend/domain/notification/repository/NotificationRepository.java:29-30 | finds a notification only by both its id and its owner |
| Notifications.MarkAsRead | src/main/java/com/backend/domain/notification/service/NotificationService.java:73-83 | succeeds exactly when the member owns a notification with that id, and then marks that one row read and changes nothing else |
| Notifications.MarkAsReadIdempotent | src/main/java/com/backend/domain/notification/service/NotificationService.java:73-83 | marking a notification read twice is marking it once |
| Notifications.FindOwnedFirst | src/main/java/com/backend/domain/notification/repository/NotificationRepository.java:29-30 | changing read flags does not move where a notification is found |
| Notifications.ReadAll | src/main/java/com/backend/domain/notification/repository/NotificationRepository.java:33-34 | every row of the member is marked read and every other row is untouched |
| Notifications.MarkAllAsRead | src/main/java/com/backend/domain/notification/service/NotificationService.java:86-89 | reports the member's unread count, leaves none unread, and leaves other members' rows unchanged |
| Notifications.ReadAllLeavesNoneUnread | src/main/java/com/backend/domain/notification/repository/NotificationRepository.java:33-34 | after marking all read, the member has no unread rows |
| Notifications.MarkAllAsReadTwiceReportsZero | src/main/java/com/backend/domain/notification/repository/NotificationRepository.java:33-34 | a second mark-all reports zero |
| Presence.SetUserOnline | src/main/java/com/backend/domain/member/service/UserPresenceService.java:36-52 | the session maps to the e-mail, the e-mail joins the online set and is online now, and no other user's key changes |
| Presence.SetUserOffline | src/main/java/com/backend/domain/member/service/UserPresenceService.java:57-82 | an unknown session changes nothing; otherwise the session is forgotten, and the user's key and set entry are removed exactly when no other session maps to that e-mail |
| Presence.GetOnlineUsers | src/main/java/com/backend/domain/member/service/UserPresenceService.java:109-116 | returns exactly the online set |
| Presence.RefreshUserOnlineStatus | src/main/java/com/backend/domain/member/service/UserPresenceService.java:121-132 | a user who is online gets a fresh five-minute key; anyone else is left alone, and who is online does not change |
| Presence.GetUserEmailBySessionId | src/main/java/com/backend/domain/member/service/UserPresenceService.java:136-138 | answers the session's e-mail exactly when the session is known |
| Presence.ClearAllOnlineStatus | src/main/java/com/backend/domain/member/service/UserPresenceService.java:143-156 | the session map and online set are emptied, and the keys of the online users are removed while other keys stay |
| Presence.MappedUpdate | src/main/java/com/backend/domain/member/service/UserPresenceService.java:46 | mapping a session adds at most its e-mail to the mapped e-mails, and adds exactly that when the session is new |
| Presence.MappedRemove | src/main/java/com/backend/domain/member/service/UserPresenceService.java:59 | removing a session removes at most its e-mail from the mapped e-mails |
| Presence.OperationsKeepCovered | src/main/java/com/backend/domain/member/service/UserPresenceService.java:36-156 | no operation leaves a session's e-mail outside the online set |
| Presence.FreshSessionsKeepExact | src/main/java/com/backend/domain/member/service/UserPresenceService.java:57-82 | with a new session id each time, the online set is exactly the e-mails with an open session |
| Presence.LastSessionTakesUserOffline | src/main/java/com/backend/domain/member/service/UserPresenceService.java:61-74 | with two sessions, closing one keeps the user online and closing both takes them offline |
| Presence.RefreshDoesNotRevive | src/main/java/com/backend/domain/member/service/UserPresenceService.java:121-123 | a heartbeat never brings back a user whose key is gone |
| Search.CategoriesOf | src/main/java/com/backend/domain/product/repository/jpa/ProductRepositoryImpl.java:97-101 | the ids map to categories exactly when every id is known, and then each category has the requested id in the same position |
| Seqs.Filter | src/main/java/com/backend/domain/notification/repository/NotificationRepository.java:37-51 | a query returns exactly the rows satisfying its condition |
| Search.JpaSearch | src/main/java/com/backend/domain/product/repository/jpa/ProductRepositoryImpl.java:90-134 | an unknown category id fails the search; otherwise exactly the products whose name contains the keyword ignoring case, whose category id was requested, whose location matches one entry, whose delivery method fits the flag (true for delivery or both, false for meet-in-person only) and whose status matches |
| Search.PlainSearch | src/main/java/com/backend/domain/product/repository/ProductRepositoryImpl.java:68-101 | an unknown category id fails the search; otherwise the same filters, except that only a true delivery flag filters |
| Search.CategoryFilterById | src/main/java/com/backend/domain/product/repository/jpa/ProductRepositoryImpl.java:97-101 | a category is among the mapped ones exactly when its id was requested |
| Search.DatabaseSearchesAgree | src/main/java/com/backend/domain/product/repository/ProductRepositoryImpl.java:95-97 | the two database searches fail together and find the same products, except that a false delivery flag narrows the first to meet-in-person trades only |
| Search.JpaDeliveryFiltersPartition | src/main/java/com/backend/domain/product/repository/jpa/ProductRepositoryImpl.java:124-127 | asking for deliverable and for meet-in-person products splits the unfiltered result without overlap |
| Search.LocationListIsUnion | src/main/java/com/backend/domain/product/repository/jpa/ProductRepositoryImpl.java:105-120 | a location list matches exactly when one of its entries alone would |
| Search.FindByMember | src/main/java/com/backend/domain/product/repository/jpa/ProductRepositoryImpl.java:42-49 | the member listing holds exactly the products of the given seller, or of any seller when none is given, with the given status |
| Search.FindByMemberNarrows | src/main/java/com/backend/domain/product/repository/ProductRepositoryImpl.java:39-46 | giving a seller keeps exactly that seller's products from the unrestricted listing |
| Search.SortColumn | src/main/java/com/backend/domain/product/repository/jpa/ProductRepositoryImpl.java:162-172 | exactly the four properties createDate, currentPrice, endTime and bidderCount have a column |
| Search.SortValue | src/main/java/com/backend/domain/product/repository/ProductRepositoryImpl.java:109-122 | sorting by bidder count sorts by the number of distinct members who bid |
| Search.OrderBy | src/main/java/com/backend/global/querydsl/QueryDslUtil.java:12-27 | every order whose property has a column is applied with its direction, nothing else is, and none is dropped when all have columns |
| Search.ServiceSortsHaveColumns | src/main/java/com/backend/domain/product/service/ProductSearchService.java:118-122 | the single sort the service builds always has a column |
| Search.FromEntity | src/main/java/com/backend/domain/product/document/ProductDocument.java:116-137 | the document carries the product id as text and as a number, the category and delivery method by name, and the product's status, location, bidder count, seller, name, price, end time and creation time |
| Search.DocumentIdsDistinct | src/main/java/com/backend/domain/product/document/ProductDocument.java:116-118 | different products get different document ids |
| Search.DocumentIdRoundTrip | src/main/java/com/backend/domain/product/document/ProductDocument.java:116-118 | reading a document id back with `Long.parseLong` gives the product id, for every id a Java long holds, negative ones included |
| Strings.ParseInRangeOfIntToString | src/main/java/com/backend/domain/product/document/ProductDocument.java:116-118 | a number printed with `String.valueOf` and parsed back within any range that holds it gives the number |
| Search.EngineSearch | src/main/java/com/backend/domain/product/repository/elasticsearch/ProductElasticRepositoryImpl.java:93-141 | an unknown category id fails the search; otherwise exactly the documents whose name matches a non-blank keyword, whose category name was requested, whose location matches one entry, which are deliverable when delivery is asked for and whose status matches |
| Search.CategoryNamesDistinct | src/main/java/com/backend/domain/product/repository/elasticsearch/ProductElasticRepositoryImpl.java:100-111 | different categories have different names |
| Search.EngineAgreesWithDatabaseOnExactFilters | src/main/java/com/backend/domain/product/repository/elasticsearch/ProductElasticRepositoryImpl.java:100-139 | without keyword or location, the engine's filters on a product's document agree with the database filters on the product |
| Search.NamedInIff | src/main/java/com/backend/domain/product/repository/elasticsearch/ProductElasticRepositoryImpl.java:100-111 | a category's name is requested exactly when the category is |
| Search.DeliverableByName | src/main/java/com/backend/domain/product/repository/elasticsearch/ProductElasticRepositoryImpl.java:126-135 | a delivery method's name is DELIVERY or BOTH exactly when it is deliverable |
| Search.FieldSorts | src/main/java/com/backend/domain/product/repository/elasticsearch/ProductElasticRepositoryImpl.java:154-163 | each requested order becomes a field sort with the same field and direction, in order |
| Search.EngineSorting | src/main/java/com/backend/domain/product/repository/elasticsearch/ProductElasticRepositoryImpl.java:150-178 | the requested orders in order and then the product-id tiebreaker; relevance comes first exactly when nothing is requested and there is a keyword |
| Search.LegacyEngineSorting | src/main/java/com/backend/domain/product/repository/ProductElasticRepositoryImpl.java:109-133 | the requested orders and the tiebreaker, with no sort at all when nothing is requested and never relevance |
| Search.EngineSortingVersionsAgree | src/main/java/com/backend/domain/product/repository/ProductElasticRepositoryImpl.java:122-131 | the two engine versions sort alike whenever a sort is requested, and differ only on an unsorted request |
| Search.ServiceSearchNeverSortsByScore | src/main/java/com/backend/domain/product/service/ProductSearchService.java:29-34 | a service search always sorts by the chosen field and then product id, and never by relevance |
| Search.SearchProducts | src/main/java/com/backend/domain/product/service/ProductSearchService.java:29-34 | the page request is the service's clamped one; an unknown category id fails the search, and otherwise the documents are exactly those of the index that pass the engine query's filters |
| Search.SearchProductsByMember | src/main/java/com/backend/domain/product/service/ProductSearchService.java:36-41 | the member's id and the sale status are passed on unchanged, with the same clamped page request |

## Left out

- Concurrency: the per-product locks, `@Transactional` boundaries, pessimistic wallet locks and `@Async` execution are modelled as one atomic step per operation, and batch loops as a map over the batch.
- Persistence and I/O: PostgreSQL, Redis, Elasticsearch, S3 and local disk, the WebSocket/STOMP messages and the payment gateway's HTTP call are values or parameters; the gateway's answer is the `PgOutcome` parameter.
- Controllers, security, `MemberService` and JWT handling: they sit outside the services modelled here.
- Java `long` overflow: integers are unbounded; every amount and price the services accept is far below 2^63.
- Text beyond ASCII: case mapping and trimming follow ASCII only; other characters are kept as they are.
- Time formatting: `LocalDateTime` values and their `toString`/ISO formats are integers in seconds; the date strings of responses are not produced.
- `Location.fromName`, the thumbnail chosen for a search document and the search engine's text analysis are parameters, since their code is not part of this model.
- Database ordering ties: rows are kept in id order, so ties under an ascending `ORDER BY createDate` (the notification batches) fall in id order, while the newest-first listings (`BidQueue.NewestFirst`, `Wallet.NewestFirst`, `Notifications.Listing`) reverse the table and put ties in descending id order; paging of search-engine results is not modelled beyond the page request.
- `CashService.getMyCashResponse` (the plain wallet read) and the payment-method `findAll`/`findOne` reads are not modelled.
- The `FAILED` status a gateway failure writes is returned in the error and not stored, because the exception rolls the transaction back.
- Scheduler.ProcessEndedAuctions: an auction whose highest-bid lookup throws is caught, logged and left open; the model takes these products as the `failing` set, because the lookup's failures come from the database. A notice that throws after the setters leaves the auction closed. The opening batch has no such set, because its only throwing call comes after the status is set. The log lines are not modelled.
- `Product.addBid`, `deleteProductImage`, `modify` and `getBidderCount`, and the queue methods of `Notification`, are not in the entity sources; they are modelled from how the services use them, with the bidder count taken as the number of distinct bidders.
- The payment-method repository and entity lack the `DeletedFalse` queries and the `active`/`deleted`/`provider` fields the services call; the model follows the services.
- `UserPresenceService.isUserOnlineById` always answers false and is not modelled.
- Files.DeleteFile: deletes the normalized path, while the source deletes the path as built; without symbolic links these are the same file.
- Presence: a session id reused for a second user leaves the first user in the online set; the model reproduces this, and `FreshSessionsKeepExact` assumes fresh session ids.
- The ending-soon job of the scheduler only selects products (`Scheduler.EndingSoon`) and sends notices; the notices are not modelled.
- ProductRules.ValidateAndModifyImages: a refusal carries no file effects; the files uploaded before it (the `urls` parameter) stay in storage, and those deleted before it are `ProductRules.FilesDeleted`.
- ProductRules.ModifyProduct: a refusal carries no file effects; the uploaded files stay in storage, and those deleted before the refusal are `ProductRules.FilesDeleted`.
- BidPayment.PayForBid: the withdrawal is the `withdraw` parameter, because `CashService.withdraw` is not part of this model; the balance decrease, the WITHDRAW ledger row and the insufficient-funds refusal are therefore not stated.
- ProductRules.ModifyProduct: states the request check, the frozen-auction rule and the product's resulting images, but not its other resulting fields (name, price, times and so on), because `Product.modify` is not in the entity source; the reduced request it would apply is returned instead.

## Findings

| source | as written | input that shows it | evidently intended | confidence | as-written member | corrected member |
|---|---|---|---|---|---|---|
| src/main/java/com/backend/global/exception/GlobalExceptionHandler.java:24-28 | the HTTP status is `Integer.parseInt` of the whole result code, and any code that is not a bare number falls back to 400 | a product not-found error with result code "404-1" is answered with HTTP 400 while its body says 404 | the status named by the code's prefix before the dash, as the body's status code already is | not executed | Exceptions.ProductNotFoundAnsweredWith400 | Exceptions.FixedHandlerAnswersProductStatus |
| src/main/java/com/backend/domain/bid/service/BidService.java:271 | with no bids yet, the highest price falls back to 0 | a first bid of 100 on a product whose initial price is 1,000,000 is accepted and the current price drops to 100 | the floor is the product's initial price, as the queue path has it at BidConsumerService.java:170 | not executed | Bidding.FirstBidBelowInitialPrice | BidQueue.FirstQueuedBidAboveInitialPrice |

=== FILE: bid_payment.dfy ===
/** `BidPaymentService.payForBid`: the winner pays for a won auction, at most once. */
module BidPayment {

  import opened Wrappers
  import opened Responses
  import opened ProductEnums
  import opened Products
  import opened Bidding

  /** Why a payment is refused. */
  datatype PayError =
    | BidNotFound
    | NotOwnBid
    | NotSettled
    | PriceMismatch
    | WithdrawFailed(resultCode: string)
  {
    function ResultCode(): string {
      match this
      case BidNotFound => "404"
      case NotOwnBid => "403"
      case NotSettled => "400"
      case PriceMismatch => "400"
      case WithdrawFailed(code) => code
    }
  }

  /** The ledger entry a successful withdrawal writes; the wallet itself is outside this model. */
  datatype Withdrawal = Withdrawal(transactionId: int, balanceAfter: int)

  /** The response body; the transaction fields are null for an already-paid bid. */
  datatype BidPayResponse = BidPayResponse(
    bidId: int, productId: int, amount: Option<int>, paidAt: Option<int>,
    transactionId: Option<int>, balanceAfter: Option<int>)

  /** The outcome: the updated repositories, the 200 envelope, and the amount withdrawn, if any. */
  datatype Paid = Paid(store: Store, response: RsData<BidPayResponse>, withdrawn: Option<int>)

  /** The position of the bid with id `bidId`. */
  function FindBid(bids: seq<Bid>, bidId: int): (r: Option<nat>)
    ensures r.Some? ==> r.value < |bids| && bids[r.value].id == bidId
    ensures r.None? ==> forall i :: 0 <= i < |bids| ==> bids[i].id != bidId
  {
    if |bids| == 0 then None
    else if bids[|bids| - 1].id == bidId then Some(|bids| - 1)
    else FindBid(bids[..|bids| - 1], bidId)
  }

  /** Whether the product of `b` exists and its auction has been won. */
  predicate Settled(st: Store, b: Bid) {
    b.productId in st.products && st.products[b.productId].status == SUCCESSFUL
  }

  /**
   * `payForBid`. In order: the bid must exist (404), belong to `memberId` (403), be on a won auction
   * (400); an already-paid bid is answered from what was stored, without a withdrawal; otherwise the
   * price must still be the highest live bid (400), `withdraw` is the outcome of taking the price from
   * the bidder's wallet, and the bid records when and how much was paid.
   */
  function PayForBid(st: Store, memberId: int, bidId: int, now: int, withdraw: Result<Withdrawal, string>): (r: Result<Paid, PayError>)
    ensures FindBid(st.bids, bidId).None? ==> r == Failure(BidNotFound)
    ensures FindBid(st.bids, bidId).Some? ==> var b := st.bids[FindBid(st.bids, bidId).value];
      && (b.memberId != memberId ==> r == Failure(NotOwnBid))
      && (b.memberId == memberId && !Settled(st, b) ==> r == Failure(NotSettled))
      && (b.memberId == memberId && Settled(st, b) && b.paidAt.Some? ==>
            r.Success? && r.value.store == st && r.value.withdrawn == None
            && r.value.response.data == Some(BidPayResponse(b.id, b.productId, b.paidAmount, b.paidAt, None, None)))
      && ((b.memberId == memberId && Settled(st, b) && b.paidAt.None?
            && b.bidPrice != HighestBidPrice(st.bids, b.productId).GetOr(0)) ==> r == Failure(PriceMismatch))
      && ((b.memberId == memberId && Settled(st, b) && b.paidAt.None?
            && b.bidPrice == HighestBidPrice(st.bids, b.productId).GetOr(0)) ==>
            (withdraw.Failure? ==> r == Failure(WithdrawFailed(withdraw.error)))
            && (withdraw.Success? ==> r.Success? && r.value.withdrawn == Some(b.bidPrice)))
    ensures r.Success? ==> r.value.response.statusCode == 200 && r.value.response.data.Some?
    ensures r.Success? ==> r.value.store.products == st.products
    ensures r.Success? && r.value.withdrawn.Some? ==> var i := FindBid(st.bids, bidId).value;
      && withdraw.Success?
      && r.value.withdrawn == Some(st.bids[i].bidPrice)
      && r.value.store.bids == st.bids[i := st.bids[i].(paidAt := Some(now), paidAmount := Some(st.bids[i].bidPrice))]
      && r.value.response.data.value.transactionId == Some(withdraw.value.transactionId)
      && r.value.response.data.value.balanceAfter == Some(withdraw.value.balanceAfter)
  {
    match FindBid(st.bids, bidId)
    case None => Failure(BidNotFound)
    case Some(i) =>
      var b := st.bids[i];
      if b.memberId != memberId then Failure(NotOwnBid)
      else if !Settled(st, b) then Failure(NotSettled)
      else if b.paidAt.Some? then
        Success(Paid(st, Ok("이미 결제된 입찰입니다.", Some(BidPayResponse(b.id, b.productId, b.paidAmount, b.paidAt, None, None))), None))
      else if b.bidPrice != HighestBidPrice(st.bids, b.productId).GetOr(0) then Failure(PriceMismatch)
      else
        match withdraw
        case Failure(code) => Failure(WithdrawFailed(code))
        case Success(tx) =>
          var paid := b.(paidAt := Some(now), paidAmount := Some(b.bidPrice));
          var body := BidPayResponse(b.id, b.productId, Some(b.bidPrice), Some(now), Some(tx.transactionId), Some(tx.balanceAfter));
          Success(Paid(st.(bids := st.bids[i := paid]), Ok("낙찰 결제가 완료되었습니다.", Some(body)), Some(b.bidPrice)))
  }

  /** Paying twice withdraws once: the second call changes nothing and reports the amount the first one reported. */
  lemma {:induction false} PayTwiceWithdrawsOnce(st: Store, memberId: int, bidId: int, now1: int, now2: int,
                                                 w1: Result<Withdrawal, string>, w2: Result<Withdrawal, string>)
    requires PayForBid(st, memberId, bidId, now1, w1).Success?
    ensures var first := PayForBid(st, memberId, bidId, now1, w1).value;
      var second := PayForBid(first.store, memberId, bidId, now2, w2);
      && second.Success? && second.value.withdrawn == None && second.value.store == first.store
      && second.value.response.data.value.amount == first.response.data.value.amount
  {
    var i := FindBid(st.bids, bidId).value;
    var first := PayForBid(st, memberId, bidId, now1, w1).value;
    var b := st.bids[i];
    if b.paidAt.None? {
      var paid := b.(paidAt := Some(now1), paidAmount := Some(b.bidPrice));
      assert first.store.bids == st.bids[i := paid];
      FindBidSameIds(st.bids, first.store.bids, bidId);
      assert first.store.bids[i] == paid;
    }
  }

  /** Replacing entries without changing ids does not move a bid. */
  lemma {:induction false} FindBidSameIds(a: seq<Bid>, b: seq<Bid>, bidId: int)
    requires |a| == |b| && forall i :: 0 <= i < |a| ==> a[i].id == b[i].id
    ensures FindBid(a, bidId) == FindBid(b, bidId)
    decreases |a|
  {
    if |a| > 0 {
      FindBidSameIds(a[..|a| - 1], b[..|b| - 1], bidId);
    }
  }
}

=== FILE: bid_queue.dfy ===
/**
 * `BidConsumerService`: bids taken one at a time from a queue, checked against the product's initial
 * price when it has no bids yet, and followed by an outbid notice for the previous leader.
 */
module BidQueue {

  import opened Wrappers
  import opened ProductEnums
  import opened Products
  import opened Tracker
  import opened Bidding

  /** How many recent bids are searched for the previous leader. */
  const RECENT_BIDS: nat := 10

  /** A queued bid, as deserialized from the queue. */
  datatype BidMessage = BidMessage(productId: int, bidderId: int, price: Option<int>)

  /** `validateBidPrice` of the queue path: positive, above the floor, a multiple of 100; no minimum raise. */
  function ValidateQueuedPrice(price: Option<int>, floor: int): (o: Outcome<BidError>)
    ensures o.Pass? <==> price.Some? && price.value > 0 && price.value > floor && price.value % BID_UNIT == 0
    ensures (price.None? || price.value <= 0) ==> o == Fail(NonPositivePrice)
    ensures price.Some? && price.value > 0 && price.value <= floor ==> o == Fail(NotAboveHighest(floor))
    ensures o != Fail(IncrementTooSmall)
  {
    if price.None? || price.value <= 0 then Fail(NonPositivePrice)
    else if price.value <= floor then Fail(NotAboveHighest(floor))
    else if price.value % BID_UNIT != 0 then Fail(NotHundredUnit)
    else Pass
  }

  /** The queue path accepts exactly the prices `createBid` accepts when both compare against the same highest price that is a whole number of units. */
  lemma QueuedPriceAgreesOnWholeUnits(price: Option<int>, highest: int)
    requires highest % BID_UNIT == 0
    ensures ValidateQueuedPrice(price, highest).Pass? <==> ValidatePrice(price, highest).Pass?
  {
    IncrementCheckRedundant(price, highest);
  }

  /** The live bids on `pid`, newest first: every one of them and nothing else. */
  function NewestFirst(bids: seq<Bid>, pid: int): (r: seq<Bid>)
    ensures forall k :: 0 <= k < |r| ==> Counts(r[k], pid) && r[k] in bids
    ensures forall i :: 0 <= i < |bids| && Counts(bids[i], pid) ==> bids[i] in r
    ensures |r| <= |bids|
  {
    if |bids| == 0 then []
    else
      var b := bids[|bids| - 1];
      var rest := NewestFirst(bids[..|bids| - 1], pid);
      if Counts(b, pid) then [b] + rest else rest
  }

  /** The newest live bid is the last live bid in creation order. */
  lemma {:induction false} NewestFirstHead(bids: seq<Bid>, pid: int, i: nat)
    requires i < |bids| && Counts(bids[i], pid)
    requires forall j :: i < j < |bids| ==> !Counts(bids[j], pid)
    ensures |NewestFirst(bids, pid)| > 0 && NewestFirst(bids, pid)[0] == bids[i]
    decreases |bids|
  {
    if i < |bids| - 1 {
      var front := bids[..|bids| - 1];
      assert front[i] == bids[i];
      NewestFirstHead(front, pid, i);
    }
  }

  /** Every listed bid was created no later than any bound on the whole table. */
  lemma NewestFirstDatesBelow(bids: seq<Bid>, pid: int, d: int)
    requires forall i :: 0 <= i < |bids| ==> bids[i].createDate <= d
    ensures forall k :: 0 <= k < |NewestFirst(bids, pid)| ==> NewestFirst(bids, pid)[k].createDate <= d
  {
    var r := NewestFirst(bids, pid);
    forall k | 0 <= k < |r| ensures r[k].createDate <= d {
      var j :| 0 <= j < |bids| && bids[j] == r[k];
    }
  }

  /** Bids whose creation dates never decrease along the sequence. */
  predicate Chronological(bids: seq<Bid>) {
    forall i, j :: 0 <= i < j < |bids| ==> bids[i].createDate <= bids[j].createDate
  }

  /** Bids whose creation dates never increase along the sequence. */
  predicate LatestFirst(bids: seq<Bid>) {
    forall i, j :: 0 <= i < j < |bids| ==> bids[i].createDate >= bids[j].createDate
  }

  /** With bids stored in creation order, the listing runs from the latest `createDate` down (`ORDER BY b.createDate DESC`). */
  lemma {:induction false} NewestFirstByCreateDate(bids: seq<Bid>, pid: int)
    requires Chronological(bids)
    ensures LatestFirst(NewestFirst(bids, pid))
  {
    if |bids| > 0 {
      var front := bids[..|bids| - 1];
      var last := bids[|bids| - 1];
      ChronologicalPrefix(bids);
      NewestFirstByCreateDate(front, pid);
      NewestFirstDatesBelow(front, pid, last.createDate);
      if Counts(last, pid) {
        LatestFirstCons(last, NewestFirst(front, pid));
      }
    }
  }

  lemma ChronologicalPrefix(bids: seq<Bid>)
    requires Chronological(bids) && |bids| > 0
    ensures Chronological(bids[..|bids| - 1])
    ensures forall i :: 0 <= i < |bids| - 1 ==> bids[i].createDate <= bids[|bids| - 1].createDate
  {
    var front := bids[..|bids| - 1];
    forall i, j | 0 <= i < j < |front| ensures front[i].createDate <= front[j].createDate {
      assert front[i] == bids[i] && front[j] == bids[j];
    }
  }

  /** A bid no older than any of a latest-first list may go in front of it. */
  lemma LatestFirstCons(b: Bid, rest: seq<Bid>)
    requires LatestFirst(rest)
    requires forall k :: 0 <= k < |rest| ==> rest[k].createDate <= b.createDate
    ensures LatestFirst([b] + rest)
  {
    var r := [b] + rest;
    forall i, j | 0 <= i < j < |r| ensures r[i].createDate >= r[j].createDate {
      assert r[j] == rest[j - 1];
      if i > 0 {
        assert r[i] == rest[i - 1];
      }
    }
  }

  /** `findNBids(pid, 10)`: the first ten of the newest-first listing, or all of it when it is shorter. */
  function RecentBids(bids: seq<Bid>, pid: int): (r: seq<Bid>)
    ensures |r| <= RECENT_BIDS
    ensures forall k :: 0 <= k < |r| ==> Counts(r[k], pid)
    ensures var all := NewestFirst(bids, pid);
      |r| == (if |all| <= RECENT_BIDS then |all| else RECENT_BIDS) && r == all[..|r|]
  {
    var all := NewestFirst(bids, pid);
    if |all| <= RECENT_BIDS then all else all[..RECENT_BIDS]
  }

  /** The first bid of `bids` at `price`. */
  function FirstAtPrice(bids: seq<Bid>, price: int): (r: Option<Bid>)
    ensures r.Some? ==> r.value in bids && r.value.bidPrice == price
    ensures r.None? ==> forall k :: 0 <= k < |bids| ==> bids[k].bidPrice != price
    ensures |bids| > 0 && bids[0].bidPrice == price ==> r == Some(bids[0])
  {
    if |bids| == 0 then None
    else if bids[0].bidPrice == price then Some(bids[0])
    else FirstAtPrice(bids[1..], price)
  }

  /** The bid found is the first at the price: every bid before it has another price. */
  lemma {:induction false} FirstAtPriceIsFirst(bids: seq<Bid>, price: int)
    requires FirstAtPrice(bids, price).Some?
    ensures exists j :: 0 <= j < |bids| && bids[j] == FirstAtPrice(bids, price).value
                        && forall m :: 0 <= m < j ==> bids[m].bidPrice != price
  {
    if bids[0].bidPrice != price {
      var tail := bids[1..];
      FirstAtPriceIsFirst(tail, price);
      var j :| 0 <= j < |tail| && tail[j] == FirstAtPrice(tail, price).value
               && forall m :: 0 <= m < j ==> tail[m].bidPrice != price;
      assert bids[j + 1] == tail[j];
      forall m | 0 <= m < j + 1 ensures bids[m].bidPrice != price {
        if m > 0 { assert bids[m] == tail[m - 1]; }
      }
    } else {
      assert bids[0] == FirstAtPrice(bids, price).value;
    }
  }

  /** The previous leader: the newest of the ten recent bids at the highest price, when there is a highest price. */
  function PreviousHighestBid(bids: seq<Bid>, pid: int): (r: Option<Bid>)
    ensures HighestBidPrice(bids, pid).None? ==> r.None?
    ensures r.Some? ==> Counts(r.value, pid) && Some(r.value.bidPrice) == HighestBidPrice(bids, pid)
  {
    match HighestBidPrice(bids, pid)
    case None => None
    case Some(h) => FirstAtPrice(RecentBids(bids, pid), h)
  }

  /** The member to tell they were outbid: the previous leader, unless that is the new bidder. */
  function OutbidRecipient(previous: Option<Bid>, bidderId: int): (r: Option<int>)
    ensures r.Some? <==> previous.Some? && previous.value.memberId != bidderId
    ensures r.Some? ==> r.value == previous.value.memberId
  {
    if previous.Some? && previous.value.memberId != bidderId then Some(previous.value.memberId) else None
  }

  /** With increasing prices the previous leader is the newest live bid, so the notice goes to its bidder. */
  lemma {:induction false} OutbidGoesToLatestBidder(bids: seq<Bid>, pid: int, i: nat, bidderId: int)
    requires Increasing(bids, pid)
    requires i < |bids| && Counts(bids[i], pid)
    requires forall j :: i < j < |bids| ==> !Counts(bids[j], pid)
    ensures PreviousHighestBid(bids, pid) == Some(bids[i])
    ensures OutbidRecipient(PreviousHighestBid(bids, pid), bidderId)
      == if bids[i].memberId != bidderId then Some(bids[i].memberId) else None
  {
    var h := HighestBidPrice(bids, pid);
    forall k | 0 <= k < |bids| && Counts(bids[k], pid) ensures bids[k].bidPrice <= bids[i].bidPrice {
      if k < i { assert bids[k].bidPrice < bids[i].bidPrice; }
    }
    var w :| 0 <= w < |bids| && Counts(bids[w], pid) && bids[w].bidPrice == h.value;
    assert h == Some(bids[i].bidPrice);
    NewestFirstHead(bids, pid, i);
    assert RecentBids(bids, pid)[0] == bids[i];
  }

  /** What an accepted queued bid yields: the accepted bid and, possibly, who to tell they were outbid. */
  datatype Processed = Processed(accepted: Accepted, outbid: Option<int>)

  /** `processBid`: the same checks as `createBid`, but the floor is the initial price and there is no minimum raise. */
  function ProcessBid(st: Store, m: BidMessage, now: int): (r: Result<Processed, BidError>)
    ensures m.productId !in st.products ==> r == Failure(ProductNotFound)
    ensures m.productId in st.products && m.bidderId !in st.members ==> r == Failure(MemberNotFound)
    ensures r.Success? <==>
      m.productId in st.products && m.bidderId in st.members
      && ValidateAuction(st.products[m.productId], m.bidderId, now).Pass?
      && ValidateQueuedPrice(m.price, HighestBidPrice(st.bids, m.productId).GetOr(st.products[m.productId].initialPrice)).Pass?
    ensures r.Success? ==> r.value.accepted == ApplyBid(st, m.productId, m.bidderId, m.price.value, now)
    ensures r.Success? ==> r.value.outbid == OutbidRecipient(PreviousHighestBid(st.bids, m.productId), m.bidderId)
  {
    if m.productId !in st.products then Failure(ProductNotFound)
    else if m.bidderId !in st.members then Failure(MemberNotFound)
    else
      var p := st.products[m.productId];
      var floor := HighestBidPrice(st.bids, m.productId).GetOr(p.initialPrice);
      :- ValidateAuction(p, m.bidderId, now);
      :- ValidateQueuedPrice(m.price, floor);
      var previous := PreviousHighestBid(st.bids, m.productId);
      var a := ApplyBid(st, m.productId, m.bidderId, m.price.value, now);
      Success(Processed(a, OutbidRecipient(previous, m.bidderId)))
  }

  /** In a valid store an accepted queued bid strictly raises the product's current price. */
  lemma ProcessBidRaisesCurrentPrice(st: Store, m: BidMessage, now: int)
    requires Valid(st)
    ensures var r := ProcessBid(st, m, now);
      r.Success? ==> r.value.accepted.store.products[m.productId].currentPrice > st.products[m.productId].currentPrice
  {
    var r := ProcessBid(st, m, now);
    if r.Success? {
      assert PriceTracksBids(st, m.productId);
    }
  }

  /** The first bid on a product must exceed its initial price, so a queued bid never drops the price below it. */
  lemma FirstQueuedBidAboveInitialPrice(st: Store, m: BidMessage, now: int)
    requires m.productId in st.products && HighestBidPrice(st.bids, m.productId).None?
    ensures var r := ProcessBid(st, m, now);
      r.Success? ==> m.price.value > st.products[m.productId].initialPrice
                     && r.value.accepted.store.products[m.productId].currentPrice > st.products[m.productId].initialPrice
  {
  }

  /** The bid `createBid` accepts below the starting price is refused on the queue path. */
  lemma QueuedFirstBidBelowInitialPriceRefused()
    ensures var p := NewProduct(1, "p", "d", ETC, 1_000_000, 0, 24, DELIVERY, None, 7, "seller", 0);
      var st := Store(map[1 := p], {8}, [], 1);
      ProcessBid(st, BidMessage(1, 8, Some(100)), 60) == Failure(NotAboveHighest(1_000_000))
  {
    var p := NewProduct(1, "p", "d", ETC, 1_000_000, 0, 24, DELIVERY, None, 7, "seller", 0);
    var st := Store(map[1 := p], {8}, [], 1);
    assert HighestBidPrice(st.bids, 1) == None;
    assert ValidateAuction(p, 8, 60).Pass?;
  }

  /** `processBid` keeps the store valid and live prices whole bid units. */
  lemma ProcessBidKeepsValid(st: Store, m: BidMessage, now: int)
    requires Valid(st) && HundredUnits(st)
    ensures var r := ProcessBid(st, m, now);
      r.Success? ==> Valid(r.value.accepted.store) && HundredUnits(r.value.accepted.store)
  {
    var r := ProcessBid(st, m, now);
    if r.Success? {
      var p := st.products[m.productId];
      var h := HighestBidPrice(st.bids, m.productId);
      var v := m.price.value;
      assert ValidateQueuedPrice(m.price, h.GetOr(p.initialPrice)).Pass?;
      forall i | 0 <= i < |st.bids| && Counts(st.bids[i], m.productId)
        ensures st.bids[i].bidPrice < v
      {
        assert h.Some?;
      }
      ApplyBidKeepsValid(st, m.productId, m.bidderId, v, now);
      ApplyBidKeepsHundredUnits(st, m.productId, m.bidderId, v, now);
    }
  }

  /**
   * `consumeBidQueue`: pop one message, if any, and process it. A message that cannot be read (`None`)
   * or whose processing fails is dropped, and the store is left as it was.
   */
  function ConsumeBidQueue(queue: seq<Option<BidMessage>>, st: Store, now: int): (r: (seq<Option<BidMessage>>, Store))
    ensures |queue| == 0 ==> r == (queue, st)
    ensures |queue| > 0 ==> r.0 == queue[1..]
    ensures |queue| > 0 && queue[0].None? ==> r.1 == st
    ensures |queue| > 0 && queue[0].Some? ==>
      r.1 == (match ProcessBid(st, queue[0].value, now) case Success(p) => p.accepted.store case Failure(_) => st)
  {
    if |queue| == 0 then (queue, st)
    else
      match queue[0]
      case None => (queue[1..], st)
      case Some(m) =>
        match ProcessBid(st, m, now)
        case Success(p) => (queue[1..], p.accepted.store)
        case Failure(_) => (queue[1..], st)
  }

  /** Draining the queue never leaves a valid store invalid, whatever the messages. */
  lemma {:induction false} ConsumeKeepsValid(queue: seq<Option<BidMessage>>, st: Store, now: int)
    requires Valid(st) && HundredUnits(st)
    ensures Valid(ConsumeBidQueue(queue, st, now).1) && HundredUnits(ConsumeBidQueue(queue, st, now).1)
  {
    if |queue| > 0 && queue[0].Some? {
      ProcessBidKeepsValid(st, queue[0].value, now);
    }
  }
}

=== FILE: bidding.dfy ===
/**
 * Bid acceptance in `BidService`: the checks a bid must pass, the update of the product it is placed on,
 * and the "my bids" view. Each `CreateBid` is one atomic step, as the per-product lock makes it.
 */
module Bidding {

  import opened Wrappers
  import opened Responses
  import opened ProductEnums
  import opened Products
  import opened Tracker

  /** Whether a bid is live. Only live bids enter the highest-price and my-bids queries. */
  datatype BidStatus = BIDDING | NOT_BIDDING

  datatype Bid = Bid(
    id: int,
    productId: int,
    memberId: int,
    bidPrice: int,
    status: BidStatus,
    createDate: int,
    paidAt: Option<int>,
    paidAmount: Option<int>)

  /** The repositories a bid touches: products by id, member ids, and all bids in creation order. */
  datatype Store = Store(products: map<int, Product>, members: set<int>, bids: seq<Bid>, nextBidId: int)

  /** A live bid on product `pid`. */
  predicate Counts(b: Bid, pid: int) {
    b.productId == pid && b.status == BidStatus.BIDDING
  }

  /** `findHighestBidPrice`: the largest price among the live bids on `pid`, absent when there are none. */
  function HighestBidPrice(bids: seq<Bid>, pid: int): (r: Option<int>)
    ensures r.None? <==> forall i :: 0 <= i < |bids| ==> !Counts(bids[i], pid)
    ensures r.Some? ==> exists i :: 0 <= i < |bids| && Counts(bids[i], pid) && bids[i].bidPrice == r.value
    ensures r.Some? ==> forall i :: 0 <= i < |bids| && Counts(bids[i], pid) ==> bids[i].bidPrice <= r.value
  {
    if |bids| == 0 then None
    else
      var front := bids[..|bids| - 1];
      var b := bids[|bids| - 1];
      var rest := HighestBidPrice(front, pid);
      assert forall i :: 0 <= i < |front| ==> front[i] == bids[i];
      if !Counts(b, pid) then rest
      else
        match rest
        case None => Some(b.bidPrice)
        case Some(m) => Some(if b.bidPrice > m then b.bidPrice else m)
  }

  /** Appending a bid changes the highest price only of the product it is a live bid on. */
  lemma HighestBidPriceAppend(bids: seq<Bid>, b: Bid, pid: int)
    ensures !Counts(b, pid) ==> HighestBidPrice(bids + [b], pid) == HighestBidPrice(bids, pid)
    ensures Counts(b, pid) && (forall i :: 0 <= i < |bids| && Counts(bids[i], pid) ==> bids[i].bidPrice < b.bidPrice)
      ==> HighestBidPrice(bids + [b], pid) == Some(b.bidPrice)
  {
    assert (bids + [b])[..|bids|] == bids;
  }

  // ---------------------------------------------------------------- errors

  /** Why a bid is refused. */
  datatype BidError =
    | ProductNotFound | MemberNotFound
    | NotBiddable | NotStarted | AlreadyEnded | OwnProduct
    | NonPositivePrice | NotAboveHighest(highest: int) | NotHundredUnit | IncrementTooSmall
  {
    /** Missing entities are "404", every rule violation "400". */
    function ResultCode(): (code: string)
      ensures (ProductNotFound? || MemberNotFound?) <==> CodeStatus(code) == Some(404)
      ensures !(ProductNotFound? || MemberNotFound?) <==> CodeStatus(code) == Some(400)
    {
      CodeStatusOfPlainCode(NOT_FOUND);
      CodeStatusOfPlainCode(BAD_REQUEST);
      if ProductNotFound? || MemberNotFound? then NOT_FOUND.ResultCode() else BAD_REQUEST.ResultCode()
    }
  }

  // ---------------------------------------------------------------- validation

  /** The bid unit and the minimum raise. */
  const BID_UNIT: int := 100

  /**
   * The status, time-window and self-bid checks, in that order: the auction must be open, `now`
   * must lie in [startTime, endTime], and the bidder must not be the seller.
   */
  function ValidateAuction(p: Product, memberId: int, now: int): (o: Outcome<BidError>)
    ensures o.Pass? <==> p.status == AuctionStatus.BIDDING && p.startTime <= now <= p.endTime && p.sellerId != memberId
    ensures p.status != AuctionStatus.BIDDING ==> o == Fail(NotBiddable)
    ensures p.status == AuctionStatus.BIDDING && now < p.startTime ==> o == Fail(NotStarted)
    ensures p.status == AuctionStatus.BIDDING && p.startTime <= now && now > p.endTime ==> o == Fail(AlreadyEnded)
  {
    if p.status != AuctionStatus.BIDDING then Fail(NotBiddable)
    else if now < p.startTime then Fail(NotStarted)
    else if now > p.endTime then Fail(AlreadyEnded)
    else if p.sellerId == memberId then Fail(OwnProduct)
    else Pass
  }

  /**
   * `validateBidPrice` of `BidService`: present and positive, above the highest live bid (0 when there
   * is none), a multiple of 100, and at least 100 above the highest; checked in that order.
   */
  function ValidatePrice(price: Option<int>, highest: int): (o: Outcome<BidError>)
    ensures o.Pass? <==> price.Some? && price.value > 0 && price.value > highest
                         && price.value % BID_UNIT == 0 && price.value >= highest + BID_UNIT
    ensures (price.None? || price.value <= 0) ==> o == Fail(NonPositivePrice)
    ensures price.Some? && price.value > 0 && price.value <= highest ==> o == Fail(NotAboveHighest(highest))
    ensures price.Some? && price.value > 0 && price.value > highest && price.value % BID_UNIT != 0 ==> o == Fail(NotHundredUnit)
  {
    if price.None? || price.value <= 0 then Fail(NonPositivePrice)
    else if price.value <= highest then Fail(NotAboveHighest(highest))
    else if price.value % BID_UNIT != 0 then Fail(NotHundredUnit)
    else if price.value < highest + BID_UNIT then Fail(IncrementTooSmall)
    else Pass
  }

  /** When the highest price is itself a multiple of 100, the minimum-raise check can never be the one that fails. */
  lemma IncrementCheckRedundant(price: Option<int>, highest: int)
    requires highest % BID_UNIT == 0
    ensures ValidatePrice(price, highest) != Fail(IncrementTooSmall)
  {
    if price.Some? && price.value > highest && price.value % BID_UNIT == 0 {
      assert price.value - highest > 0 && (price.value - highest) % BID_UNIT == 0;
    }
  }

  // ---------------------------------------------------------------- accepting a bid

  /** What an accepted bid yields: the new repositories, the saved bid, the change events, and the 201 envelope. */
  datatype Accepted = Accepted(store: Store, bid: Bid, events: seq<ProductEvent>, response: RsData<Bid>)

  /**
   * `saveBid` then `updateProduct`: the bid is stored live, joins the product's bid list, becomes the
   * current price, and the tracker reports what changed. Shared by both bid paths.
   */
  function ApplyBid(st: Store, productId: int, bidderId: int, price: int, now: int): (a: Accepted)
    requires productId in st.products
    ensures a.bid == Bid(st.nextBidId, productId, bidderId, price, BidStatus.BIDDING, now, None, None)
    ensures a.store.bids == st.bids + [a.bid] && a.store.members == st.members
    ensures a.store.nextBidId == st.nextBidId + 1
    ensures a.store.products.Keys == st.products.Keys
    ensures a.store.products[productId] == AddBid(st.products[productId], bidderId).(currentPrice := price)
    ensures forall pid :: pid in st.products && pid != productId ==> a.store.products[pid] == st.products[pid]
    ensures a.events == PublishChanges(Snapshot(st.products[productId]), a.store.products[productId])
    ensures a.response.statusCode == 201 && a.response.data == Some(a.bid)
  {
    var p := st.products[productId];
    var bid := Bid(st.nextBidId, productId, bidderId, price, BidStatus.BIDDING, now, None, None);
    var updated := AddBid(p, bidderId).(currentPrice := price);
    var st' := st.(products := st.products[productId := updated], bids := st.bids + [bid], nextBidId := st.nextBidId + 1);
    Accepted(st', bid, PublishChanges(Snapshot(p), updated), Created("입찰이 완료되었습니다.", Some(bid)))
  }

  /** `createBid`: look up product and member, run the checks in order, then apply the bid. */
  function CreateBid(st: Store, productId: int, bidderId: int, price: Option<int>, now: int): (r: Result<Accepted, BidError>)
    ensures productId !in st.products ==> r == Failure(ProductNotFound)
    ensures productId in st.products && bidderId !in st.members ==> r == Failure(MemberNotFound)
    ensures r.Success? <==>
      productId in st.products && bidderId in st.members
      && ValidateAuction(st.products[productId], bidderId, now).Pass?
      && ValidatePrice(price, HighestBidPrice(st.bids, productId).GetOr(0)).Pass?
    ensures r.Success? ==> r.value == ApplyBid(st, productId, bidderId, price.value, now)
    ensures r.Success? ==> HighestBidPrice(r.value.store.bids, productId) == Some(price.value)
  {
    if productId !in st.products then Failure(ProductNotFound)
    else if bidderId !in st.members then Failure(MemberNotFound)
    else
      var p := st.products[productId];
      var highest := HighestBidPrice(st.bids, productId).GetOr(0);
      :- ValidateAuction(p, bidderId, now);
      :- ValidatePrice(price, highest);
      var a := ApplyBid(st, productId, bidderId, price.value, now);
      HighestBidPriceAppend(st.bids, a.bid, productId);
      Success(a)
  }

  // ---------------------------------------------------------------- invariants

  /** The live bids on `pid` have strictly increasing prices in creation order. */
  predicate Increasing(bids: seq<Bid>, pid: int) {
    forall i, j :: 0 <= i < j < |bids| && Counts(bids[i], pid) && Counts(bids[j], pid) ==> bids[i].bidPrice < bids[j].bidPrice
  }

  /** A product's current price is its highest live bid, or its initial price while it has none. */
  predicate PriceTracksBids(st: Store, pid: int)
    requires pid in st.products
  {
    st.products[pid].currentPrice == HighestBidPrice(st.bids, pid).GetOr(st.products[pid].initialPrice)
  }

  /** The store invariant both bid paths keep. */
  predicate Valid(st: Store) {
    forall pid :: pid in st.products ==> Increasing(st.bids, pid) && PriceTracksBids(st, pid)
  }

  /** Every live bid is a whole number of bid units. */
  predicate HundredUnits(st: Store) {
    forall i :: 0 <= i < |st.bids| && st.bids[i].status == BidStatus.BIDDING ==> st.bids[i].bidPrice % BID_UNIT == 0
  }

  /** A store whose products are fresh (price still the initial price) and which holds no bids is valid. */
  lemma FreshStoreValid(st: Store)
    requires st.bids == []
    requires forall pid :: pid in st.products ==> st.products[pid].currentPrice == st.products[pid].initialPrice
    ensures Valid(st) && HundredUnits(st)
  {
  }

  /** Applying a bid above every live bid on its product keeps the store valid. */
  lemma ApplyBidKeepsValid(st: Store, productId: int, bidderId: int, price: int, now: int)
    requires Valid(st) && productId in st.products
    requires forall i :: 0 <= i < |st.bids| && Counts(st.bids[i], productId) ==> st.bids[i].bidPrice < price
    ensures Valid(ApplyBid(st, productId, bidderId, price, now).store)
  {
    var a := ApplyBid(st, productId, bidderId, price, now);
    AppendLiveBidKeepsValid(st, a.store, a.bid);
  }

  /**
   * The store invariant survives appending a live bid above every live bid on its product, when that
   * product's price becomes the bid's and nothing else about the products changes.
   */
  lemma AppendLiveBidKeepsValid(st: Store, st': Store, bid: Bid)
    requires Valid(st) && bid.productId in st.products && bid.status == BidStatus.BIDDING
    requires forall i :: 0 <= i < |st.bids| && Counts(st.bids[i], bid.productId) ==> st.bids[i].bidPrice < bid.bidPrice
    requires st'.bids == st.bids + [bid] && st'.products.Keys == st.products.Keys
    requires st'.products[bid.productId].currentPrice == bid.bidPrice
    requires forall pid :: pid in st.products && pid != bid.productId ==> st'.products[pid] == st.products[pid]
    ensures Valid(st')
  {
    forall pid | pid in st'.products
      ensures Increasing(st'.bids, pid) && PriceTracksBids(st', pid)
    {
      HighestBidPriceAppend(st.bids, bid, pid);
      assert Increasing(st.bids, pid) && PriceTracksBids(st, pid);
      forall i, j | 0 <= i < j < |st'.bids| && Counts(st'.bids[i], pid) && Counts(st'.bids[j], pid)
        ensures st'.bids[i].bidPrice < st'.bids[j].bidPrice
      {
        assert st'.bids[i] == st.bids[i];
        if j < |st.bids| {
          assert st'.bids[j] == st.bids[j];
        }
      }
    }
  }

  /** Applying a whole-unit bid keeps every live price a whole number of units. */
  lemma ApplyBidKeepsHundredUnits(st: Store, productId: int, bidderId: int, price: int, now: int)
    requires HundredUnits(st) && productId in st.products && price % BID_UNIT == 0
    ensures HundredUnits(ApplyBid(st, productId, bidderId, price, now).store)
  {
    var a := ApplyBid(st, productId, bidderId, price, now);
    AppendKeepsHundredUnits(st.bids, a.bid);
    assert a.store.bids == st.bids + [a.bid];
  }

  lemma AppendKeepsHundredUnits(bids: seq<Bid>, bid: Bid)
    requires forall i :: 0 <= i < |bids| && bids[i].status == BidStatus.BIDDING ==> bids[i].bidPrice % BID_UNIT == 0
    requires bid.bidPrice % BID_UNIT == 0
    ensures forall i :: 0 <= i < |bids + [bid]| && (bids + [bid])[i].status == BidStatus.BIDDING ==> (bids + [bid])[i].bidPrice % BID_UNIT == 0
  {
    forall i | 0 <= i < |bids + [bid]| && (bids + [bid])[i].status == BidStatus.BIDDING
      ensures (bids + [bid])[i].bidPrice % BID_UNIT == 0
    {
      if i < |bids| { assert (bids + [bid])[i] == bids[i]; }
    }
  }

  /** `createBid` keeps the store valid and keeps live prices whole bid units. */
  lemma CreateBidKeepsValid(st: Store, productId: int, bidderId: int, price: Option<int>, now: int)
    requires Valid(st) && HundredUnits(st)
    ensures var r := CreateBid(st, productId, bidderId, price, now);
      r.Success? ==> Valid(r.value.store) && HundredUnits(r.value.store)
  {
    var r := CreateBid(st, productId, bidderId, price, now);
    if r.Success? {
      var h := HighestBidPrice(st.bids, productId);
      assert ValidatePrice(price, h.GetOr(0)).Pass?;
      var v := price.value;
      assert v > h.GetOr(0) && v % BID_UNIT == 0;
      forall i | 0 <= i < |st.bids| && Counts(st.bids[i], productId)
        ensures st.bids[i].bidPrice < v
      {
        assert h.Some?;
      }
      ApplyBidKeepsValid(st, productId, bidderId, v, now);
      ApplyBidKeepsHundredUnits(st, productId, bidderId, v, now);
    }
  }

  /** In a reachable store the minimum-raise check of `createBid` never fires. */
  lemma CreateBidNeverFailsOnIncrement(st: Store, productId: int, bidderId: int, price: Option<int>, now: int)
    requires HundredUnits(st)
    ensures CreateBid(st, productId, bidderId, price, now) != Failure(IncrementTooSmall)
  {
    var h := HighestBidPrice(st.bids, productId);
    if h.Some? {
      var i :| 0 <= i < |st.bids| && Counts(st.bids[i], productId) && st.bids[i].bidPrice == h.value;
    }
    IncrementCheckRedundant(price, h.GetOr(0));
  }

  /** One bid request of a sequential run. */
  datatype BidRequest = BidRequest(productId: int, bidderId: int, price: Option<int>, now: int)

  /** Requests applied one after another; a refused request leaves the store as it was. */
  function RunBids(st: Store, reqs: seq<BidRequest>): Store
    decreases |reqs|
  {
    if |reqs| == 0 then st
    else
      var q := reqs[0];
      match CreateBid(st, q.productId, q.bidderId, q.price, q.now)
      case Success(a) => RunBids(a.store, reqs[1..])
      case Failure(_) => RunBids(st, reqs[1..])
  }

  /**
   * Any run of requests from a valid store ends in a valid store: on every product the accepted prices
   * strictly increase, and the current price is the highest accepted one.
   */
  lemma {:induction false} RunBidsKeepsValid(st: Store, reqs: seq<BidRequest>)
    requires Valid(st) && HundredUnits(st)
    ensures Valid(RunBids(st, reqs)) && HundredUnits(RunBids(st, reqs))
    decreases |reqs|
  {
    if |reqs| > 0 {
      var q := reqs[0];
      CreateBidKeepsValid(st, q.productId, q.bidderId, q.price, q.now);
      match CreateBid(st, q.productId, q.bidderId, q.price, q.now)
      case Success(a) => RunBidsKeepsValid(a.store, reqs[1..]);
      case Failure(_) => RunBidsKeepsValid(st, reqs[1..]);
    }
  }

  /** In a valid store a product with live bids has the highest of them as its current price. */
  lemma CurrentPriceIsHighestBid(st: Store, pid: int, i: nat)
    requires Valid(st) && pid in st.products
    requires i < |st.bids| && Counts(st.bids[i], pid)
    ensures st.bids[i].bidPrice <= st.products[pid].currentPrice
    ensures exists j :: 0 <= j < |st.bids| && Counts(st.bids[j], pid) && st.bids[j].bidPrice == st.products[pid].currentPrice
  {
    assert PriceTracksBids(st, pid);
  }

  // ---------------------------------------------------------------- finding: the first bid of createBid

  /**
   * With no live bids `createBid` compares against 0 rather than the initial price, so a first bid far
   * below the starting price is accepted and the current price drops.
   */
  lemma FirstBidBelowInitialPrice()
    ensures var p := NewProduct(1, "p", "d", ETC, 1_000_000, 0, 24, DELIVERY, None, 7, "seller", 0);
      var st := Store(map[1 := p], {8}, [], 1);
      var r := CreateBid(st, 1, 8, Some(100), 60);
      r.Success? && r.value.store.products[1].currentPrice == 100 < p.initialPrice
  {
    var p := NewProduct(1, "p", "d", ETC, 1_000_000, 0, 24, DELIVERY, None, 7, "seller", 0);
    var st := Store(map[1 := p], {8}, [], 1);
    assert HighestBidPrice(st.bids, 1) == None;
    assert ValidateAuction(p, 8, 60).Pass?;
    assert ValidatePrice(Some(100), 0).Pass?;
  }

  // ---------------------------------------------------------------- my bids

  /** `findCurrentPricesForProducts`: the highest live price of each product that has one. */
  function CurrentPrices(bids: seq<Bid>, pids: set<int>): (m: map<int, int>)
    ensures forall pid :: pid in m <==> pid in pids && HighestBidPrice(bids, pid).Some?
    ensures forall pid :: pid in m ==> m[pid] == HighestBidPrice(bids, pid).value
  {
    map pid | pid in pids && HighestBidPrice(bids, pid).Some? :: HighestBidPrice(bids, pid).value
  }

  /** One row of "my bids". */
  datatype MyBidItem = MyBidItem(bid: Bid, currentHighestPrice: int, isWinning: bool)

  /** `createMyBidItems`: each bid with its product's highest price (0 if unknown) and whether it is that price. */
  function MyBidItems(page: seq<Bid>, currentPrices: map<int, int>): (items: seq<MyBidItem>)
    ensures |items| == |page|
    ensures forall k :: 0 <= k < |page| ==> items[k].bid == page[k]
    ensures forall k :: 0 <= k < |page| ==>
      items[k].currentHighestPrice == (if page[k].productId in currentPrices then currentPrices[page[k].productId] else 0)
    ensures forall k :: 0 <= k < |page| ==> (items[k].isWinning <==> page[k].bidPrice == items[k].currentHighestPrice)
  {
    seq(|page|, k requires 0 <= k < |page| =>
      var h := if page[k].productId in currentPrices then currentPrices[page[k].productId] else 0;
      MyBidItem(page[k], h, page[k].bidPrice == h))
  }

  /** In a valid store a live bid is shown as winning exactly when no later live bid exists on its product. */
  lemma {:induction false} WinningIsLatestLiveBid(st: Store, i: nat)
    requires i < |st.bids| && st.bids[i].status == BidStatus.BIDDING
    requires Increasing(st.bids, st.bids[i].productId)
    ensures var b := st.bids[i];
      MyBidItems([b], CurrentPrices(st.bids, {b.productId}))[0].isWinning
      <==> forall j :: i < j < |st.bids| ==> !Counts(st.bids[j], b.productId)
  {
    var b := st.bids[i];
    var pid := b.productId;
    var h := HighestBidPrice(st.bids, pid);
    assert Counts(b, pid);
    if forall j :: i < j < |st.bids| ==> !Counts(st.bids[j], pid) {
      forall k | 0 <= k < |st.bids| && Counts(st.bids[k], pid)
        ensures st.bids[k].bidPrice <= b.bidPrice
      {
        if k < i { assert st.bids[k].bidPrice < b.bidPrice; }
      }
      var w :| 0 <= w < |st.bids| && Counts(st.bids[w], pid) && st.bids[w].bidPrice == h.value;
    } else {
      var j :| i < j < |st.bids| && Counts(st.bids[j], pid);
      assert b.bidPrice < st.bids[j].bidPrice <= h.value;
    }
  }
}

=== FILE: cash.dfy ===
/**
 * `CashService` and the wallet it reads: one wallet per member, a ledger of deposits and
 * withdrawals, the paged ledger listing, the ledger detail with its links, and the deposit step
 * `PaymentService.charge` performs on a wallet.
 */
module Wallet {

  import opened Wrappers
  import opened Strings
  import opened Paging
  import opened Bidding
  import opened BidPayment

  datatype CashTxType = DEPOSIT | WITHDRAW {
    function Name(): string {
      match this
      case DEPOSIT => "DEPOSIT"
      case WITHDRAW => "WITHDRAW"
    }
  }

  /** What a ledger row is about; only the two kinds with links are named. */
  datatype RelatedType = PAYMENT | BID | OtherRelated(name: string) {
    function Name(): string {
      match this
      case PAYMENT => "PAYMENT"
      case BID => "BID"
      case OtherRelated(n) => n
    }
  }

  /** A wallet; the balance is a nullable number. */
  datatype Cash = Cash(id: int, memberId: int, balance: Option<int>)

  /** A ledger row; `balanceAfter` is the wallet's balance right after it. */
  datatype CashTransaction = CashTransaction(
    id: int, cashId: int, txType: CashTxType, amount: int, balanceAfter: int,
    relatedType: Option<RelatedType>, relatedId: Option<int>, createDate: Option<int>)

  /** The wallet and ledger repositories; rows are stored in id order. */
  datatype Ledger = Ledger(wallets: seq<Cash>, txs: seq<CashTransaction>, nextCashId: int, nextTxId: int)

  /** Wallet ids and row ids are handed out in increasing order and each member has at most one wallet. */
  predicate Valid(l: Ledger) {
    && (forall i :: 0 <= i < |l.wallets| ==> l.wallets[i].id < l.nextCashId)
    && (forall i, j :: 0 <= i < j < |l.wallets| ==> l.wallets[i].id != l.wallets[j].id && l.wallets[i].memberId != l.wallets[j].memberId)
    && (forall i :: 0 <= i < |l.txs| ==> l.txs[i].id < l.nextTxId)
    && (forall i, j :: 0 <= i < j < |l.txs| ==> l.txs[i].id < l.txs[j].id)
  }

  /** `findByMember`: the position of the member's wallet. */
  function FindWallet(wallets: seq<Cash>, memberId: int): (r: Option<nat>)
    ensures r.Some? ==> r.value < |wallets| && wallets[r.value].memberId == memberId
    ensures r.None? ==> forall i :: 0 <= i < |wallets| ==> wallets[i].memberId != memberId
  {
    if |wallets| == 0 then None
    else if wallets[|wallets| - 1].memberId == memberId then Some(|wallets| - 1)
    else FindWallet(wallets[..|wallets| - 1], memberId)
  }

  /** The balance a response reports: the wallet's, or 0 when the member has none. */
  function BalanceOf(l: Ledger, memberId: int): int {
    match FindWallet(l.wallets, memberId)
    case None => 0
    case Some(i) => l.wallets[i].balance.GetOr(0)
  }

  // ---------------------------------------------------------------- the listing

  /** `findAllByCashOrderByIdDesc`: the wallet's rows, newest first. */
  function NewestFirst(txs: seq<CashTransaction>, cashId: int): (r: seq<CashTransaction>)
    ensures forall k :: 0 <= k < |r| ==> r[k].cashId == cashId
    ensures forall k :: 0 <= k < |r| ==> r[k] in txs
    ensures forall t :: t in txs && t.cashId == cashId ==> t in r
  {
    if |txs| == 0 then []
    else
      var last := txs[|txs| - 1];
      var rest := NewestFirst(txs[..|txs| - 1], cashId);
      assert forall t :: t in txs[..|txs| - 1] ==> t in txs;
      assert forall t :: t in txs ==> t in txs[..|txs| - 1] || t == last;
      if last.cashId == cashId then [last] + rest else rest
  }

  /** Rows in strictly decreasing id order. */
  predicate Descending(r: seq<CashTransaction>) {
    forall a, b :: 0 <= a < b < |r| ==> r[a].id > r[b].id
  }

  /** The listing only holds rows of the ledger, so it keeps any bound on their ids. */
  lemma {:induction false} NewestFirstIdsBelow(txs: seq<CashTransaction>, cashId: int, bound: int)
    requires forall i :: 0 <= i < |txs| ==> txs[i].id < bound
    ensures forall k :: 0 <= k < |NewestFirst(txs, cashId)| ==> NewestFirst(txs, cashId)[k].id < bound
  {
    if |txs| > 0 {
      NewestFirstIdsBelow(txs[..|txs| - 1], cashId, bound);
    }
  }

  /** In a ledger stored in id order the listing is in strictly decreasing id order. */
  lemma {:induction false} NewestFirstIsDescending(txs: seq<CashTransaction>, cashId: int)
    requires forall i, j :: 0 <= i < j < |txs| ==> txs[i].id < txs[j].id
    ensures Descending(NewestFirst(txs, cashId))
  {
    if |txs| > 0 {
      var front := txs[..|txs| - 1];
      var last := txs[|txs| - 1];
      NewestFirstIsDescending(front, cashId);
      NewestFirstIdsBelow(front, cashId, last.id);
      var rest := NewestFirst(front, cashId);
      var r := NewestFirst(txs, cashId);
      if last.cashId == cashId {
        assert r == [last] + rest;
        forall a, b | 0 <= a < b < |r| ensures r[a].id > r[b].id {
          if a > 0 {
            assert r[a] == rest[a - 1] && r[b] == rest[b - 1];
          } else {
            assert r[b] == rest[b - 1];
          }
        }
      } else {
        assert r == rest;
      }
    }
  }

  /** `Related` of a row: present exactly when both its type and its id are. */
  datatype Related = Related(relatedType: string, id: int)

  /** One row of the listing. */
  datatype TxItem = TxItem(transactionId: int, cashId: int, txType: string, amount: int, balanceAfter: int,
                           createdAt: Option<int>, related: Option<Related>)

  /** `toItem`. */
  function ToItem(tx: CashTransaction): (r: TxItem)
    ensures r.related.Some? <==> tx.relatedType.Some? && tx.relatedId.Some?
    ensures r.related.Some? ==> r.related.value == Related(tx.relatedType.value.Name(), tx.relatedId.value)
    ensures r.transactionId == tx.id && r.cashId == tx.cashId && r.amount == tx.amount && r.balanceAfter == tx.balanceAfter
  {
    var related := if tx.relatedType.Some? && tx.relatedId.Some?
                   then Some(Related(tx.relatedType.value.Name(), tx.relatedId.value)) else None;
    TxItem(tx.id, tx.cashId, tx.txType.Name(), tx.amount, tx.balanceAfter, tx.createDate, related)
  }

  /** The listing response: the caller's page and size as given, the total, and the rows. */
  datatype TxList = TxList(page: int, size: int, total: nat, items: seq<TxItem>)

  /**
   * `getMyTransactions`: 404 without a wallet; otherwise page `page1Base` (clamped to the first page)
   * of size `size` (at least 1) of the wallet's rows, newest first. The response repeats the
   * caller's page and size unclamped.
   */
  function GetMyTransactions(l: Ledger, memberId: int, page1Base: int, size: int): (r: Result<TxList, int>)
    ensures FindWallet(l.wallets, memberId).None? <==> r == Failure(404)
    ensures r.Success? ==> r.value.page == page1Base && r.value.size == size
    ensures r.Success? ==>
      var all := NewestFirst(l.txs, l.wallets[FindWallet(l.wallets, memberId).value].id);
      var req := CashPageRequest(page1Base, size);
      && r.value.total == |all|
      && |r.value.items| <= req.size
      && (var start := req.pageIndex * req.size;
          |r.value.items| == (if start >= |all| then 0 else if start + req.size <= |all| then req.size else |all| - start))
      && (|r.value.items| > 0 ==> req.pageIndex * req.size + |r.value.items| <= |all|)
      && forall k :: 0 <= k < |r.value.items| ==> r.value.items[k] == ToItem(all[req.pageIndex * req.size + k])
  {
    var i :- FindWallet(l.wallets, memberId).ToResult(404);
    var page := PageOf(NewestFirst(l.txs, l.wallets[i].id), CashPageRequest(page1Base, size));
    Success(TxList(page1Base, size, page.totalElements, seq(|page.content|, k requires 0 <= k < |page.content| => ToItem(page.content[k]))))
  }

  /** The listing shows only rows of the caller's own wallet. */
  lemma ListingShowsOwnRowsOnly(l: Ledger, memberId: int, page1Base: int, size: int)
    ensures var r := GetMyTransactions(l, memberId, page1Base, size);
      r.Success? ==> forall k :: 0 <= k < |r.value.items| ==>
        exists t :: (t in l.txs && t.id == r.value.items[k].transactionId && t.cashId == r.value.items[k].cashId
                     && r.value.items[k].cashId == l.wallets[FindWallet(l.wallets, memberId).value].id)
  {
    var r := GetMyTransactions(l, memberId, page1Base, size);
    if r.Success? {
      var w := l.wallets[FindWallet(l.wallets, memberId).value].id;
      var all := NewestFirst(l.txs, w);
      var req := CashPageRequest(page1Base, size);
      forall k | 0 <= k < |r.value.items|
        ensures exists t :: (t in l.txs && t.id == r.value.items[k].transactionId && t.cashId == r.value.items[k].cashId
                             && r.value.items[k].cashId == w)
      {
        var t := all[req.pageIndex * req.size + k];
        assert t in l.txs && t.cashId == w;
      }
    }
  }

  // ---------------------------------------------------------------- the detail

  /** The links of a detail: at most one of them is set. */
  datatype Links = Links(paymentDetail: Option<string>, bidDetail: Option<string>)

  const PAYMENT_LINK: string := "/api/v1/payments/me/"
  const BID_LINK: string := "/api/v1/bids/products/"

  /** The product of the bid with id `bidId`, when that bid exists. */
  function BidProduct(bids: seq<Bid>, bidId: int): (r: Option<int>)
    ensures r.Some? <==> FindBid(bids, bidId).Some?
  {
    match FindBid(bids, bidId)
    case None => None
    case Some(i) => Some(bids[i].productId)
  }

  /**
   * `buildLinks`: a payment links to its receipt, a bid to its product's bid page (no link when the
   * bid is gone), anything else to nothing.
   */
  function BuildLinks(t: RelatedType, id: int, bids: seq<Bid>): (r: Option<Links>)
    ensures t == PAYMENT ==> r == Some(Links(Some(PAYMENT_LINK + IntToString(id)), None))
    ensures t == BID ==> (r.Some? <==> BidProduct(bids, id).Some?)
    ensures t == BID && r.Some? ==> r.value == Links(None, Some(BID_LINK + IntToString(BidProduct(bids, id).value)))
    ensures t.OtherRelated? ==> r == None
  {
    match t
    case PAYMENT => Some(Links(Some(PAYMENT_LINK + IntToString(id)), None))
    case BID =>
      (match BidProduct(bids, id)
       case None => None
       case Some(pid) => Some(Links(None, Some(BID_LINK + IntToString(pid)))))
    case OtherRelated(_) => None
  }

  /** The payment id can be read back from the end of its receipt link. */
  lemma PaymentLinkNamesPayment(id: nat, bids: seq<Bid>)
    requires id <= INT_MAX
    ensures var link := BuildLinks(PAYMENT, id, bids).value.paymentDetail.value;
      StartsWith(link, PAYMENT_LINK) && ParseInt(link[|PAYMENT_LINK|..]) == Some(id)
  {
    var link := PAYMENT_LINK + IntToString(id);
    assert link[|PAYMENT_LINK|..] == NatToString(id);
    assert link[..|PAYMENT_LINK|] == PAYMENT_LINK;
    ParseIntOfNatToString(id);
  }

  datatype DetailRelated = DetailRelated(relatedType: string, id: int, links: Option<Links>)

  datatype TxDetail = TxDetail(transactionId: int, cashId: int, txType: string, amount: int, balanceAfter: int,
                               createdAt: Option<int>, related: Option<DetailRelated>)

  /** `findByIdAndCash`: the position of row `txId` of wallet `cashId`. */
  function FindTx(txs: seq<CashTransaction>, txId: int, cashId: int): (r: Option<nat>)
    ensures r.Some? ==> r.value < |txs| && txs[r.value].id == txId && txs[r.value].cashId == cashId
    ensures r.None? ==> forall i :: 0 <= i < |txs| ==> !(txs[i].id == txId && txs[i].cashId == cashId)
  {
    if |txs| == 0 then None
    else if txs[|txs| - 1].id == txId && txs[|txs| - 1].cashId == cashId then Some(|txs| - 1)
    else FindTx(txs[..|txs| - 1], txId, cashId)
  }

  /**
   * `getMyTransactionDetail`: 404 without a wallet, 404 unless the row belongs to the caller's
   * wallet; the related part and its links appear only when the row has both a type and an id.
   */
  function GetMyTransactionDetail(l: Ledger, memberId: int, txId: int, bids: seq<Bid>): (r: Result<TxDetail, int>)
    ensures r.Failure? ==> r.error == 404
    ensures r.Success? <==>
      (FindWallet(l.wallets, memberId).Some?
       && exists i :: 0 <= i < |l.txs| && l.txs[i].id == txId && l.txs[i].cashId == l.wallets[FindWallet(l.wallets, memberId).value].id)
    ensures r.Success? ==> r.value.transactionId == txId && r.value.cashId == l.wallets[FindWallet(l.wallets, memberId).value].id
  {
    var w :- FindWallet(l.wallets, memberId).ToResult(404);
    var cashId := l.wallets[w].id;
    var i :- FindTx(l.txs, txId, cashId).ToResult(404);
    var tx := l.txs[i];
    var related := if tx.relatedType.Some? && tx.relatedId.Some?
                   then Some(DetailRelated(tx.relatedType.value.Name(), tx.relatedId.value,
                                           BuildLinks(tx.relatedType.value, tx.relatedId.value, bids)))
                   else None;
    Success(TxDetail(tx.id, tx.cashId, tx.txType.Name(), tx.amount, tx.balanceAfter, tx.createDate, related))
  }

  /** Another member's row is never shown: the same row id answers 404 to anyone whose wallet it is not. */
  lemma DetailHidesOtherWallets(l: Ledger, memberId: int, txId: int, bids: seq<Bid>)
    requires Valid(l)
    requires forall i :: 0 <= i < |l.txs| && l.txs[i].id == txId ==>
      FindWallet(l.wallets, memberId).None? || l.txs[i].cashId != l.wallets[FindWallet(l.wallets, memberId).value].id
    ensures GetMyTransactionDetail(l, memberId, txId, bids) == Failure(404)
  {
  }

  // ---------------------------------------------------------------- deposits

  /** The result of a deposit: the ledger, the new row's id and the new balance. */
  datatype Deposited = Deposited(ledger: Ledger, txId: int, balance: int)

  /**
   * The deposit step of `charge`: the member's wallet (created at 0 when missing) grows by `amount`
   * (a null balance counting as 0) and one DEPOSIT row records the amount and the new balance.
   */
  function Deposit(l: Ledger, memberId: int, amount: int, relatedType: RelatedType, relatedId: int, now: int): (d: Deposited)
    ensures d.balance == BalanceOf(l, memberId) + amount
    ensures BalanceOf(d.ledger, memberId) == d.balance && FindWallet(d.ledger.wallets, memberId).Some?
    ensures |d.ledger.txs| == |l.txs| + 1 && d.ledger.txs[..|l.txs|] == l.txs
    ensures d.ledger.txs[|l.txs|] == CashTransaction(l.nextTxId, d.ledger.wallets[FindWallet(d.ledger.wallets, memberId).value].id,
                                                    DEPOSIT, amount, d.balance, Some(relatedType), Some(relatedId), Some(now))
    ensures d.txId == l.nextTxId && d.ledger.nextTxId == l.nextTxId + 1
    ensures forall m :: m != memberId ==> BalanceOf(d.ledger, m) == BalanceOf(l, m)
  {
    var (wallets, w, nextCashId) :=
      match FindWallet(l.wallets, memberId)
      case Some(i) => (l.wallets, i, l.nextCashId)
      case None => (l.wallets + [Cash(l.nextCashId, memberId, Some(0))], |l.wallets|, l.nextCashId + 1);
    var balance := wallets[w].balance.GetOr(0) + amount;
    var wallets' := wallets[w := wallets[w].(balance := Some(balance))];
    var tx := CashTransaction(l.nextTxId, wallets[w].id, DEPOSIT, amount, balance, Some(relatedType), Some(relatedId), Some(now));
    WalletUpdateFinds(wallets, w, balance);
    Deposited(Ledger(wallets', l.txs + [tx], nextCashId, l.nextTxId + 1), l.nextTxId, balance)
  }

  /** Replacing a wallet's balance leaves every member's wallet where it was. */
  lemma {:induction false} WalletUpdateFinds(wallets: seq<Cash>, w: nat, balance: int)
    requires w < |wallets|
    ensures forall m :: FindWallet(wallets[w := wallets[w].(balance := Some(balance))], m) == FindWallet(wallets, m)
    decreases |wallets|
  {
    var u := wallets[w := wallets[w].(balance := Some(balance))];
    forall m ensures FindWallet(u, m) == FindWallet(wallets, m) {
      if |wallets| > 0 && w < |wallets| - 1 {
        assert u[..|u| - 1] == wallets[..|wallets| - 1][w := wallets[w].(balance := Some(balance))];
        WalletUpdateFinds(wallets[..|wallets| - 1], w, balance);
      } else if |wallets| > 0 {
        assert u[..|u| - 1] == wallets[..|wallets| - 1];
      }
    }
  }

  /** The balance shown by the newest row of wallet `cashId`, if it has any. */
  function LastBalanceAfter(txs: seq<CashTransaction>, cashId: int): (r: Option<int>)
    ensures r.None? <==> forall k :: 0 <= k < |txs| ==> txs[k].cashId != cashId
  {
    if |txs| == 0 then None
    else if txs[|txs| - 1].cashId == cashId then Some(txs[|txs| - 1].balanceAfter)
    else LastBalanceAfter(txs[..|txs| - 1], cashId)
  }

  /** A wallet is reconciled when its newest row, if any, shows its current balance. */
  predicate Reconciled(l: Ledger) {
    forall i :: 0 <= i < |l.wallets| ==>
      LastBalanceAfter(l.txs, l.wallets[i].id).GetOr(l.wallets[i].balance.GetOr(0)) == l.wallets[i].balance.GetOr(0)
  }

  /** Depositing keeps the ledger valid. */
  lemma DepositKeepsValid(l: Ledger, memberId: int, amount: int, relatedType: RelatedType, relatedId: int, now: int)
    requires Valid(l)
    ensures Valid(Deposit(l, memberId, amount, relatedType, relatedId, now).ledger)
  {
  }

  /** Depositing keeps every wallet reconciled: the new row shows the new balance, other wallets are untouched. */
  lemma DepositKeepsReconciled(l: Ledger, memberId: int, amount: int, relatedType: RelatedType, relatedId: int, now: int)
    requires Valid(l) && Reconciled(l)
    ensures Reconciled(Deposit(l, memberId, amount, relatedType, relatedId, now).ledger)
  {
    var d := Deposit(l, memberId, amount, relatedType, relatedId, now);
    var l' := d.ledger;
    var tx := l'.txs[|l.txs|];
    assert l'.txs[..|l.txs|] == l.txs;
    forall i | 0 <= i < |l'.wallets|
      ensures LastBalanceAfter(l'.txs, l'.wallets[i].id).GetOr(l'.wallets[i].balance.GetOr(0)) == l'.wallets[i].balance.GetOr(0)
    {
      if l'.wallets[i].id != tx.cashId {
        assert LastBalanceAfter(l'.txs, l'.wallets[i].id) == LastBalanceAfter(l.txs, l'.wallets[i].id);
        if i < |l.wallets| {
          assert l'.wallets[i] == l.wallets[i];
        }
      }
    }
  }
}

=== FILE: exceptions.dfy ===
/** `ServiceException`, its product-specific codes, and how the global handler turns exceptions into responses. */
module Exceptions {

  import opened Wrappers
  import opened Strings
  import opened Responses

  /** An application exception: a result code and a human message. */
  datatype ServiceException = ServiceException(resultCode: string, msg: string) {

    /** `getMessage()`: the code, a colon, then the message, so that both can be recovered. */
    function Message(): (m: string)
      ensures StartsWith(m, resultCode + ":")
      ensures m[|resultCode| + 1..] == msg
    {
      resultCode + ":" + msg
    }

    /** `getRsData()`: the code and message with no payload; fails like the constructor on a non-numeric code. */
    function GetRsData(): (r: Option<RsData<()>>)
      ensures r.Some? <==> CodeStatus(resultCode).Some?
      ensures r.Some? ==> r.value.resultCode == resultCode && r.value.msg == msg && r.value.data == None
    {
      NewRsData(resultCode, msg, None)
    }
  }

  /** The four status factories: a bare three-digit code, which is its own HTTP status. */
  function OfStatus(s: RsStatus, msg: string): (e: ServiceException)
    ensures CodeStatus(e.resultCode) == Some(s.StatusCode())
    ensures ParseInt(e.resultCode) == Some(s.StatusCode())
    ensures e.msg == msg
  {
    CodeStatusOfPlainCode(s);
    ServiceException(s.ResultCode(), msg)
  }

  function BadRequest(msg: string): (e: ServiceException)
    ensures ParseInt(e.resultCode) == Some(400) && e.msg == msg
  {
    OfStatus(BAD_REQUEST, msg)
  }

  function Unauthorized(msg: string): (e: ServiceException)
    ensures ParseInt(e.resultCode) == Some(401) && e.msg == msg
  {
    OfStatus(UNAUTHORIZED, msg)
  }

  function Forbidden(msg: string): (e: ServiceException)
    ensures ParseInt(e.resultCode) == Some(403) && e.msg == msg
  {
    OfStatus(FORBIDDEN, msg)
  }

  function NotFound(msg: string): (e: ServiceException)
    ensures ParseInt(e.resultCode) == Some(404) && e.msg == msg
  {
    OfStatus(NOT_FOUND, msg)
  }

  // ---------------------------------------------------------------- product codes

  /** A product result code "<status>-<detail>". */
  function ProductCode(s: RsStatus, detail: nat): (code: string)
    ensures CodeStatus(code) == Some(s.StatusCode())
    ensures ParseInt(code) == None
  {
    var code := s.ResultCode() + "-" + NatToString(detail);
    CodeStatusOfDetailedCode(s, NatToString(detail));
    ParseIntRejectsInnerDash(code, |s.ResultCode()|);
    code
  }

  /** A product code determines both its status and its detail number. */
  lemma {:induction false} ProductCodeInjective(s1: RsStatus, d1: nat, s2: RsStatus, d2: nat)
    requires ProductCode(s1, d1) == ProductCode(s2, d2)
    ensures s1 == s2 && d1 == d2
  {
    assert Some(s1.StatusCode()) == CodeStatus(ProductCode(s1, d1)) == Some(s2.StatusCode());
    StatusCodeInjective(s1, s2);
    var n := |s1.ResultCode()| + 1;
    assert ProductCode(s1, d1)[n..] == NatToString(d1);
    assert ProductCode(s2, d2)[n..] == NatToString(d2);
    assert DigitsValue(NatToString(d1)) == DigitsValue(NatToString(d2));
  }

  /** The errors `ProductException` can carry. */
  datatype ProductError =
    | ProductNotFound | ImageNotFound
    | AccessModifyForbidden | AccessDeleteForbidden | AuctionModifyForbidden | AuctionDeleteForbidden
    | LocationRequired | ImageRequired | ImageMaxCountExceeded | EmptyFile | FileTooLarge
    | InvalidFileName | UnsupportedFileType | FileUploadFailed | ImageNotBelongToProduct
  {
    /** The status family: not-found, forbidden or bad-request. */
    function Status(): (s: RsStatus)
      ensures s == NOT_FOUND || s == FORBIDDEN || s == BAD_REQUEST
    {
      match this
      case ProductNotFound | ImageNotFound => NOT_FOUND
      case AccessModifyForbidden | AccessDeleteForbidden | AuctionModifyForbidden | AuctionDeleteForbidden => FORBIDDEN
      case _ => BAD_REQUEST
    }

    /** The detail number, counted from 1 within each family. */
    function Detail(): (d: nat)
      ensures Status() == NOT_FOUND ==> 1 <= d <= 2
      ensures Status() == FORBIDDEN ==> 1 <= d <= 4
      ensures Status() == BAD_REQUEST ==> 1 <= d <= 9
    {
      match this
      case ProductNotFound => 1
      case ImageNotFound => 2
      case AccessModifyForbidden => 1
      case AccessDeleteForbidden => 2
      case AuctionModifyForbidden => 3
      case AuctionDeleteForbidden => 4
      case LocationRequired => 1
      case ImageRequired => 2
      case ImageMaxCountExceeded => 3
      case EmptyFile => 4
      case FileTooLarge => 5
      case InvalidFileName => 6
      case UnsupportedFileType => 7
      case FileUploadFailed => 8
      case ImageNotBelongToProduct => 9
    }

    /** The result code the exception carries. */
    function Code(): string {
      ProductCode(Status(), Detail())
    }
  }

  /** Every product error has its own result code. */
  lemma {:induction false} ProductCodesDistinct(a: ProductError, b: ProductError)
    requires a.Code() == b.Code()
    ensures a == b
  {
    ProductCodeInjective(a.Status(), a.Detail(), b.Status(), b.Detail());
    StatusDetailInjective(a, b);
  }

  /** The status family and the detail number together name one product error. */
  lemma StatusDetailInjective(a: ProductError, b: ProductError)
    requires a.Status() == b.Status() && a.Detail() == b.Detail()
    ensures a == b
  {
  }

  lemma NotFoundCode(d: nat)
    requires d < 10
    ensures ProductCode(NOT_FOUND, d) == "404-" + [DigitChar(d)]
  {
    NotFoundResultCode();
    var digits := NatToString(d);
    assert digits == [DigitChar(d)];
    assert ProductCode(NOT_FOUND, d) == NOT_FOUND.ResultCode() + "-" + digits;
  }

  lemma NotFoundResultCode()
    ensures NOT_FOUND.ResultCode() == "404"
  {
    assert NOT_FOUND.StatusCode() == 404;
    var four := NatToString(4);
    assert four == "4";
    var forty := NatToString(40);
    assert forty == four + "0";
    assert NatToString(404) == forty + "4";
  }

  /** The two not-found codes are "404-1" and "404-2". */
  lemma NotFoundCodes()
    ensures ProductNotFound.Code() == "404-1" && ImageNotFound.Code() == "404-2"
  {
    assert ProductNotFound.Status() == NOT_FOUND && ProductNotFound.Detail() == 1;
    NotFoundCode(1);
    assert DigitChar(1) == '1';
    assert ProductNotFound.Code() == "404-1";
    assert ImageNotFound.Status() == NOT_FOUND && ImageNotFound.Detail() == 2;
    NotFoundCode(2);
    assert DigitChar(2) == '2';
  }

  // ---------------------------------------------------------------- the global handler

  /** What the handler receives. */
  datatype Thrown =
    | Service(e: ServiceException)
    | ResponseStatus(status: int, reason: string)
    | IllegalArgument(message: string)
    | NotReadable(message: string)
    | ConstraintViolation(message: string)
    | ArgumentNotValid(firstFieldError: Option<(string, string)>)
    | NoSuchElement(optMessage: Option<string>)
    | NullPointer(optMessage: Option<string>)
    | Authentication
    | AccessDenied
    | Other

  /** An HTTP response: status line plus envelope. */
  datatype HttpResponse = HttpResponse(status: int, body: RsData<()>)

  /** The message with a leading "<code>:" removed, if present. */
  function StripCodePrefix(message: string, code: string): (m: string)
    ensures StartsWith(message, code + ":") ==> m == message[|code| + 1..]
    ensures !StartsWith(message, code + ":") ==> m == message
  {
    if StartsWith(message, code + ":") then message[|code| + 1..] else message
  }

  /** Builds a response whose body comes from the parsing constructor; `None` when that constructor throws or `status` is not a known HTTP status. */
  function Respond(code: string, msg: string, status: int, known: set<int>): (r: Option<HttpResponse>)
    ensures r.Some? <==> CodeStatus(code).Some? && status in known
    ensures r.Some? ==> r.value.status == status && r.value.body.resultCode == code && r.value.body.msg == msg
    ensures r.Some? ==> Consistent(r.value.body) && r.value.body.data == None
  {
    if status !in known then None
    else
      match NewRsData<()>(code, msg, None)
      case None => None
      case Some(body) => Some(HttpResponse(status, body))
  }

  /**
   * `handleServiceException` as written: the HTTP status is the WHOLE result code parsed as a number,
   * and 400 when that fails. `known` is the set of codes `HttpStatus.valueOf` accepts.
   */
  function HandleServiceException(e: ServiceException, known: set<int>): (r: Option<HttpResponse>)
    ensures r.Some? ==> r.value.body.msg == e.msg && r.value.body.resultCode == e.resultCode
    ensures r.Some? && ParseInt(e.resultCode).None? ==> r.value.status == 400
    ensures r.Some? && ParseInt(e.resultCode).Some? ==> r.value.status == ParseInt(e.resultCode).value
  {
    var status := match ParseInt(e.resultCode) case Some(n) => n case None => 400;
    Respond(e.resultCode, StripCodePrefix(e.Message(), e.resultCode), status, known)
  }

  /** A product not-found error reaches the client with HTTP 400 while its body says 404. */
  lemma ProductNotFoundAnsweredWith400(msg: string, known: set<int>)
    requires 400 in known
    ensures var r := HandleServiceException(ServiceException(ProductNotFound.Code(), msg), known);
      r.Some? && r.value.status == 400 && r.value.body.statusCode == 404
  {
  }

  /** The handler with the status taken from the code's prefix, as the body already does. */
  function HandleServiceExceptionFixed(e: ServiceException, known: set<int>): (r: Option<HttpResponse>)
    ensures r.Some? ==> r.value.body.msg == e.msg && r.value.body.resultCode == e.resultCode
    ensures r.Some? ==> r.value.status == r.value.body.statusCode
    ensures CodeStatus(e.resultCode).Some? && CodeStatus(e.resultCode).value in known ==> r.Some?
  {
    match CodeStatus(e.resultCode)
    case None => Respond(e.resultCode, e.msg, 400, known)
    case Some(n) => Respond(e.resultCode, StripCodePrefix(e.Message(), e.resultCode), n, known)
  }

  /** With the fix, every product error is answered with the status family its code names. */
  lemma FixedHandlerAnswersProductStatus(p: ProductError, msg: string, known: set<int>)
    requires p.Status().StatusCode() in known
    ensures var r := HandleServiceExceptionFixed(ServiceException(p.Code(), msg), known);
      r.Some? && r.value.status == p.Status().StatusCode()
  {
  }

  /** The handlers for everything except `ServiceException`: each answers with one fixed code. */
  function Handle(t: Thrown, known: set<int>): (r: Option<HttpResponse>)
    requires t.ResponseStatus? ==> 100 <= t.status <= 999
    ensures t.Service? ==> r == HandleServiceException(t.e, known)
    ensures !t.Service? && r.Some? ==> r.value.status == r.value.body.statusCode
    ensures t.ResponseStatus? && t.status in known ==> r.Some? && r.value.status == t.status && r.value.body.msg == t.reason
    ensures !t.Service? && !t.ResponseStatus? ==> (FixedStatus(t).StatusCode() in known <==> r.Some?)
  {
    match t
    case Service(e) => HandleServiceException(e, known)
    case ResponseStatus(status, reason) => HandleResponseStatus(status, reason, known)
    case _ => Plain(FixedStatus(t), FixedMessage(t), known)
  }

  /** Which fixed code each remaining handler uses. */
  lemma FixedHandlerCodes(t: Thrown, known: set<int>)
    requires !t.Service? && !t.ResponseStatus?
    ensures var r := Handle(t, known);
      && (r.None? <==> FixedStatus(t).StatusCode() !in known)
      && (r.Some? && (t.IllegalArgument? || t.NotReadable? || t.ConstraintViolation? || t.ArgumentNotValid?) ==> r.value.status == 400)
      && (r.Some? && (t.NoSuchElement? || t.NullPointer?) ==> r.value.status == 404)
      && (r.Some? && t.Authentication? ==> r.value.status == 401)
      && (r.Some? && t.AccessDenied? ==> r.value.status == 403)
      && (r.Some? && t.Other? ==> r.value.status == 500)
  {
    assert Handle(t, known) == Plain(FixedStatus(t), FixedMessage(t), known);
  }

  /** The status each remaining handler answers with. */
  function FixedStatus(t: Thrown): RsStatus
    requires !t.Service? && !t.ResponseStatus?
  {
    match t
    case NoSuchElement(_) => NOT_FOUND
    case NullPointer(_) => NOT_FOUND
    case Authentication => UNAUTHORIZED
    case AccessDenied => FORBIDDEN
    case Other => INTERNAL_SERVER_ERROR
    case _ => BAD_REQUEST
  }

  /** The message each remaining handler puts in the body. */
  function FixedMessage(t: Thrown): string
    requires !t.Service? && !t.ResponseStatus?
  {
    match t
    case IllegalArgument(m) => m
    case NotReadable(m) => m
    case ConstraintViolation(m) => m
    case ArgumentNotValid(first) => (match first case Some(fe) => fe.0 + ": " + fe.1 case None => "잘못된 요청입니다.")
    case NoSuchElement(m) => m.GetOr("Not Found")
    case NullPointer(m) => m.GetOr("Not Found")
    case Authentication => "인증이 필요합니다."
    case AccessDenied => "접근 권한이 없습니다."
    case Other => "서버 오류"
  }

  /** `handleRse`: the exception's own status, spelled as the result code. */
  function HandleResponseStatus(status: int, reason: string, known: set<int>): (r: Option<HttpResponse>)
    requires 100 <= status <= 999
    ensures status in known ==> r.Some?
    ensures r.Some? ==> r.value.status == status == r.value.body.statusCode && r.value.body.msg == reason
  {
    var code := NatToString(status);
    ParseIntOfNatToString(status);
    assert '-' !in code by {
      forall i | 0 <= i < |code| ensures code[i] != '-' { assert IsDigit(code[i]); }
    }
    Respond(code, reason, status, known)
  }

  /** A response with a bare status code as result code. */
  function Plain(s: RsStatus, msg: string, known: set<int>): (r: Option<HttpResponse>)
    ensures r.Some? <==> s.StatusCode() in known
    ensures r.Some? ==> r.value.status == s.StatusCode() == r.value.body.statusCode && r.value.body.msg == msg
  {
    CodeStatusOfPlainCode(s);
    Respond(s.ResultCode(), msg, s.StatusCode(), known)
  }
}

=== FILE: files.dfy ===
/**
 * The local file services: the extension kept from an uploaded file's name, and the guards on
 * deleting a stored file by its URL (only URLs under the base URL, only paths that stay inside the
 * upload directory once normalized, and never an error to the caller).
 */
module Files {

  import opened Wrappers
  import opened Strings

  // ---------------------------------------------------------------- extensions

  /**
   * `getFileExtension`: empty for a missing name or one without a dot, otherwise the suffix from
   * the last dot on, dot included.
   */
  function GetFileExtension(filename: Option<string>): (r: string)
    ensures r == "" <==> filename.None? || '.' !in filename.value
    ensures r != "" ==> r[0] == '.' && '.' !in r[1..]
    ensures r != "" ==> |r| <= |filename.value| && filename.value[|filename.value| - |r|..] == r
  {
    match filename
    case None => ""
    case Some(name) =>
      match LastIndexOf(name, '.')
      case None => ""
      case Some(k) => name[k..]
  }

  /** A name made of a stem and a dot-free extension yields that extension, whatever dots the stem holds. */
  lemma ExtensionOfStemAndSuffix(stem: string, ext: string)
    requires '.' !in ext
    ensures GetFileExtension(Some(stem + "." + ext)) == "." + ext
  {
    var name := stem + "." + ext;
    assert name[|stem|] == '.';
    assert name[|stem| + 1..] == ext;
    assert name[|stem|..] == "." + ext;
  }

  // ---------------------------------------------------------------- paths

  /** A file-system path: absolute or relative, and its non-empty name elements. */
  datatype Path = Path(absolute: bool, names: seq<string>)

  /** The name elements of `s`: the pieces between slashes, empty pieces dropped. */
  function Components(s: string): (r: seq<string>)
    ensures forall i :: 0 <= i < |r| ==> |r[i]| > 0 && '/' !in r[i]
    decreases |s|
  {
    match IndexOf(s, '/')
    case None => if |s| == 0 then [] else [s]
    case Some(k) => (if k == 0 then [] else [s[..k]]) + Components(s[k + 1..])
  }

  /** `Paths.get(s)`: absolute exactly when `s` starts with a slash; repeated slashes collapse. */
  function ParsePath(s: string): (p: Path)
    ensures p.absolute <==> |s| > 0 && s[0] == '/'
  {
    Path(|s| > 0 && s[0] == '/', Components(s))
  }

  /**
   * One step of `normalize`: "." vanishes; ".." removes the preceding name, vanishes at the root of
   * an absolute path, and is kept when a relative path has nothing left to remove.
   */
  function NormStep(absolute: bool, acc: seq<string>, n: string): seq<string> {
    if n == "." then acc
    else if n == ".." then
      if |acc| > 0 && acc[|acc| - 1] != ".." then acc[..|acc| - 1]
      else if absolute then acc
      else acc + [".."]
    else acc + [n]
  }

  function NormFrom(absolute: bool, acc: seq<string>, rest: seq<string>): seq<string>
    decreases |rest|
  {
    if |rest| == 0 then acc else NormFrom(absolute, NormStep(absolute, acc, rest[0]), rest[1..])
  }

  /** A normal path has no "." and no ".." except as a leading run of a relative path. */
  predicate IsNormal(absolute: bool, names: seq<string>) {
    && (forall i :: 0 <= i < |names| ==> names[i] != ".")
    && (absolute ==> forall i :: 0 <= i < |names| ==> names[i] != "..")
    && (forall i, j :: 0 <= j < i < |names| && names[i] == ".." ==> names[j] == "..")
  }

  /** `Path.normalize`. */
  function Normalize(p: Path): (q: Path)
    ensures q.absolute == p.absolute
    ensures IsNormal(q.absolute, q.names)
  {
    NormFromIsNormal(p.absolute, [], p.names);
    Path(p.absolute, NormFrom(p.absolute, [], p.names))
  }

  lemma NormStepIsNormal(absolute: bool, acc: seq<string>, n: string)
    requires IsNormal(absolute, acc)
    ensures IsNormal(absolute, NormStep(absolute, acc, n))
  {
    if n == ".." && |acc| > 0 && acc[|acc| - 1] != ".." {
      var r := acc[..|acc| - 1];
      assert forall i :: 0 <= i < |r| ==> r[i] == acc[i];
    } else if n == ".." && !absolute {
      var r := acc + [".."];
      assert forall i :: 0 <= i < |acc| ==> r[i] == acc[i];
      assert |acc| > 0 ==> acc[|acc| - 1] == "..";
    } else if n != "." && n != ".." {
      var r := acc + [n];
      assert forall i :: 0 <= i < |acc| ==> r[i] == acc[i];
    }
  }

  /** Normalizing a path in two pieces: the second continues from where the first ended. */
  lemma {:induction false} NormFromAppend(absolute: bool, acc: seq<string>, a: seq<string>, b: seq<string>)
    ensures NormFrom(absolute, acc, a + b) == NormFrom(absolute, NormFrom(absolute, acc, a), b)
    decreases |a|
  {
    if |a| > 0 {
      assert (a + b)[0] == a[0] && (a + b)[1..] == a[1..] + b;
      NormFromAppend(absolute, NormStep(absolute, acc, a[0]), a[1..], b);
    } else {
      assert a + b == b;
    }
  }

  lemma {:induction false} NormFromIsNormal(absolute: bool, acc: seq<string>, rest: seq<string>)
    requires IsNormal(absolute, acc)
    ensures IsNormal(absolute, NormFrom(absolute, acc, rest))
    decreases |rest|
  {
    if |rest| > 0 {
      NormStepIsNormal(absolute, acc, rest[0]);
      NormFromIsNormal(absolute, NormStep(absolute, acc, rest[0]), rest[1..]);
    }
  }

  /** Normalizing keeps what is already normal, continued from any normal prefix. */
  lemma {:induction false} NormFromOfNormal(absolute: bool, acc: seq<string>, rest: seq<string>)
    requires IsNormal(absolute, acc + rest)
    ensures NormFrom(absolute, acc, rest) == acc + rest
    decreases |rest|
  {
    if |rest| > 0 {
      var n := rest[0];
      var whole := acc + rest;
      assert whole[|acc|] == n;
      assert n != ".";
      if n == ".." {
        assert |acc| == 0 || acc[|acc| - 1] == whole[|acc| - 1] == "..";
      }
      assert NormStep(absolute, acc, n) == acc + [n];
      assert (acc + [n]) + rest[1..] == whole;
      NormFromOfNormal(absolute, acc + [n], rest[1..]);
    }
  }

  /** `normalize` is idempotent. */
  lemma NormalizeIdempotent(p: Path)
    ensures Normalize(Normalize(p)) == Normalize(p)
  {
    var q := Normalize(p);
    assert [] + q.names == q.names;
    NormFromOfNormal(q.absolute, [], q.names);
  }

  /** `Path.startsWith(Path)`: same kind of path, and the other's names lead this one's. */
  predicate PathStartsWith(p: Path, root: Path) {
    p.absolute == root.absolute && |root.names| <= |p.names| && p.names[..|root.names|] == root.names
  }

  // ---------------------------------------------------------------- deleting

  /** What `deleteFile` does with a URL: nothing for a foreign URL, nothing for a path that escapes, or delete. */
  datatype DeleteAction = NotOurs | Escapes | Delete(path: Path)

  /** The path a URL names once the base URL is replaced by the upload path everywhere, normalized. */
  function TargetPath(fileUrl: string, baseUrl: string, uploadPath: string): Path {
    Normalize(ParsePath(ReplaceAll(fileUrl, baseUrl, uploadPath)))
  }

  /**
   * The guards of `deleteFile`: the URL must start with the base URL; the base URL is replaced by the
   * upload path everywhere in it; the path, normalized, must lie under the normalized upload path.
   */
  function DeleteTarget(fileUrl: string, baseUrl: string, uploadPath: string): (a: DeleteAction)
    ensures a.NotOurs? <==> !StartsWith(fileUrl, baseUrl)
    ensures a.Delete? <==>
      StartsWith(fileUrl, baseUrl) && PathStartsWith(TargetPath(fileUrl, baseUrl, uploadPath), Normalize(ParsePath(uploadPath)))
    ensures a.Delete? ==> a.path == TargetPath(fileUrl, baseUrl, uploadPath)
    ensures a.Delete? ==> PathStartsWith(a.path, Normalize(ParsePath(uploadPath))) && IsNormal(a.path.absolute, a.path.names)
    ensures a.Escapes? ==> !PathStartsWith(TargetPath(fileUrl, baseUrl, uploadPath), Normalize(ParsePath(uploadPath)))
  {
    if !StartsWith(fileUrl, baseUrl) then NotOurs
    else
      var path := TargetPath(fileUrl, baseUrl, uploadPath);
      if !PathStartsWith(path, Normalize(ParsePath(uploadPath))) then Escapes
      else Delete(path)
  }

  /**
   * `deleteFile` on a file system holding normalized paths. Whatever the URL, the call returns
   * normally; a guarded URL removes exactly the file its path names, and any other URL removes nothing.
   */
  function DeleteFile(files: set<Path>, fileUrl: string, baseUrl: string, uploadPath: string): (files': set<Path>)
    ensures files' <= files
    ensures forall q :: q in files && q !in files' ==> PathStartsWith(q, Normalize(ParsePath(uploadPath)))
    ensures !StartsWith(fileUrl, baseUrl) ==> files' == files
    ensures |files - files'| <= 1
    ensures DeleteTarget(fileUrl, baseUrl, uploadPath).Delete? ==>
      files' == files - {TargetPath(fileUrl, baseUrl, uploadPath)}
    ensures !DeleteTarget(fileUrl, baseUrl, uploadPath).Delete? ==> files' == files
  {
    match DeleteTarget(fileUrl, baseUrl, uploadPath)
    case Delete(path) =>
      assert files - (files - {path}) <= {path};
      files - {path}
    case _ => files
  }

  /** The first slash of `a + "/" + b` is the first slash of `a`, or the added one. */
  lemma IndexOfSlashJoin(a: string, b: string)
    ensures IndexOf(a + "/" + b, '/') == if '/' in a then IndexOf(a, '/') else Some(|a|)
  {
    var x := a + "/" + b;
    assert x[|a|] == '/';
    if '/' in a {
      var k := IndexOf(a, '/').value;
      assert x[k] == a[k] && x[..k] == a[..k];
    } else {
      assert x[..|a|] == a;
    }
  }

  /** Joining two path strings with a slash joins their names. */
  lemma {:induction false} ComponentsJoin(a: string, b: string)
    ensures Components(a + "/" + b) == Components(a) + Components(b)
    decreases |a|
  {
    var x := a + "/" + b;
    IndexOfSlashJoin(a, b);
    match IndexOf(a, '/')
    case None =>
      assert x[..|a|] == a && x[|a| + 1..] == b;
    case Some(k) =>
      assert x[..k] == a[..k];
      assert x[k + 1..] == a[k + 1..] + "/" + b;
      ComponentsJoin(a[k + 1..], b);
  }

  /** Climbing one level out of a normal absolute directory and into a name lands beside the directory. */
  lemma ClimbFrom(root: seq<string>, sibling: string)
    requires IsNormal(true, root) && |root| > 0
    requires sibling != "." && sibling != ".."
    ensures NormFrom(true, root, ["..", sibling]) == root[..|root| - 1] + [sibling]
  {
    var up := root[..|root| - 1];
    assert root[|root| - 1] != "..";
    assert NormStep(true, root, "..") == up;
    assert NormStep(true, up, sibling) == up + [sibling];
    assert ["..", sibling][1..] == [sibling] && [sibling][1..] == [];
    assert NormFrom(true, up, [sibling]) == up + [sibling];
  }

  /**
   * Climbing out of a normal absolute directory with ".." and into a sibling lands on that sibling,
   * which is not under the directory.
   */
  lemma ClimbingOutEscapes(root: seq<string>, sibling: string)
    requires IsNormal(true, root) && |root| > 0
    requires sibling != "." && sibling != ".." && sibling != root[|root| - 1]
    ensures Normalize(Path(true, root + ["..", sibling])).names == root[..|root| - 1] + [sibling]
    ensures !PathStartsWith(Normalize(Path(true, root + ["..", sibling])), Path(true, root))
  {
    assert [] + root == root;
    NormFromOfNormal(true, [], root);
    NormFromAppend(true, [], root, ["..", sibling]);
    ClimbFrom(root, sibling);
    var got := root[..|root| - 1] + [sibling];
    assert got[|root| - 1] != root[|root| - 1];
  }

  /**
   * A URL made of the base URL, "/../" and a sibling directory's name is refused: it names a path
   * beside the upload directory, not under it.
   */
  lemma SiblingUrlEscapes(baseUrl: string, uploadPath: string, sibling: string)
    requires |baseUrl| > 0 && |uploadPath| > 0 && uploadPath[0] == '/'
    requires var root := Normalize(ParsePath(uploadPath)).names; |root| > 0 && sibling != root[|root| - 1]
    requires |sibling| > 0 && '/' !in sibling && sibling != "." && sibling != ".."
    requires !Contains("/../" + sibling, baseUrl)
    ensures DeleteTarget(baseUrl + "/../" + sibling, baseUrl, uploadPath) == Escapes
  {
    var url := baseUrl + "/../" + sibling;
    var root := Normalize(ParsePath(uploadPath)).names;
    SiblingUrlPath(baseUrl, uploadPath, sibling);
    var got := TargetPath(url, baseUrl, uploadPath).names;
    assert got[|root| - 1] != root[|root| - 1];
    assert StartsWith(url, baseUrl) by {
      assert url[..|baseUrl|] == baseUrl;
    }
  }

  /** The path such a URL names: the upload directory's parent, then the sibling. */
  lemma SiblingUrlPath(baseUrl: string, uploadPath: string, sibling: string)
    requires |baseUrl| > 0 && |uploadPath| > 0 && uploadPath[0] == '/'
    requires |Normalize(ParsePath(uploadPath)).names| > 0
    requires |sibling| > 0 && '/' !in sibling && sibling != "." && sibling != ".."
    requires !Contains("/../" + sibling, baseUrl)
    ensures var root := Normalize(ParsePath(uploadPath)).names;
      TargetPath(baseUrl + "/../" + sibling, baseUrl, uploadPath) == Path(true, root[..|root| - 1] + [sibling])
  {
    ReplacedSiblingUrl(baseUrl, uploadPath, sibling);
    var built := uploadPath + "/../" + sibling;
    BuiltNames(uploadPath, sibling);
    var root := Normalize(ParsePath(uploadPath)).names;
    NormFromAppend(true, [], Components(uploadPath), ["..", sibling]);
    ClimbFrom(root, sibling);
    assert ParsePath(built) == Path(true, Components(uploadPath) + ["..", sibling]);
  }

  /** Replacing the base URL in such a URL puts the upload path in its place. */
  lemma ReplacedSiblingUrl(baseUrl: string, uploadPath: string, sibling: string)
    requires |baseUrl| > 0
    requires !Contains("/../" + sibling, baseUrl)
    ensures ReplaceAll(baseUrl + "/../" + sibling, baseUrl, uploadPath) == uploadPath + "/../" + sibling
  {
    var rest := "/../" + sibling;
    assert baseUrl + "/../" + sibling == baseUrl + rest;
    assert uploadPath + "/../" + sibling == uploadPath + rest;
    ReplaceAllPrefix(baseUrl, rest, uploadPath);
  }

  /** The names of the upload path followed by "/../" and a name. */
  lemma BuiltNames(uploadPath: string, sibling: string)
    requires |sibling| > 0 && '/' !in sibling
    ensures Components(uploadPath + "/../" + sibling) == Components(uploadPath) + ["..", sibling]
  {
    assert uploadPath + "/../" + sibling == uploadPath + "/" + (".." + "/" + sibling);
    ComponentsJoin(uploadPath, ".." + "/" + sibling);
    ComponentsJoin("..", sibling);
    assert IndexOf("..", '/') == None;
    assert IndexOf(sibling, '/') == None;
  }
}

=== FILE: notification_queue.dfy ===
/**
 * The `NotificationQueue` entity: a queued message with its own status and a counter of retries,
 * which may be retried while it has failed fewer than three times.
 */
module NotificationQueue {

  /** The status of a queued message. */
  datatype NotificationStatus = PENDING | SENT | FAILED | CANCELLED

  /** A queue row's retry state; the counter starts at zero. */
  datatype QueueEntry = QueueEntry(status: NotificationStatus, retryCount: int)

  /** The retry limit. */
  const MAX_RETRIES: int := 3

  /** `canRetry`: fewer than three retries so far, and failed. */
  predicate CanRetry(e: QueueEntry) {
    e.retryCount < MAX_RETRIES && e.status == FAILED
  }

  /** `incrementRetryCount`: exactly one more, the status unchanged. */
  function IncrementRetryCount(e: QueueEntry): (f: QueueEntry)
    ensures f.retryCount == e.retryCount + 1 && f.status == e.status
  {
    e.(retryCount := e.retryCount + 1)
  }

  /** Counting `k` retries on a fresh entry. */
  function Retried(status: NotificationStatus, k: nat): (e: QueueEntry)
    ensures e.status == status && e.retryCount == k
  {
    if k == 0 then QueueEntry(status, 0) else IncrementRetryCount(Retried(status, k - 1))
  }

  /**
   * A fresh entry can be retried after `k` increments exactly when it has failed and `k` is below
   * three: only a failed entry is ever retried, and never a fourth time.
   */
  lemma CanRetryExactlyThreeTimes(status: NotificationStatus, k: nat)
    ensures CanRetry(Retried(status, k)) <==> status == FAILED && k < MAX_RETRIES
  {
  }

  /** An increment never turns a non-retryable entry into a retryable one. */
  lemma IncrementNeverRevives(e: QueueEntry)
    requires !CanRetry(e)
    ensures !CanRetry(IncrementRetryCount(e))
  {
  }
}

=== FILE: notifications.dfy ===
/**
 * Notifications: the delivery queue (enqueue, the periodic pass that sends due notifications,
 * retries failed ones at most three times and recovers stuck ones) and the member's inbox (listing
 * by read status, the unread count, marking one or all as read).
 */
module Notifications {

  import opened Wrappers
  import opened Paging
  import opened Seqs

  // ---------------------------------------------------------------- the entity

  /** Where a notification stands in the delivery queue. */
  datatype QueueStatus = PENDING | PROCESSING | SENT | FAILED

  /** A notification row. Every save stamps `modifyDate` with the current time. */
  datatype Notification = Notification(
    id: int,
    memberId: int,
    productId: Option<int>,
    message: string,
    notificationType: string,
    isRead: bool,
    queueStatus: QueueStatus,
    retryCount: nat,
    scheduledTime: Option<int>,
    sentTime: Option<int>,
    errorMessage: Option<string>,
    createDate: int,
    modifyDate: int)

  /** The notification table, in creation order, and the next id. */
  datatype Inbox = Inbox(rows: seq<Notification>, nextId: int)

  /** Ids are distinct and below the next id. */
  predicate Valid(ib: Inbox) {
    && (forall i :: 0 <= i < |ib.rows| ==> ib.rows[i].id < ib.nextId)
    && (forall i, j :: 0 <= i < j < |ib.rows| ==> ib.rows[i].id != ib.rows[j].id)
  }

  /** `markAsProcessing`. */
  function MarkAsProcessing(n: Notification, now: int): (m: Notification)
    ensures m.queueStatus == PROCESSING && m.retryCount == n.retryCount
    ensures m == n.(queueStatus := PROCESSING, modifyDate := now)
  {
    n.(queueStatus := PROCESSING, modifyDate := now)
  }

  /** `markAsSent`: sent, with the sending time. */
  function MarkAsSent(n: Notification, now: int): (m: Notification)
    ensures m.queueStatus == SENT && m.sentTime == Some(now) && m.retryCount == n.retryCount
  {
    n.(queueStatus := SENT, sentTime := Some(now), modifyDate := now)
  }

  /** `markAsFailed`: failed with the reason, and one more failed attempt counted. */
  function MarkAsFailed(n: Notification, reason: string, now: int): (m: Notification)
    ensures m.queueStatus == FAILED && m.errorMessage == Some(reason) && m.retryCount == n.retryCount + 1
  {
    n.(queueStatus := FAILED, errorMessage := Some(reason), retryCount := n.retryCount + 1, modifyDate := now)
  }

  /** `resetToPending`: back in the queue; the attempt count is kept. */
  function ResetToPending(n: Notification, now: int): (m: Notification)
    ensures m.queueStatus == PENDING && m.retryCount == n.retryCount
  {
    n.(queueStatus := PENDING, modifyDate := now)
  }

  // ---------------------------------------------------------------- enqueueing

  /**
   * `enqueueNotification`, and `enqueueScheduledNotification` when `scheduledTime` is given: a new
   * unread notification, PENDING, with no attempts yet.
   */
  function Enqueue(ib: Inbox, memberId: int, message: string, notificationType: string, productId: Option<int>,
                   scheduledTime: Option<int>, now: int): (r: (Inbox, Notification))
    ensures r.1.queueStatus == PENDING && r.1.retryCount == 0 && r.1.scheduledTime == scheduledTime
    ensures !r.1.isRead && r.1.memberId == memberId && r.1.message == message && r.1.id == ib.nextId
    ensures r.0.rows == ib.rows + [r.1] && r.0.nextId == ib.nextId + 1
    ensures Valid(ib) ==> Valid(r.0)
  {
    var n := Notification(ib.nextId, memberId, productId, message, notificationType, false, PENDING, 0,
                          scheduledTime, None, None, now, now);
    (Inbox(ib.rows + [n], ib.nextId + 1), n)
  }

  // ---------------------------------------------------------------- the repository queries

  /** `findPendingNotifications`: PENDING, and either unscheduled or due. */
  predicate IsPending(n: Notification, now: int) {
    n.queueStatus == PENDING && (n.scheduledTime.None? || n.scheduledTime.value <= now)
  }

  /** `findRetryableFailedNotifications`: FAILED with fewer than three attempts. */
  predicate IsRetryable(n: Notification) {
    n.queueStatus == FAILED && n.retryCount < MAX_RETRIES
  }

  /** `findStuckProcessingNotifications`: PROCESSING, last saved before the threshold. */
  predicate IsStuck(n: Notification, threshold: int) {
    n.queueStatus == PROCESSING && n.modifyDate < threshold
  }

  const MAX_RETRIES: nat := 3
  const PENDING_BATCH: nat := 50
  const RETRY_BATCH: nat := 10
  /** Five minutes, in seconds. */
  const STUCK_AFTER: int := 300

  /** The first page of at most `limit` rows. */
  function Take(rows: seq<Notification>, limit: nat): (r: seq<Notification>)
    ensures |r| <= limit && |r| <= |rows| && r == rows[..|r|]
    ensures |r| == if |rows| <= limit then |rows| else limit
  {
    if |rows| <= limit then rows else rows[..limit]
  }

  /** The condition of the pending query at time `now`. */
  function Due(now: int): Notification -> bool {
    n => IsPending(n, now)
  }

  /** `findPendingNotifications`: the first fifty due rows in table order, which is oldest first. */
  function PendingBatch(rows: seq<Notification>, now: int): (b: seq<Notification>)
    ensures var due := Filter(rows, Due(now));
      |b| == (if |due| <= PENDING_BATCH then |due| else PENDING_BATCH) && b == due[..|b|]
    ensures forall x :: x in b ==> x in rows && IsPending(x, now)
  {
    Take(Filter(rows, Due(now)), PENDING_BATCH)
  }

  /** `findRetryableFailedNotifications`: the first ten retryable rows in table order. */
  function RetryBatch(rows: seq<Notification>): (b: seq<Notification>)
    ensures var retryable := Filter(rows, IsRetryable);
      |b| == (if |retryable| <= RETRY_BATCH then |retryable| else RETRY_BATCH) && b == retryable[..|b|]
    ensures forall x :: x in b ==> x in rows && IsRetryable(x)
  {
    Take(Filter(rows, IsRetryable), RETRY_BATCH)
  }

  /** Rows whose creation dates never decrease along the sequence, as the table is filled. */
  predicate Chronological(rows: seq<Notification>) {
    forall i, j :: 0 <= i < j < |rows| ==> rows[i].createDate <= rows[j].createDate
  }

  /** Rows whose creation dates never increase along the sequence. */
  predicate LatestFirst(rows: seq<Notification>) {
    forall i, j :: 0 <= i < j < |rows| ==> rows[i].createDate >= rows[j].createDate
  }

  /** A query over a table in creation order returns its rows in creation order. */
  lemma {:induction false} FilterChronological(rows: seq<Notification>, keep: Notification -> bool)
    requires Chronological(rows)
    ensures Chronological(Filter(rows, keep))
  {
    if |rows| > 0 {
      var tail := rows[1..];
      assert Chronological(tail) by {
        forall i, j | 0 <= i < j < |tail| ensures tail[i].createDate <= tail[j].createDate {
          assert tail[i] == rows[i + 1] && tail[j] == rows[j + 1];
        }
      }
      FilterChronological(tail, keep);
      var rest := Filter(tail, keep);
      var r := Filter(rows, keep);
      if keep(rows[0]) {
        assert r == [rows[0]] + rest;
        forall a, b | 0 <= a < b < |r| ensures r[a].createDate <= r[b].createDate {
          assert r[b] == rest[b - 1];
          if a > 0 {
            assert r[a] == rest[a - 1];
          } else {
            assert rest[b - 1] in rest;
            var j :| 0 <= j < |tail| && tail[j] == rest[b - 1];
            assert tail[j] == rows[j + 1];
          }
        }
      } else {
        assert r == rest;
      }
    }
  }

  /** With the table in creation order, both batches run oldest first (`ORDER BY n.createDate ASC`). */
  lemma BatchesOldestFirst(rows: seq<Notification>, now: int)
    requires Chronological(rows)
    ensures Chronological(PendingBatch(rows, now)) && Chronological(RetryBatch(rows))
  {
    FilterChronological(rows, Due(now));
    FilterChronological(rows, IsRetryable);
    var p := Filter(rows, Due(now));
    var q := Filter(rows, IsRetryable);
    var b := PendingBatch(rows, now);
    var c := RetryBatch(rows);
    forall i, j | 0 <= i < j < |b| ensures b[i].createDate <= b[j].createDate {
      assert b[i] == p[i] && b[j] == p[j];
    }
    forall i, j | 0 <= i < j < |c| ensures c[i].createDate <= c[j].createDate {
      assert c[i] == q[i] && c[j] == q[j];
    }
  }

  /** Every stuck row; the stuck query has no page limit. */
  function StuckBatch(rows: seq<Notification>, threshold: int): (b: seq<Notification>)
    ensures forall x :: x in b <==> x in rows && IsStuck(x, threshold)
  {
    Filter(rows, n => IsStuck(n, threshold))
  }

  // ---------------------------------------------------------------- processing

  /** What the notification processor does with one notification. */
  datatype Delivery = Delivered | Refused | Threw(reason: string)

  /**
   * `processNotificationAsync`: PROCESSING, then SENT when delivered, FAILED with "처리 실패" when
   * refused, FAILED with the exception's message after "예외 발생: " when it throws; saved either way.
   */
  function ProcessOne(n: Notification, d: Delivery, now: int): (m: Notification)
    ensures m.queueStatus == SENT <==> d == Delivered
    ensures m.queueStatus == SENT || m.queueStatus == FAILED
    ensures m.retryCount == n.retryCount + (if d == Delivered then 0 else 1)
    ensures d.Threw? ==> m.errorMessage == Some("예외 발생: " + d.reason)
    ensures m.id == n.id && m.memberId == n.memberId && m.isRead == n.isRead && m.modifyDate == now
  {
    var processing := MarkAsProcessing(n, now);
    match d
    case Delivered => MarkAsSent(processing, now)
    case Refused => MarkAsFailed(processing, "처리 실패", now)
    case Threw(reason) => MarkAsFailed(processing, "예외 발생: " + reason, now)
  }

  /**
   * Each row picked for a batch replaced by `f` of it. `processPendingNotifications` loops over the batch and saves
   * each row in turn; with distinct ids and a step that looks only at its own row, the order of the
   * loop does not matter.
   */
  function ApplyTo(rows: seq<Notification>, batch: seq<Notification>, f: Notification -> Notification): (r: seq<Notification>)
    ensures |r| == |rows|
    ensures forall i :: 0 <= i < |rows| ==> r[i] == if rows[i] in batch then f(rows[i]) else rows[i]
  {
    seq(|rows|, i requires 0 <= i < |rows| => if rows[i] in batch then f(rows[i]) else rows[i])
  }

  /** A step keeps every row in place, with its id and owner, and never lowers its attempt count. */
  predicate Keeps(rows: seq<Notification>, rows': seq<Notification>) {
    && |rows'| == |rows|
    && forall i :: 0 <= i < |rows| ==>
         rows'[i].id == rows[i].id && rows'[i].memberId == rows[i].memberId && rows'[i].retryCount >= rows[i].retryCount
  }

  /** The pending step: due notifications, oldest first, at most fifty, each processed. */
  function ProcessPending(rows: seq<Notification>, now: int, deliver: Notification -> Delivery): (r: seq<Notification>)
    ensures Keeps(rows, r)
  {
    ApplyTo(rows, PendingBatch(rows, now), n => ProcessOne(n, deliver(n), now))
  }

  /** The retry step: at most ten retryable notifications, each put back to PENDING and processed again. */
  function RetryFailed(rows: seq<Notification>, now: int, deliver: Notification -> Delivery): (r: seq<Notification>)
    ensures Keeps(rows, r)
  {
    ApplyTo(rows, RetryBatch(rows), n => RetryOne(n, now, deliver))
  }

  /** One retry: back to PENDING, then processed like a pending notification. */
  function RetryOne(n: Notification, now: int, deliver: Notification -> Delivery): (m: Notification)
    ensures m.id == n.id && m.memberId == n.memberId
    ensures m.retryCount == n.retryCount + (if deliver(ResetToPending(n, now)) == Delivered then 0 else 1)
  {
    var pending := ResetToPending(n, now);
    ProcessOne(pending, deliver(pending), now)
  }

  /** The recovery step: every notification PROCESSING for five minutes or more goes back to PENDING. */
  function RecoverStuck(rows: seq<Notification>, now: int): (r: seq<Notification>)
    ensures Keeps(rows, r)
    ensures forall i :: 0 <= i < |r| ==> !IsStuck(r[i], now - STUCK_AFTER)
  {
    ApplyTo(rows, StuckBatch(rows, now - STUCK_AFTER), n => ResetToPending(n, now))
  }

  /**
   * `processNotificationQueue` at `now`: the pending, retry and recovery steps in this order, each
   * querying the table as the previous step left it. `deliver` stands for the processor.
   */
  function ProcessQueue(ib: Inbox, now: int, deliver: Notification -> Delivery): (ib': Inbox)
    ensures |ib'.rows| == |ib.rows| && ib'.nextId == ib.nextId
    ensures forall i :: 0 <= i < |ib.rows| ==> ib'.rows[i].id == ib.rows[i].id && ib'.rows[i].memberId == ib.rows[i].memberId
    ensures forall i :: 0 <= i < |ib.rows| ==> ib'.rows[i].retryCount >= ib.rows[i].retryCount
    ensures forall i :: 0 <= i < |ib.rows| ==> !IsStuck(ib'.rows[i], now - STUCK_AFTER)
  {
    var r1 := ProcessPending(ib.rows, now, deliver);
    var r2 := RetryFailed(r1, now, deliver);
    var r3 := RecoverStuck(r2, now);
    ib.(rows := r3)
  }

  /** The retry limit: no attempt is made on a notification already failed three times, and queued ones have attempts left. */
  predicate RetryBounded(rows: seq<Notification>) {
    forall i :: 0 <= i < |rows| ==>
      && rows[i].retryCount <= MAX_RETRIES
      && (rows[i].queueStatus == PENDING || rows[i].queueStatus == PROCESSING ==> rows[i].retryCount < MAX_RETRIES)
  }

  lemma ProcessPendingKeepsBound(rows: seq<Notification>, now: int, deliver: Notification -> Delivery)
    requires RetryBounded(rows)
    ensures RetryBounded(ProcessPending(rows, now, deliver))
  {
    var r := ProcessPending(rows, now, deliver);
    var batch := PendingBatch(rows, now);
    forall i | 0 <= i < |rows|
      ensures r[i].retryCount <= MAX_RETRIES
      ensures r[i].queueStatus == PENDING || r[i].queueStatus == PROCESSING ==> r[i].retryCount < MAX_RETRIES
    {
      assert rows[i].retryCount <= MAX_RETRIES;
    }
  }

  lemma RetryFailedKeepsBound(rows: seq<Notification>, now: int, deliver: Notification -> Delivery)
    requires RetryBounded(rows)
    ensures RetryBounded(RetryFailed(rows, now, deliver))
  {
    var r := RetryFailed(rows, now, deliver);
    var batch := RetryBatch(rows);
    forall i | 0 <= i < |rows|
      ensures r[i].retryCount <= MAX_RETRIES
      ensures r[i].queueStatus == PENDING || r[i].queueStatus == PROCESSING ==> r[i].retryCount < MAX_RETRIES
    {
      if rows[i] in batch {
        assert IsRetryable(rows[i]);
        assert r[i] == RetryOne(rows[i], now, deliver);
      }
    }
  }

  lemma RecoverStuckKeepsBound(rows: seq<Notification>, now: int)
    requires RetryBounded(rows)
    ensures RetryBounded(RecoverStuck(rows, now))
  {
    var r := RecoverStuck(rows, now);
    forall i | 0 <= i < |rows|
      ensures r[i].retryCount <= MAX_RETRIES
      ensures r[i].queueStatus == PENDING || r[i].queueStatus == PROCESSING ==> r[i].retryCount < MAX_RETRIES
    {
      assert rows[i].retryCount <= MAX_RETRIES;
    }
  }

  /**
   * The retry limit holds for good: starting from rows that respect it, a queue pass never counts a
   * fourth failed attempt, whatever the processor does.
   */
  lemma ProcessQueueKeepsRetryBound(ib: Inbox, now: int, deliver: Notification -> Delivery)
    requires RetryBounded(ib.rows)
    ensures RetryBounded(ProcessQueue(ib, now, deliver).rows)
  {
    var r1 := ProcessPending(ib.rows, now, deliver);
    ProcessPendingKeepsBound(ib.rows, now, deliver);
    var r2 := RetryFailed(r1, now, deliver);
    RetryFailedKeepsBound(r1, now, deliver);
    RecoverStuckKeepsBound(r2, now);
  }

  /** Enqueueing respects the retry limit. */
  lemma EnqueueKeepsRetryBound(ib: Inbox, memberId: int, message: string, notificationType: string, productId: Option<int>,
                               scheduledTime: Option<int>, now: int)
    requires RetryBounded(ib.rows)
    ensures RetryBounded(Enqueue(ib, memberId, message, notificationType, productId, scheduledTime, now).0.rows)
  {
    var rows' := Enqueue(ib, memberId, message, notificationType, productId, scheduledTime, now).0.rows;
    assert forall i :: 0 <= i < |ib.rows| ==> rows'[i] == ib.rows[i];
  }

  /** A sent notification, and one that has used up its three attempts, are final: a pass leaves them as they are. */
  lemma FinalRowsStay(ib: Inbox, now: int, deliver: Notification -> Delivery, i: nat)
    requires i < |ib.rows|
    requires ib.rows[i].queueStatus == SENT || (ib.rows[i].queueStatus == FAILED && ib.rows[i].retryCount >= MAX_RETRIES)
    ensures ProcessQueue(ib, now, deliver).rows[i] == ib.rows[i]
  {
    var r1 := ProcessPending(ib.rows, now, deliver);
    assert r1[i] == ib.rows[i];
    var r2 := RetryFailed(r1, now, deliver);
    assert r2[i] == ib.rows[i];
  }

  /**
   * A due notification with fewer than fifty due rows before it is attempted in the pending step,
   * and it is then sent or failed.
   */
  lemma DueNotificationIsAttempted(rows: seq<Notification>, now: int, deliver: Notification -> Delivery, i: nat)
    requires i < |rows| && IsPending(rows[i], now)
    requires |Filter(rows[..i], Due(now))| < PENDING_BATCH
    ensures ProcessPending(rows, now, deliver)[i] == ProcessOne(rows[i], deliver(rows[i]), now)
  {
    var before := Filter(rows[..i], Due(now));
    assert rows == rows[..i] + rows[i..];
    FilterAppend(rows[..i], rows[i..], Due(now));
    var from := Filter(rows[i..], Due(now));
    assert rows[i..][0] == rows[i];
    assert from[0] == rows[i];
    var due := Filter(rows, Due(now));
    assert due[|before|] == rows[i];
    var b := PendingBatch(rows, now);
    assert b[|before|] == rows[i];
  }

  // ---------------------------------------------------------------- the inbox

  /** `getNotificationsByReadStatus`: false lists unread, true lists read, null lists all. */
  predicate Shown(n: Notification, memberId: int, isRead: Option<bool>) {
    n.memberId == memberId && (isRead.None? || n.isRead == isRead.value)
  }

  /** The member's notifications for a read filter, newest first. */
  function Listing(rows: seq<Notification>, memberId: int, isRead: Option<bool>): (r: seq<Notification>)
    ensures forall x :: x in r <==> x in rows && Shown(x, memberId, isRead)
    ensures |r| <= |rows|
  {
    if |rows| == 0 then []
    else Listing(rows[1..], memberId, isRead) + (if Shown(rows[0], memberId, isRead) then [rows[0]] else [])
  }

  /** With the table in creation order, every listing runs from the latest `createDate` down (`ORDER BY n.createDate DESC`). */
  lemma {:induction false} ListingNewestFirst(rows: seq<Notification>, memberId: int, isRead: Option<bool>)
    requires Chronological(rows)
    ensures LatestFirst(Listing(rows, memberId, isRead))
  {
    if |rows| > 0 {
      var tail := rows[1..];
      assert Chronological(tail) by {
        forall i, j | 0 <= i < j < |tail| ensures tail[i].createDate <= tail[j].createDate {
          assert tail[i] == rows[i + 1] && tail[j] == rows[j + 1];
        }
      }
      ListingNewestFirst(tail, memberId, isRead);
      var rest := Listing(tail, memberId, isRead);
      var r := Listing(rows, memberId, isRead);
      if Shown(rows[0], memberId, isRead) {
        assert r == rest + [rows[0]];
        forall a, b | 0 <= a < b < |r| ensures r[a].createDate >= r[b].createDate {
          assert r[a] == rest[a];
          if b < |rest| {
            assert r[b] == rest[b];
          } else {
            assert rest[a] in tail;
            var j :| 0 <= j < |tail| && tail[j] == rest[a];
            assert tail[j] == rows[j + 1];
          }
        }
      } else {
        assert r == rest;
      }
    }
  }

  /** `countUnreadNotifications`. */
  function UnreadCount(rows: seq<Notification>, memberId: int): (c: nat)
    ensures c <= |rows|
  {
    if |rows| == 0 then 0
    else UnreadCount(rows[1..], memberId) + (if rows[0].memberId == memberId && !rows[0].isRead then 1 else 0)
  }

  /** The unread count is the length of the unread listing. */
  lemma {:induction false} UnreadCountIsUnreadListing(rows: seq<Notification>, memberId: int)
    ensures UnreadCount(rows, memberId) == |Listing(rows, memberId, Some(false))|
  {
    if |rows| > 0 {
      UnreadCountIsUnreadListing(rows[1..], memberId);
    }
  }

  /** The read and unread listings split the full listing. */
  lemma ReadFiltersPartition(rows: seq<Notification>, memberId: int, n: Notification)
    ensures n in Listing(rows, memberId, None) <==> n in Listing(rows, memberId, Some(true)) || n in Listing(rows, memberId, Some(false))
    ensures !(n in Listing(rows, memberId, Some(true)) && n in Listing(rows, memberId, Some(false)))
  {
  }

  datatype NotificationList = NotificationList(content: seq<Notification>, totalElements: nat, totalPages: nat,
                                               currentPage: nat, pageSize: nat, hasNext: bool, unreadCount: nat)

  /**
   * `getNotifications`: the page of the filtered listing; the page number is zero-based and not
   * clamped, so a negative page or a size below one is refused as `PageRequest.of` refuses it.
   */
  function GetNotifications(rows: seq<Notification>, memberId: int, page: int, size: int, isRead: Option<bool>): (r: Option<NotificationList>)
    ensures r.Some? <==> page >= 0 && size >= 1
    ensures r.Some? ==> r.value.unreadCount == UnreadCount(rows, memberId) && r.value.currentPage == page && r.value.pageSize == size
    ensures r.Some? ==> forall x :: x in r.value.content ==> x in rows && Shown(x, memberId, isRead)
    ensures r.Some? ==> r.value.totalElements == |Listing(rows, memberId, isRead)|
    ensures r.Some? ==> var all := Listing(rows, memberId, isRead);
      && |r.value.content| == (if page * size >= |all| then 0 else if page * size + size <= |all| then size else |all| - page * size)
      && forall k :: 0 <= k < |r.value.content| ==> r.value.content[k] == all[page * size + k]
  {
    if page < 0 || size < 1 then None
    else
      var all := Listing(rows, memberId, isRead);
      var p := PageOf(all, PageRequest(page, size, []));
      forall x | x in p.content ensures x in all {
        var k :| 0 <= k < |p.content| && p.content[k] == x;
      }
      Some(NotificationList(p.content, p.totalElements, p.TotalPages(), p.number, p.size, p.HasNext(), UnreadCount(rows, memberId)))
  }

  /** `findByIdAndMemberId`: the position of the member's notification with this id. */
  function FindOwned(rows: seq<Notification>, id: int, memberId: int): (r: Option<nat>)
    ensures r.Some? ==> r.value < |rows| && rows[r.value].id == id && rows[r.value].memberId == memberId
    ensures r.None? ==> forall i :: 0 <= i < |rows| ==> !(rows[i].id == id && rows[i].memberId == memberId)
  {
    if |rows| == 0 then None
    else if rows[0].id == id && rows[0].memberId == memberId then Some(0)
    else match FindOwned(rows[1..], id, memberId)
      case None => None
      case Some(k) => Some(k + 1)
  }

  /** `markAsRead`: the member's own notification becomes read; anyone else's, or none, is not found (404). */
  function MarkAsRead(ib: Inbox, id: int, memberId: int): (r: Option<Inbox>)
    ensures r.Some? <==> exists i :: 0 <= i < |ib.rows| && ib.rows[i].id == id && ib.rows[i].memberId == memberId
    ensures r.Some? ==> |r.value.rows| == |ib.rows| && r.value.nextId == ib.nextId
    ensures r.Some? ==> forall i :: 0 <= i < |ib.rows| ==>
      r.value.rows[i] == if i == FindOwned(ib.rows, id, memberId).value then ib.rows[i].(isRead := true) else ib.rows[i]
  {
    match FindOwned(ib.rows, id, memberId)
    case None => None
    case Some(i) => Some(ib.(rows := ib.rows[i := ib.rows[i].(isRead := true)]))
  }

  /** Marking a notification read twice is marking it once. */
  lemma MarkAsReadIdempotent(ib: Inbox, id: int, memberId: int)
    requires MarkAsRead(ib, id, memberId).Some?
    ensures MarkAsRead(MarkAsRead(ib, id, memberId).value, id, memberId) == MarkAsRead(ib, id, memberId)
  {
    var i := FindOwned(ib.rows, id, memberId).value;
    var ib1 := MarkAsRead(ib, id, memberId).value;
    FindOwnedFirst(ib.rows, ib1.rows, id, memberId);
    assert ib1.rows[i].isRead;
    assert ib1.rows[i := ib1.rows[i].(isRead := true)] == ib1.rows;
  }

  /** Changing only read flags does not move where a notification is found. */
  lemma {:induction false} FindOwnedFirst(rows: seq<Notification>, rows': seq<Notification>, id: int, memberId: int)
    requires |rows| == |rows'|
    requires forall i :: 0 <= i < |rows| ==> rows'[i].id == rows[i].id && rows'[i].memberId == rows[i].memberId
    ensures FindOwned(rows', id, memberId) == FindOwned(rows, id, memberId)
  {
    if |rows| > 0 {
      FindOwnedFirst(rows[1..], rows'[1..], id, memberId);
    }
  }

  /** The member's rows, each marked read. */
  function ReadAll(rows: seq<Notification>, memberId: int): (r: seq<Notification>)
    ensures |r| == |rows|
    ensures forall i :: 0 <= i < |rows| ==> r[i] == if rows[i].memberId == memberId then rows[i].(isRead := true) else rows[i]
  {
    seq(|rows|, i requires 0 <= i < |rows| => if rows[i].memberId == memberId then rows[i].(isRead := true) else rows[i])
  }

  /**
   * `markAllAsRead`: every unread notification of the member becomes read, and the result is how
   * many did; no other member's notification changes.
   */
  function MarkAllAsRead(ib: Inbox, memberId: int): (r: (Inbox, nat))
    ensures r.1 == UnreadCount(ib.rows, memberId)
    ensures UnreadCount(r.0.rows, memberId) == 0
    ensures |r.0.rows| == |ib.rows| && r.0.nextId == ib.nextId
    ensures forall i :: 0 <= i < |ib.rows| && ib.rows[i].memberId != memberId ==> r.0.rows[i] == ib.rows[i]
  {
    var rows' := ReadAll(ib.rows, memberId);
    ReadAllLeavesNoneUnread(ib.rows, memberId);
    (ib.(rows := rows'), UnreadCount(ib.rows, memberId))
  }

  lemma {:induction false} ReadAllLeavesNoneUnread(rows: seq<Notification>, memberId: int)
    ensures UnreadCount(ReadAll(rows, memberId), memberId) == 0
  {
    if |rows| > 0 {
      ReadAllLeavesNoneUnread(rows[1..], memberId);
      assert ReadAll(rows, memberId)[1..] == ReadAll(rows[1..], memberId);
    }
  }

  /** A second `markAllAsRead` finds nothing left and reports zero. */
  lemma MarkAllAsReadTwiceReportsZero(ib: Inbox, memberId: int)
    ensures MarkAllAsRead(MarkAllAsRead(ib, memberId).0, memberId).1 == 0
  {
  }
}

=== FILE: paging.dfy ===
/** Page requests, repository pages and the `PageDto` the API returns. */
module Paging {

  import opened ProductEnums

  /** A zero-based page request, as `PageRequest.of` builds it. */
  datatype PageRequest = PageRequest(pageIndex: nat, size: nat, sort: seq<Order>)

  const DEFAULT_PAGE_SIZE: nat := 20
  const MAX_PAGE_SIZE: nat := 100

  /**
   * `getPageable` of the product services: a non-positive page becomes the first page and a size
   * outside 1..100 becomes 20; the page number is one-based on the way in and zero-based on the way out.
   */
  function GetPageable(page: int, size: int, sort: ProductSearchSortType): (r: PageRequest)
    ensures 1 <= r.size <= MAX_PAGE_SIZE
    ensures page > 0 ==> r.pageIndex + 1 == page
    ensures page <= 0 ==> r.pageIndex == 0
    ensures 0 < size <= MAX_PAGE_SIZE ==> r.size == size
    ensures !(0 < size <= MAX_PAGE_SIZE) ==> r.size == DEFAULT_PAGE_SIZE
    ensures r.sort == sort.ToSort()
  {
    var p := if page > 0 then page else 1;
    var s := if 0 < size <= MAX_PAGE_SIZE then size else DEFAULT_PAGE_SIZE;
    PageRequest(p - 1, s, sort.ToSort())
  }

  /** Asking again for the page a request describes gives the same request: clamping is idempotent. */
  lemma GetPageableIdempotent(page: int, size: int, sort: ProductSearchSortType)
    ensures var r := GetPageable(page, size, sort);
      GetPageable(r.pageIndex + 1, r.size, sort) == r
  {
  }

  /** Valid input passes through unchanged: page p of size s is the zero-based request (p-1, s). */
  lemma GetPageableValid(page: int, size: int, sort: ProductSearchSortType)
    requires page >= 1 && 1 <= size <= MAX_PAGE_SIZE
    ensures GetPageable(page, size, sort) == PageRequest(page - 1, size, sort.ToSort())
  {
  }

  /** The wallet ledger's clamp: page at least the first, size at least 1, and no upper bound on size. */
  function CashPageRequest(page1Base: int, size: int): (r: PageRequest)
    ensures r.size >= 1 && r.sort == []
    ensures page1Base >= 1 ==> r.pageIndex + 1 == page1Base
    ensures page1Base < 1 ==> r.pageIndex == 0
    ensures size >= 1 ==> r.size == size
    ensures size < 1 ==> r.size == 1
  {
    var p0 := if page1Base - 1 > 0 then page1Base - 1 else 0;
    var s := if size > 1 then size else 1;
    PageRequest(p0, s, [])
  }

  /** The ledger keeps any requested size the product services would keep, and also sizes above 100 that they would reset. */
  lemma CashClampAgreesOnValidInput(page: int, size: int, sort: ProductSearchSortType)
    requires page >= 1 && 1 <= size
    ensures CashPageRequest(page, size).pageIndex == GetPageable(page, size, sort).pageIndex
    ensures size <= MAX_PAGE_SIZE <==> CashPageRequest(page, size).size == GetPageable(page, size, sort).size
  {
  }

  /** One page of a query result, with Spring's derived counts. */
  datatype Page<T> = Page(content: seq<T>, number: nat, size: nat, totalElements: nat) {

    /** `getTotalPages`: one page when the size is zero, else the ceiling of elements over size. */
    function TotalPages(): nat {
      if size == 0 then 1 else (totalElements + size - 1) / size
    }

    predicate HasNext() {
      number + 1 < TotalPages()
    }

    predicate HasPrevious() {
      number > 0
    }
  }

  /** The page a repository returns for `req` over the full ordered result `all`. */
  function PageOf<T>(all: seq<T>, req: PageRequest): (p: Page<T>)
    ensures |p.content| <= req.size
    ensures p.number == req.pageIndex && p.size == req.size && p.totalElements == |all|
    ensures |p.content| > 0 ==> req.pageIndex * req.size + |p.content| <= |all|
    ensures var start := req.pageIndex * req.size;
      |p.content| == (if start >= |all| then 0 else if start + req.size <= |all| then req.size else |all| - start)
    ensures forall k :: 0 <= k < |p.content| ==> p.content[k] == all[req.pageIndex * req.size + k]
  {
    var start := req.pageIndex * req.size;
    var from := if start <= |all| then start else |all|;
    var to := if from + req.size <= |all| then from + req.size else |all|;
    Page(all[from..to], req.pageIndex, req.size, |all|)
  }

  /** Every result appears on exactly the page its position names. */
  lemma {:induction false} ElementOnItsPage<T>(all: seq<T>, i: nat, size: nat)
    requires i < |all| && size > 0
    ensures var p := PageOf(all, PageRequest(i / size, size, []));
      i % size < |p.content| && p.content[i % size] == all[i]
  {
    var q := i / size;
    assert q * size + i % size == i;
    assert q * size <= i;
  }

  /** The one-based page metadata of `PageDto`. */
  datatype PageableDto = PageableDto(currentPage: nat, pageSize: nat, totalPages: nat, totalElements: nat, hasNext: bool, hasPrevious: bool)

  datatype PageDto<T> = PageDto(content: seq<T>, pageable: PageableDto)

  /** `PageDto.fromPage`: content as is, the page number made one-based, the counts copied. */
  function FromPage<T>(p: Page<T>): (d: PageDto<T>)
    ensures d.content == p.content
    ensures d.pageable.currentPage >= 1 && d.pageable.currentPage == p.number + 1
    ensures d.pageable.hasPrevious <==> d.pageable.currentPage > 1
    ensures d.pageable.hasNext <==> d.pageable.currentPage < d.pageable.totalPages
    ensures d.pageable.pageSize == p.size && d.pageable.totalElements == p.totalElements
  {
    PageDto(p.content, PageableDto(p.number + 1, p.size, p.TotalPages(), p.totalElements, p.HasNext(), p.HasPrevious()))
  }

  /** A page built from a one-based request reports that same page number back. */
  lemma FromPageEchoesRequest<T>(all: seq<T>, page: int, size: int, sort: ProductSearchSortType)
    requires page >= 1
    ensures FromPage(PageOf(all, GetPageable(page, size, sort))).pageable.currentPage == page
  {
  }
}

=== FILE: payment.dfy ===
/**
 * `PaymentService.charge`: topping up a wallet through a stored payment method. The amount is
 * bounded, the idempotency key makes a repeated request return the first receipt, the payment
 * gateway's answer decides between SUCCESS and FAILED, and a success grows the wallet by the amount
 * with one deposit row.
 */
module Payments {

  import opened Wrappers
  import opened Strings
  import PM = PaymentMethods
  import W = Wallet

  const MIN_AMOUNT: int := 100
  const MAX_AMOUNT_PER_TX: int := 1_000_000

  datatype PaymentStatus = PENDING | SUCCESS | FAILED {
    function Name(): string {
      match this
      case PENDING => "PENDING"
      case SUCCESS => "SUCCESS"
      case FAILED => "FAILED"
    }
  }

  /** A payment row, with the snapshot of the method it was made with. */
  datatype Payment = Payment(
    id: int,
    memberId: int,
    methodId: int,
    amount: int,
    currency: string,
    status: PaymentStatus,
    transactionId: Option<string>,
    provider: Option<string>,
    methodType: string,
    idempotencyKey: string,
    methodAlias: Option<string>,
    cardBrand: Option<string>,
    cardLast4: Option<string>,
    bankName: Option<string>,
    bankLast4: Option<string>,
    createDate: int,
    paidAt: Option<int>)

  /** The repositories `charge` reads and writes. */
  datatype PayStore = PayStore(payments: seq<Payment>, methods: PM.MethodStore, ledger: W.Ledger, nextPaymentId: int)

  datatype PaymentRequest = PaymentRequest(paymentMethodId: Option<int>, amount: Option<int>, idempotencyKey: Option<string>)

  /**
   * The gateway's answer to the billing call: it throws with an HTTP status, or it answers with a
   * success flag, a transaction id and a failure message. The call itself is outside this model.
   */
  datatype PgOutcome = PgThrew(status: int) | PgAnswer(success: bool, transactionId: Option<string>, failureMsg: Option<string>)

  /** The receipt; `cashTransactionId` is null when no deposit row was written by this call. */
  datatype PaymentResponse = PaymentResponse(
    paymentId: int, paymentMethodId: int, status: string, amount: int, currency: string,
    provider: Option<string>, methodType: string, transactionId: Option<string>,
    paidAt: Option<int>, idempotencyKey: string, cashTransactionId: Option<int>, balanceAfter: int)

  /**
   * Why `charge` fails, each a `ResponseStatusException`. A gateway failure carries the payment as
   * it was marked FAILED; the exception rolls the transaction back, so nothing of it is stored.
   */
  datatype ChargeError =
    | AmountTooSmall
    | AmountTooLarge
    | MissingKey
    | MethodNotFound
    | MethodInactive
    | NoBillingKey
    | PgThrown(status: int, failed: Payment)
    | PgDeclined(failed: Payment)
  {
    function Status(): int {
      match this
      case MethodNotFound => 404
      case PgThrown(s, _) => s
      case _ => 400
    }
  }

  /** `findByMemberAndIdempotencyKey`: the member's earlier payment under this key. */
  function FindByKey(payments: seq<Payment>, memberId: int, key: string): (r: Option<nat>)
    ensures r.Some? ==> r.value < |payments| && payments[r.value].memberId == memberId && payments[r.value].idempotencyKey == key
    ensures r.None? ==> forall i :: 0 <= i < |payments| ==> !(payments[i].memberId == memberId && payments[i].idempotencyKey == key)
  {
    if |payments| == 0 then None
    else if payments[0].memberId == memberId && payments[0].idempotencyKey == key then Some(0)
    else match FindByKey(payments[1..], memberId, key)
      case None => None
      case Some(k) => Some(k + 1)
  }

  /** `toResponse`. */
  function ToResponse(p: Payment, balanceAfter: int, cashTxId: Option<int>): (r: PaymentResponse)
    ensures r.paymentId == p.id && r.status == p.status.Name() && r.amount == p.amount
    ensures r.idempotencyKey == p.idempotencyKey && r.cashTransactionId == cashTxId && r.balanceAfter == balanceAfter
  {
    PaymentResponse(p.id, p.methodId, p.status.Name(), p.amount, p.currency, p.provider, p.methodType,
                    p.transactionId, p.paidAt, p.idempotencyKey, cashTxId, balanceAfter)
  }

  /** The request checks of `charge`, in order: the amount's bounds, then the key. */
  function CheckRequest(req: PaymentRequest): (o: Outcome<ChargeError>)
    ensures o.Pass? <==> req.amount.Some? && MIN_AMOUNT <= req.amount.value <= MAX_AMOUNT_PER_TX
                         && req.idempotencyKey.Some? && !IsBlank(req.idempotencyKey.value)
    ensures (req.amount.None? || req.amount.value < MIN_AMOUNT) ==> o == Fail(AmountTooSmall)
    ensures (req.amount.Some? && req.amount.value > MAX_AMOUNT_PER_TX) ==> o == Fail(AmountTooLarge)
  {
    if req.amount.None? || req.amount.value < MIN_AMOUNT then Fail(AmountTooSmall)
    else if req.amount.value > MAX_AMOUNT_PER_TX then Fail(AmountTooLarge)
    else if req.idempotencyKey.None? || IsBlank(req.idempotencyKey.value) then Fail(MissingKey)
    else Pass
  }

  /** The method checks of `charge`: the member's live method (404), not inactive (400), with a billing key (400). */
  function CheckMethod(ms: PM.MethodStore, memberId: int, methodId: Option<int>): (r: Result<PM.PaymentMethod, ChargeError>)
    ensures r.Success? ==> PM.Owned(r.value, memberId) && r.value.active != Some(false)
                           && r.value.token.Some? && !IsBlank(r.value.token.value)
    ensures r.Success? ==> methodId.Some? && r.value.id == methodId.value && r.value in ms.methods
    ensures (methodId.None? || PM.FindOwned(ms.methods, memberId, methodId.value).None?) <==> r == Failure(MethodNotFound)
  {
    if methodId.None? then Failure(MethodNotFound)
    else
      var i :- PM.FindOwned(ms.methods, memberId, methodId.value).ToResult(MethodNotFound);
      var m := ms.methods[i];
      if m.active == Some(false) || m.deleted == Some(true) then Failure(MethodInactive)
      else if m.token.None? || IsBlank(m.token.value) then Failure(NoBillingKey)
      else Success(m)
  }

  /** The PENDING payment `charge` stores before calling the gateway. */
  function NewPayment(id: int, memberId: int, m: PM.PaymentMethod, amount: int, key: string, now: int): (p: Payment)
    ensures p.status == PENDING && p.amount == amount && p.idempotencyKey == key && p.memberId == memberId
    ensures p.methodId == m.id && p.currency == "KRW" && p.transactionId.None? && p.paidAt.None?
  {
    Payment(id, memberId, m.id, amount, "KRW", PENDING, None, m.provider, m.methodType.Name(), key,
            m.alias, m.brand, m.last4, m.bankName, m.acctLast4, now, None)
  }

  /**
   * `charge`. In order: the amount must lie in [100, 1,000,000] and the key must not be blank (400);
   * an earlier payment of the member under the same key is returned as is, with the current balance
   * and no deposit row; the method must be the member's live method (404), not inactive and holding
   * a billing key (400). The payment is stored PENDING and the gateway charged: an exception or a
   * refusal marks it FAILED and fails the call. On success the member's wallet, created at 0 when
   * missing, grows by the amount with one DEPOSIT row for this payment, and the payment becomes
   * SUCCESS with its payment time.
   */
  function Charge(st: PayStore, memberId: int, req: PaymentRequest, pg: PgOutcome, now: int): (r: Result<(PayStore, PaymentResponse), ChargeError>)
    ensures CheckRequest(req).Fail? ==> r == Failure(CheckRequest(req).error)
    ensures CheckRequest(req).Pass? && FindByKey(st.payments, memberId, req.idempotencyKey.value).Some? ==>
      var p := st.payments[FindByKey(st.payments, memberId, req.idempotencyKey.value).value];
      r == Success((st, ToResponse(p, W.BalanceOf(st.ledger, memberId), None)))
    ensures (&& CheckRequest(req).Pass? && FindByKey(st.payments, memberId, req.idempotencyKey.value).None?
             && CheckMethod(st.methods, memberId, req.paymentMethodId).Failure?) ==>
      r == Failure(CheckMethod(st.methods, memberId, req.paymentMethodId).error)
    ensures (&& CheckRequest(req).Pass? && FindByKey(st.payments, memberId, req.idempotencyKey.value).None?
             && CheckMethod(st.methods, memberId, req.paymentMethodId).Success?) ==>
      && (pg.PgThrew? ==> r.Failure? && r.error.PgThrown?)
      && (pg.PgAnswer? && !pg.success ==> r.Failure? && r.error.PgDeclined?)
      && (pg.PgAnswer? && pg.success ==>
            && r.Success? && |r.value.0.payments| == |st.payments| + 1 && r.value.0.payments[..|st.payments|] == st.payments
            && var p := r.value.0.payments[|st.payments|];
               p.status == SUCCESS && p.memberId == memberId && p.amount == req.amount.value
               && p.idempotencyKey == req.idempotencyKey.value)
    ensures r.Failure? && (r.error.PgThrown? || r.error.PgDeclined?) ==>
      r.error.failed.status == FAILED && r.error.failed.amount == req.amount.value && r.error.failed.paidAt.None?
    ensures r.Success? && r.value.0 != st ==>
      && pg.PgAnswer? && pg.success
      && r.value.1.status == "SUCCESS" && r.value.1.amount == req.amount.value
      && r.value.1.balanceAfter == W.BalanceOf(st.ledger, memberId) + req.amount.value
      && W.BalanceOf(r.value.0.ledger, memberId) == r.value.1.balanceAfter
      && r.value.1.cashTransactionId == Some(st.ledger.nextTxId)
      && r.value.1.paidAt == Some(now) && r.value.1.transactionId == pg.transactionId
  {
    var checked := CheckRequest(req);
    :- checked;
    var amount := req.amount.value;
    var key := req.idempotencyKey.value;
    match FindByKey(st.payments, memberId, key)
    case Some(i) => Success((st, ToResponse(st.payments[i], W.BalanceOf(st.ledger, memberId), None)))
    case None =>
      var m :- CheckMethod(st.methods, memberId, req.paymentMethodId);
      var pending := NewPayment(st.nextPaymentId, memberId, m, amount, key, now);
      match pg
      case PgThrew(status) => Failure(PgThrown(status, pending.(status := FAILED)))
      case PgAnswer(success, txId, _) =>
        if !success then Failure(PgDeclined(pending.(status := FAILED, transactionId := txId)))
        else
          var d := W.Deposit(st.ledger, memberId, amount, W.PAYMENT, pending.id, now);
          var paid := pending.(status := SUCCESS, transactionId := txId, paidAt := Some(now));
          var st' := PayStore(st.payments + [paid], st.methods, d.ledger, st.nextPaymentId + 1);
          assert st'.payments != st.payments;
          Success((st', ToResponse(paid, d.balance, Some(d.txId))))
  }

  // ---------------------------------------------------------------- properties

  /**
   * A repeated request with the same member and key charges once: the second call changes nothing,
   * needs no gateway call (any gateway answer gives the same result) and returns the same payment
   * without a deposit row.
   */
  lemma ChargeTwiceChargesOnce(st: PayStore, memberId: int, req: PaymentRequest, pg: PgOutcome, now: int,
                               req2: PaymentRequest, pg2: PgOutcome, now2: int)
    requires Charge(st, memberId, req, pg, now).Success?
    requires CheckRequest(req2).Pass? && req2.idempotencyKey == req.idempotencyKey
    ensures var (st1, resp1) := Charge(st, memberId, req, pg, now).value;
      && Charge(st1, memberId, req2, pg2, now2).Success?
      && Charge(st1, memberId, req2, pg2, now2).value.0 == st1
      && Charge(st1, memberId, req2, pg2, now2).value.1.paymentId == resp1.paymentId
      && Charge(st1, memberId, req2, pg2, now2).value.1.cashTransactionId == None
  {
    var key := req.idempotencyKey.value;
    var (st1, resp1) := Charge(st, memberId, req, pg, now).value;
    match FindByKey(st.payments, memberId, key)
    case Some(i) =>
    case None =>
      var k := |st.payments|;
      assert st1.payments[k].memberId == memberId && st1.payments[k].idempotencyKey == key;
      var j := FindByKey(st1.payments, memberId, key);
      assert j.Some?;
      assert st1.payments[..k] == st.payments;
  }

  /** A charge never touches a wallet other than the payer's. */
  lemma ChargeLeavesOtherWallets(st: PayStore, memberId: int, req: PaymentRequest, pg: PgOutcome, now: int, other: int)
    requires other != memberId
    ensures var r := Charge(st, memberId, req, pg, now);
      r.Success? ==> W.BalanceOf(r.value.0.ledger, other) == W.BalanceOf(st.ledger, other)
  {
  }

  /**
   * A successful new charge writes exactly one ledger row: a DEPOSIT of the amount for this payment,
   * showing the new balance.
   */
  lemma ChargeWritesOneDeposit(st: PayStore, memberId: int, req: PaymentRequest, pg: PgOutcome, now: int)
    ensures var r := Charge(st, memberId, req, pg, now);
      r.Success? && r.value.0 != st ==>
        var txs := r.value.0.ledger.txs;
        && |txs| == |st.ledger.txs| + 1 && txs[..|st.ledger.txs|] == st.ledger.txs
        && txs[|st.ledger.txs|].txType == W.DEPOSIT
        && txs[|st.ledger.txs|].amount == req.amount.value
        && txs[|st.ledger.txs|].balanceAfter == r.value.1.balanceAfter
        && txs[|st.ledger.txs|].relatedType == Some(W.PAYMENT)
        && txs[|st.ledger.txs|].relatedId == Some(r.value.1.paymentId)
  {
  }

  /** A gateway that throws or declines leaves everything as it was, because the failure is the result. */
  lemma GatewayFailureChargesNothing(st: PayStore, memberId: int, req: PaymentRequest, pg: PgOutcome, now: int)
    requires pg.PgThrew? || !pg.success
    ensures var r := Charge(st, memberId, req, pg, now); r.Success? ==> r.value.0 == st
  {
  }
}

=== FILE: payment_method.dfy ===
/**
 * `PaymentMethodService`: a member's cards and bank accounts. Card and bank fields never mix, a
 * member has at most one default method, and deleting the default hands the role to the newest
 * remaining method.
 */
module PaymentMethods {

  import opened Wrappers
  import opened Strings

  datatype MethodType = CARD | BANK {
    /** The enum constant's name. */
    function Name(): (s: string)
      ensures |s| == 4
    {
      match this
      case CARD => "CARD"
      case BANK => "BANK"
    }
  }

  /** A stored payment method; `active` and `deleted` are nullable booleans. */
  datatype PaymentMethod = PaymentMethod(
    id: int,
    memberId: int,
    methodType: MethodType,
    token: Option<string>,
    alias: Option<string>,
    isDefault: bool,
    brand: Option<string>,
    last4: Option<string>,
    expMonth: Option<int>,
    expYear: Option<int>,
    bankCode: Option<string>,
    bankName: Option<string>,
    acctLast4: Option<string>,
    provider: Option<string>,
    active: Option<bool>,
    deleted: Option<bool>,
    createDate: int)

  /** The repositories: member ids and the payment methods in insertion order. */
  datatype MethodStore = MethodStore(members: set<int>, methods: seq<PaymentMethod>, nextId: int)

  datatype CreateRequest = CreateRequest(
    methodType: Option<string>, token: Option<string>, alias: Option<string>, isDefault: Option<bool>,
    brand: Option<string>, last4: Option<string>, expMonth: Option<int>, expYear: Option<int>,
    bankCode: Option<string>, bankName: Option<string>, acctLast4: Option<string>, provider: Option<string>)

  datatype EditRequest = EditRequest(
    alias: Option<string>, isDefault: Option<bool>,
    brand: Option<string>, last4: Option<string>, expMonth: Option<int>, expYear: Option<int>,
    bankCode: Option<string>, bankName: Option<string>, acctLast4: Option<string>)

  /** Why a request is refused; `status` is the HTTP status it ends in. */
  datatype MethodError =
    | NoMember(status: int)
    | NoMethod
    | BadType
    | DuplicateAlias
    | CardFieldsMissing
    | BankFieldsMissing
    | BankFieldsOnCard
    | CardFieldsOnBank
  {
    function Status(): (s: int)
      ensures NoMethod? ==> s == 404
      ensures !NoMember? && !NoMethod? ==> s == 400
    {
      match this
      case NoMember(s) => s
      case NoMethod => 404
      case _ => 400
    }
  }

  // ---------------------------------------------------------------- strings

  /** `isBlank` of this service: null, or empty once trimmed. */
  predicate BlankAfterTrim(s: Option<string>) {
    s.None? || Trim(s.value) == []
  }

  /** `nvlBlankToNull`: null for null or blank input, otherwise the trimmed text. */
  function NvlBlankToNull(s: Option<string>): (r: Option<string>)
    ensures r.None? <==> BlankAfterTrim(s)
    ensures r.Some? ==> r.value == Trim(s.value) && |r.value| > 0
  {
    if s.None? then None
    else
      var t := Trim(s.value);
      if t == [] then None else Some(t)
  }

  /** Normalising twice is normalising once. */
  lemma NvlBlankToNullIdempotent(s: Option<string>)
    ensures NvlBlankToNull(NvlBlankToNull(s)) == NvlBlankToNull(s)
  {
    if s.Some? {
      TrimIdempotent(s.value);
    }
  }

  /** `PaymentMethodType.valueOf(String.valueOf(type).trim().toUpperCase())`; a null type reads as "null". */
  function ParseMethodType(raw: Option<string>): (r: Option<MethodType>)
    ensures r.Some? ==> ToUpper(Trim(raw.GetOr("null"))) == r.value.Name()
    ensures r.None? ==> forall t: MethodType :: ToUpper(Trim(raw.GetOr("null"))) != t.Name()
  {
    var name := ToUpper(Trim(raw.GetOr("null")));
    if name == "CARD" then Some(CARD)
    else if name == "BANK" then Some(BANK)
    else None
  }

  /** Each type's own name parses back to it, and a null type is refused. */
  lemma ParseMethodTypeOfName(t: MethodType)
    ensures ParseMethodType(Some(t.Name())) == Some(t)
    ensures ParseMethodType(None) == None
  {
    var name := t.Name();
    assert forall i :: 0 <= i < 4 ==> 'A' <= name[i] <= 'Z';
    CapitalsReadAsThemselves(name);
    NullIsNoType();
  }

  /** `String.valueOf(null)` is "null", which names no type. */
  lemma NullIsNoType()
    ensures ParseMethodType(None) == None
  {
    assert ParseMethodType(None) == ParseMethodType(Some("null"));
    StartsWithNIsNoType("null");
  }

  lemma StartsWithNIsNoType(s: string)
    requires |s| > 0 && s[0] == 'n' && !IsTrimmable(s[|s| - 1])
    ensures ParseMethodType(Some(s)) == None
  {
    TrimOfTrimmed(s);
    var name := ToUpper(Trim(s));
    assert name[0] == UpperChar('n') == 'N';
    assert name != CARD.Name() && name != BANK.Name();
  }

  /** A four-letter upper-case word survives trimming and upper-casing. */
  lemma CapitalsReadAsThemselves(name: string)
    requires |name| == 4 && forall i :: 0 <= i < 4 ==> 'A' <= name[i] <= 'Z'
    ensures ToUpper(Trim(name)) == name
  {
    TrimOfTrimmed(name);
    var u := ToUpper(name);
    assert forall i :: 0 <= i < 4 ==> u[i] == name[i];
  }

  // ---------------------------------------------------------------- lookups

  /** A method that is not deleted (`deletedFalse`). */
  predicate Live(m: PaymentMethod) {
    m.deleted == Some(false)
  }

  /** A live method of `memberId`. */
  predicate Owned(m: PaymentMethod, memberId: int) {
    m.memberId == memberId && Live(m)
  }

  /** `findByIdAndMemberAndDeletedFalse`: the position of the member's live method `id`. */
  function FindOwned(ms: seq<PaymentMethod>, memberId: int, id: int): (r: Option<nat>)
    ensures r.Some? ==> r.value < |ms| && Owned(ms[r.value], memberId) && ms[r.value].id == id
    ensures r.None? ==> forall i :: 0 <= i < |ms| && Owned(ms[i], memberId) ==> ms[i].id != id
  {
    if |ms| == 0 then None
    else if Owned(ms[|ms| - 1], memberId) && ms[|ms| - 1].id == id then Some(|ms| - 1)
    else FindOwned(ms[..|ms| - 1], memberId, id)
  }

  /** `findFirstByMemberAndIsDefaultTrueAndDeletedFalse`: the earliest live default of the member. */
  function FirstDefault(ms: seq<PaymentMethod>, memberId: int): (r: Option<nat>)
    ensures r.Some? ==> r.value < |ms| && Owned(ms[r.value], memberId) && ms[r.value].isDefault
    ensures r.None? ==> forall i :: 0 <= i < |ms| && Owned(ms[i], memberId) ==> !ms[i].isDefault
  {
    if |ms| == 0 then None
    else if Owned(ms[0], memberId) && ms[0].isDefault then Some(0)
    else match FirstDefault(ms[1..], memberId)
      case None => None
      case Some(k) => Some(k + 1)
  }

  /**
   * `findFirstByMemberAndDeletedFalseOrderByCreateDateDesc`: the member's newest live method; of
   * methods created at the same time the later stored one.
   */
  function Newest(ms: seq<PaymentMethod>, memberId: int): (r: Option<nat>)
    ensures r.Some? ==> r.value < |ms| && Owned(ms[r.value], memberId)
    ensures r.Some? ==> forall i :: 0 <= i < |ms| && Owned(ms[i], memberId) ==> ms[i].createDate <= ms[r.value].createDate
    ensures r.None? <==> forall i :: 0 <= i < |ms| ==> !Owned(ms[i], memberId)
  {
    if |ms| == 0 then None
    else
      var front := ms[..|ms| - 1];
      var last := ms[|ms| - 1];
      var rest := Newest(front, memberId);
      assert forall i :: 0 <= i < |front| ==> front[i] == ms[i];
      if !Owned(last, memberId) then rest
      else if rest.Some? && ms[rest.value].createDate > last.createDate then rest
      else Some(|ms| - 1)
  }

  /** `existsByMemberAndAlias...DeletedFalse`, skipping the method `except` when given. */
  predicate AliasTaken(ms: seq<PaymentMethod>, memberId: int, alias: string, except: Option<int>) {
    exists i :: 0 <= i < |ms| && Owned(ms[i], memberId) && ms[i].alias == Some(alias) && Some(ms[i].id) != except
  }

  /** `countByMemberAndDeletedFalse(member) == 0`. */
  predicate HasNone(ms: seq<PaymentMethod>, memberId: int) {
    forall i :: 0 <= i < |ms| ==> !Owned(ms[i], memberId)
  }

  /** The member's default cleared at position `at`, if any. */
  function ClearDefault(ms: seq<PaymentMethod>, at: Option<nat>): (r: seq<PaymentMethod>)
    requires at.Some? ==> at.value < |ms|
    ensures |r| == |ms|
    ensures forall i :: 0 <= i < |ms| ==> r[i] == (if Some(i) == at then ms[i].(isDefault := false) else ms[i])
  {
    if at.None? then ms else ms[at.value := ms[at.value].(isDefault := false)]
  }

  // ---------------------------------------------------------------- invariants

  /** Card methods carry no bank field and bank methods no card field. */
  predicate Exclusive(m: PaymentMethod) {
    && (m.methodType == CARD ==> m.bankCode.None? && m.bankName.None? && m.acctLast4.None?)
    && (m.methodType == BANK ==> m.brand.None? && m.last4.None? && m.expMonth.None? && m.expYear.None?)
  }

  /** Every member has at most one live default method. */
  predicate OneDefault(ms: seq<PaymentMethod>) {
    forall i, j ::
      (0 <= i < |ms| && 0 <= j < |ms| && Live(ms[i]) && Live(ms[j])
       && ms[i].memberId == ms[j].memberId && ms[i].isDefault && ms[j].isDefault) ==> i == j
  }

  /** Ids are distinct and below the next id to hand out. */
  predicate IdsFresh(st: MethodStore) {
    && (forall i :: 0 <= i < |st.methods| ==> st.methods[i].id < st.nextId)
    && (forall i, j :: 0 <= i < j < |st.methods| ==> st.methods[i].id != st.methods[j].id)
  }

  predicate Valid(st: MethodStore) {
    && IdsFresh(st)
    && OneDefault(st.methods)
    && (forall i :: 0 <= i < |st.methods| ==> Exclusive(st.methods[i]))
  }

  // ---------------------------------------------------------------- responses

  /** `String.format("%0<width>d", n)`: the sign counts towards the width. */
  function FormatPadded(n: int, width: nat): (r: string)
    ensures |r| > 0 && (n >= 0 ==> r == ZeroPad(n, width))
    ensures n < 0 ==> r[0] == '-'
  {
    if n >= 0 then ZeroPad(n, width)
    else "-" + ZeroPad(-n, if width > 0 then width - 1 else 0)
  }

  /** The "yyyy-MM" expiry shown only when both year and month are stored. */
  function ExpireDate(expYear: Option<int>, expMonth: Option<int>): (r: Option<string>)
    ensures r.Some? <==> expYear.Some? && expMonth.Some?
    ensures r.Some? ==> |r.value| >= 7
  {
    if expYear.Some? && expMonth.Some? then
      Some(FormatPadded(expYear.value, 4) + "-" + FormatPadded(expMonth.value, 2))
    else None
  }

  /** A four-digit year and a calendar month read back from the expiry string. */
  lemma ExpireDateRoundTrip(year: int, month: int)
    requires 0 <= year <= 9999 && 1 <= month <= 12
    ensures var r := ExpireDate(Some(year), Some(month)).value;
      |r| == 7 && r[4] == '-' && ParseInt(r[..4]) == Some(year) && ParseInt(r[5..]) == Some(month)
  {
    var y := FormatPadded(year, 4);
    var m := FormatPadded(month, 2);
    ParseIntOfZeroPad(year, 4);
    ParseIntOfZeroPad(month, 2);
    assert |NatToString(year)| <= 4 by { NatToStringLength(year); }
    assert |NatToString(month)| <= 2 by { NatToStringLength(month); }
    var r := y + "-" + m;
    assert r[..4] == y && r[5..] == m;
  }

  /** Printed numbers below 10000 have at most four digits, below 100 at most two. */
  lemma NatToStringLength(n: nat)
    ensures n < 10000 ==> |NatToString(n)| <= 4
    ensures n < 100 ==> |NatToString(n)| <= 2
  {
    if n >= 10 {
      NatToStringLength(n / 10);
    }
  }

  datatype MethodResponse = MethodResponse(
    id: int, methodType: string, alias: Option<string>, isDefault: bool, provider: Option<string>,
    brand: Option<string>, last4: Option<string>, expMonth: Option<int>, expYear: Option<int>,
    bankCode: Option<string>, bankName: Option<string>, acctLast4: Option<string>,
    createDate: int, expireDate: Option<string>)

  /** `toResponse`: the stored fields, the type's name, and the derived expiry. */
  function ToResponse(m: PaymentMethod): (r: MethodResponse)
    ensures r.id == m.id && r.methodType == m.methodType.Name() && r.isDefault == m.isDefault
    ensures r.brand == m.brand && r.last4 == m.last4 && r.bankName == m.bankName && r.acctLast4 == m.acctLast4
    ensures r.expireDate.Some? <==> m.expYear.Some? && m.expMonth.Some?
  {
    MethodResponse(m.id, m.methodType.Name(), m.alias, m.isDefault, m.provider, m.brand, m.last4,
                   m.expMonth, m.expYear, m.bankCode, m.bankName, m.acctLast4, m.createDate,
                   ExpireDate(m.expYear, m.expMonth))
  }

  // ---------------------------------------------------------------- create

  /** Before `m` is stored: when it is to be the default, its member's current default loses the role. */
  function TakeDefault(ms: seq<PaymentMethod>, m: PaymentMethod): (r: seq<PaymentMethod>)
    ensures |r| == |ms|
  {
    if m.isDefault then ClearDefault(ms, FirstDefault(ms, m.memberId)) else ms
  }

  /** The type-specific fields of a new method; the other type's fields are left null. */
  function NewMethodFields(t: MethodType, req: CreateRequest, base: PaymentMethod): (r: Result<PaymentMethod, MethodError>)
    ensures r.Success? ==> Exclusive(r.value)
    ensures r.Success? <==>
      ((t == CARD && !BlankAfterTrim(req.brand) && !BlankAfterTrim(req.last4))
       || (t == BANK && !BlankAfterTrim(req.bankName) && !BlankAfterTrim(req.acctLast4)))
  {
    match t
    case CARD =>
      if BlankAfterTrim(req.brand) || BlankAfterTrim(req.last4) then Failure(CardFieldsMissing)
      else Success(base.(methodType := CARD, brand := req.brand, last4 := req.last4,
                         expMonth := req.expMonth, expYear := req.expYear,
                         bankCode := None, bankName := None, acctLast4 := None))
    case BANK =>
      if BlankAfterTrim(req.bankName) || BlankAfterTrim(req.acctLast4) then Failure(BankFieldsMissing)
      else Success(base.(methodType := BANK, bankCode := req.bankCode, bankName := req.bankName,
                         acctLast4 := req.acctLast4,
                         brand := None, last4 := None, expMonth := None, expYear := None))
  }

  /**
   * `create`. In order: the member must exist (an `IllegalArgumentException`, so 400), the type must
   * read as CARD or BANK, a given alias must be free among the member's methods, and the type's
   * required fields must be present. The new method is the default when asked for or when it is
   * the member's first, and then the old default loses the role.
   */
  function Create(st: MethodStore, memberId: int, req: CreateRequest, now: int): (r: Result<(MethodStore, MethodResponse), MethodError>)
    ensures memberId !in st.members ==> r == Failure(NoMember(400))
    ensures memberId in st.members && ParseMethodType(req.methodType).None? ==> r == Failure(BadType)
    ensures (memberId in st.members && ParseMethodType(req.methodType).Some? && req.alias.Some?
             && AliasTaken(st.methods, memberId, req.alias.value, None)) ==> r == Failure(DuplicateAlias)
    ensures r.Success? <==>
      && memberId in st.members && ParseMethodType(req.methodType).Some?
      && (req.alias.None? || !AliasTaken(st.methods, memberId, req.alias.value, None))
      && var t := ParseMethodType(req.methodType).value;
         || (t == CARD && !BlankAfterTrim(req.brand) && !BlankAfterTrim(req.last4))
         || (t == BANK && !BlankAfterTrim(req.bankName) && !BlankAfterTrim(req.acctLast4))
    ensures r.Success? ==> var (st', resp) := r.value;
      && |st'.methods| == |st.methods| + 1
      && st'.members == st.members && st'.nextId == st.nextId + 1
      && var m := st'.methods[|st.methods|];
      && m.id == st.nextId && m.memberId == memberId && Owned(m, memberId) && m.active == Some(true) && Exclusive(m)
      && Some(m.methodType) == ParseMethodType(req.methodType)
      && m.alias == req.alias && m.token == req.token && m.createDate == now
      && (m.isDefault <==> req.isDefault == Some(true) || HasNone(st.methods, memberId))
      && m.provider == NvlBlankToNull(req.provider)
      && st'.methods == TakeDefault(st.methods, m) + [m]
      && resp == ToResponse(m)
  {
    if memberId !in st.members then Failure(NoMember(400))
    else
      var t :- ParseMethodType(req.methodType).ToResult(BadType);
      :- Need(req.alias.None? || !AliasTaken(st.methods, memberId, req.alias.value, None), DuplicateAlias);
      var makeDefault := req.isDefault == Some(true) || HasNone(st.methods, memberId);
      var base := PaymentMethod(st.nextId, memberId, t, req.token, req.alias, makeDefault,
                                None, None, None, None, None, None, None,
                                NvlBlankToNull(req.provider), Some(true), Some(false), now);
      var m :- NewMethodFields(t, req, base);
      Success((MethodStore(st.members, TakeDefault(st.methods, m) + [m], st.nextId + 1), ToResponse(m)))
  }

  // ---------------------------------------------------------------- edit

  /** `ensureNoCrossTypeFields`: a card edit may not carry bank fields, nor a bank edit card fields. */
  function CheckCrossType(t: MethodType, req: EditRequest): (o: Outcome<MethodError>)
    ensures o.Pass? <==>
      (t == CARD ==> BlankAfterTrim(req.bankName) && BlankAfterTrim(req.acctLast4) && BlankAfterTrim(req.bankCode))
      && (t == BANK ==> BlankAfterTrim(req.brand) && BlankAfterTrim(req.last4) && req.expMonth.None? && req.expYear.None?)
  {
    var hasCard := NvlBlankToNull(req.brand).Some? || NvlBlankToNull(req.last4).Some?
                   || req.expMonth.Some? || req.expYear.Some?;
    var hasBank := NvlBlankToNull(req.bankName).Some? || NvlBlankToNull(req.acctLast4).Some?
                   || NvlBlankToNull(req.bankCode).Some?;
    if t == CARD && hasBank then Fail(BankFieldsOnCard)
    else if t == BANK && hasCard then Fail(CardFieldsOnBank)
    else Pass
  }

  /** A present request value replaces the stored one. */
  function Merge<T>(given: Option<T>, stored: Option<T>): (r: Option<T>)
    ensures r.Some? <==> given.Some? || stored.Some?
    ensures given.Some? ==> r == given
  {
    if given.Some? then given else stored
  }

  /**
   * The type-specific part of `edit`: present values replace stored ones, the type's required fields
   * must then all be present (for a card also both expiry fields), and the other type's fields are cleared.
   */
  function EditFields(m: PaymentMethod, req: EditRequest): (r: Result<PaymentMethod, MethodError>)
    ensures r.Success? ==> Exclusive(r.value) && r.value.methodType == m.methodType
    ensures r.Success? && m.methodType == CARD ==>
      r.value.brand.Some? && r.value.last4.Some? && r.value.expMonth.Some? && r.value.expYear.Some?
    ensures r.Success? && m.methodType == BANK ==> r.value.bankName.Some? && r.value.acctLast4.Some?
    ensures m.methodType == CARD ==> (r.Success? <==> && Merge(req.brand, m.brand).Some? && Merge(req.last4, m.last4).Some?
                                                      && Merge(req.expMonth, m.expMonth).Some? && Merge(req.expYear, m.expYear).Some?)
    ensures m.methodType == BANK ==> (r.Success? <==> Merge(req.bankName, m.bankName).Some? && Merge(req.acctLast4, m.acctLast4).Some?)
    ensures r.Success? ==> r.value.(brand := m.brand, last4 := m.last4, expMonth := m.expMonth, expYear := m.expYear,
                                    bankCode := m.bankCode, bankName := m.bankName, acctLast4 := m.acctLast4) == m
  {
    match m.methodType
    case CARD =>
      var c := m.(brand := Merge(req.brand, m.brand), last4 := Merge(req.last4, m.last4),
                  expMonth := Merge(req.expMonth, m.expMonth), expYear := Merge(req.expYear, m.expYear));
      if c.brand.None? || c.last4.None? || c.expMonth.None? || c.expYear.None? then Failure(CardFieldsMissing)
      else Success(c.(bankCode := None, bankName := None, acctLast4 := None))
    case BANK =>
      var b := m.(bankCode := Merge(req.bankCode, m.bankCode), bankName := Merge(req.bankName, m.bankName),
                  acctLast4 := Merge(req.acctLast4, m.acctLast4));
      if b.bankName.None? || b.acctLast4.None? then Failure(BankFieldsMissing)
      else Success(b.(brand := None, last4 := None, expMonth := None, expYear := None))
  }

  /** The request with every string field normalised by `nvlBlankToNull`. */
  function Normalize(req: EditRequest): (n: EditRequest)
    ensures n.isDefault == req.isDefault && n.expMonth == req.expMonth && n.expYear == req.expYear
    ensures n.alias == NvlBlankToNull(req.alias) && n.brand == NvlBlankToNull(req.brand)
    ensures n.bankName == NvlBlankToNull(req.bankName) && n.acctLast4 == NvlBlankToNull(req.acctLast4)
    ensures n.last4 == NvlBlankToNull(req.last4) && n.bankCode == NvlBlankToNull(req.bankCode)
  {
    req.(alias := NvlBlankToNull(req.alias), brand := NvlBlankToNull(req.brand), last4 := NvlBlankToNull(req.last4),
         bankCode := NvlBlankToNull(req.bankCode), bankName := NvlBlankToNull(req.bankName),
         acctLast4 := NvlBlankToNull(req.acctLast4))
  }

  /**
   * `edit`. The member (404) and their live method (404) must exist; string fields are normalised;
   * fields of the other type are refused; a new alias must be free among the member's other methods;
   * `isDefault` true takes the role from the member's default, false gives it up; then the type's
   * fields are merged and checked. The type itself never changes.
   */
  function Edit(st: MethodStore, memberId: int, methodId: int, req: EditRequest): (r: Result<(MethodStore, MethodResponse), MethodError>)
    ensures memberId !in st.members ==> r == Failure(NoMember(404))
    ensures memberId in st.members && FindOwned(st.methods, memberId, methodId).None? ==> r == Failure(NoMethod)
    ensures r.Success? ==> var (st', resp) := r.value; var i := FindOwned(st.methods, memberId, methodId).value;
      && st'.members == st.members && st'.nextId == st.nextId && |st'.methods| == |st.methods|
      && st'.methods[i].id == methodId && st'.methods[i].methodType == st.methods[i].methodType
      && CheckCrossType(st.methods[i].methodType, req).Pass?
      && (NvlBlankToNull(req.alias).None? || !AliasTaken(st.methods, memberId, NvlBlankToNull(req.alias).value, Some(methodId)))
      && (req.isDefault.Some? ==> st'.methods[i].isDefault == req.isDefault.value)
      && (req.isDefault.None? ==> st'.methods[i].isDefault == st.methods[i].isDefault)
      && st'.methods[i].alias == Merge(NvlBlankToNull(req.alias), st.methods[i].alias)
      && resp == ToResponse(st'.methods[i])
  {
    if memberId !in st.members then Failure(NoMember(404))
    else
      var i :- FindOwned(st.methods, memberId, methodId).ToResult(NoMethod);
      var m := st.methods[i];
      var n := Normalize(req);
      :- CheckCrossType(m.methodType, n);
      :- Need(n.alias.None? || !AliasTaken(st.methods, memberId, n.alias.value, Some(m.id)), DuplicateAlias);
      var m1 := m.(alias := Merge(n.alias, m.alias));
      var d := FirstDefault(st.methods, memberId);
      var others := if n.isDefault == Some(true) && d.Some? && d.value != i then ClearDefault(st.methods, d) else st.methods;
      var m2 := if n.isDefault.Some? then m1.(isDefault := n.isDefault.value) else m1;
      var m3 :- EditFields(m2, n);
      Success((st.(methods := others[i := m3]), ToResponse(m3)))
  }

  /** Whether the type's fields merge and check does not depend on the alias or the default flag. */
  lemma EditFieldsIgnoresAliasAndDefault(m: PaymentMethod, alias: Option<string>, isDefault: bool, req: EditRequest)
    ensures EditFields(m.(alias := alias, isDefault := isDefault), req).Success? == EditFields(m, req).Success?
  {
  }

  /** `edit` succeeds exactly when the member and the method exist and every check passes. */
  lemma EditSucceedsExactly(st: MethodStore, memberId: int, methodId: int, req: EditRequest)
    ensures Edit(st, memberId, methodId, req).Success? <==>
      && memberId in st.members && FindOwned(st.methods, memberId, methodId).Some?
      && var m := st.methods[FindOwned(st.methods, memberId, methodId).value];
         && CheckCrossType(m.methodType, req).Pass?
         && (NvlBlankToNull(req.alias).None? || !AliasTaken(st.methods, memberId, NvlBlankToNull(req.alias).value, Some(methodId)))
         && EditFields(m, Normalize(req)).Success?
  {
    if memberId in st.members && FindOwned(st.methods, memberId, methodId).Some? {
      var r := Edit(st, memberId, methodId, req);
      var m := st.methods[FindOwned(st.methods, memberId, methodId).value];
      var n := Normalize(req);
      CheckCrossTypeNormalized(m.methodType, req);
      var aliasFree := n.alias.None? || !AliasTaken(st.methods, memberId, n.alias.value, Some(m.id));
      if CheckCrossType(m.methodType, n).Pass? && aliasFree {
        var m1 := m.(alias := Merge(n.alias, m.alias));
        var m2 := if n.isDefault.Some? then m1.(isDefault := n.isDefault.value) else m1;
        EditFieldsIgnoresAliasAndDefault(m, m2.alias, m2.isDefault, n);
        assert m2 == m.(alias := m2.alias, isDefault := m2.isDefault);
        assert r.Success? == EditFields(m2, n).Success?;
      } else {
        assert r.Failure?;
      }
    }
  }

  /** Normalising blank strings to null does not change the cross-type check. */
  lemma CheckCrossTypeNormalized(t: MethodType, req: EditRequest)
    ensures CheckCrossType(t, Normalize(req)) == CheckCrossType(t, req)
  {
    NvlBlankToNullIdempotent(req.brand);
    NvlBlankToNullIdempotent(req.last4);
    NvlBlankToNullIdempotent(req.bankName);
    NvlBlankToNullIdempotent(req.acctLast4);
    NvlBlankToNullIdempotent(req.bankCode);
  }

  /**
   * What `edit` leaves alone: every other method is unchanged, except the member's former default,
   * which loses the role when the edited method takes it; the edited method is the merge of the request.
   */
  lemma EditFrame(st: MethodStore, memberId: int, methodId: int, req: EditRequest)
    requires Edit(st, memberId, methodId, req).Success?
    ensures var (st', _) := Edit(st, memberId, methodId, req).value; var i := FindOwned(st.methods, memberId, methodId).value;
      && |st'.methods| == |st.methods|
      && (forall j :: 0 <= j < |st.methods| && j != i ==>
            st'.methods[j] == if req.isDefault == Some(true) && FirstDefault(st.methods, memberId) == Some(j)
                              then st.methods[j].(isDefault := false) else st.methods[j])
      && Success(st'.methods[i])
         == EditFields(st.methods[i].(alias := st'.methods[i].alias, isDefault := st'.methods[i].isDefault), Normalize(req))
  {
    var i := FindOwned(st.methods, memberId, methodId).value;
    var m := st.methods[i];
    var n := Normalize(req);
    var m1 := m.(alias := Merge(n.alias, m.alias));
    var m2 := if n.isDefault.Some? then m1.(isDefault := n.isDefault.value) else m1;
    assert m2 == m.(alias := m2.alias, isDefault := m2.isDefault);
  }

  // ---------------------------------------------------------------- delete

  datatype DeleteResponse = DeleteResponse(id: int, deleted: bool, wasDefault: bool, newDefaultId: Option<int>)

  /**
   * `deleteAndReport`. The member (404) and their live method (404) must exist; the method is removed,
   * and when it was the default the member's newest remaining method becomes the default.
   */
  function Delete(st: MethodStore, memberId: int, methodId: int): (r: Result<(MethodStore, DeleteResponse), MethodError>)
    ensures memberId !in st.members ==> r == Failure(NoMember(404))
    ensures memberId in st.members && FindOwned(st.methods, memberId, methodId).None? ==> r == Failure(NoMethod)
    ensures r.Success? <==> memberId in st.members && FindOwned(st.methods, memberId, methodId).Some?
    ensures r.Success? ==> var (st', resp) := r.value; var i := FindOwned(st.methods, memberId, methodId).value;
      && st'.members == st.members && st'.nextId == st.nextId
      && resp.id == methodId && resp.deleted && resp.wasDefault == st.methods[i].isDefault
      && (!resp.wasDefault ==> resp.newDefaultId == None && st'.methods == Remove(st.methods, i))
      && (resp.wasDefault ==> (st'.methods, resp.newDefaultId) == PromoteNewest(Remove(st.methods, i), memberId))
  {
    if memberId !in st.members then Failure(NoMember(404))
    else
      var i :- FindOwned(st.methods, memberId, methodId).ToResult(NoMethod);
      var wasDefault := st.methods[i].isDefault;
      var rest := Remove(st.methods, i);
      if !wasDefault then Success((st.(methods := rest), DeleteResponse(methodId, true, false, None)))
      else
        var (ms, newDefault) := PromoteNewest(rest, memberId);
        Success((st.(methods := ms), DeleteResponse(methodId, true, true, newDefault)))
  }

  /** The methods without the one at position `i`. */
  function Remove(ms: seq<PaymentMethod>, i: nat): (r: seq<PaymentMethod>)
    requires i < |ms|
    ensures |r| == |ms| - 1
    ensures forall j :: 0 <= j < |r| ==> r[j] == (if j < i then ms[j] else ms[j + 1])
  {
    ms[..i] + ms[i + 1..]
  }

  /** The member's newest live method becomes the default; its id is reported, null when there is none. */
  function PromoteNewest(ms: seq<PaymentMethod>, memberId: int): (r: (seq<PaymentMethod>, Option<int>))
    ensures |r.0| == |ms|
    ensures r.1.None? <==> HasNone(ms, memberId)
    ensures r.1.None? ==> r.0 == ms
  {
    match Newest(ms, memberId)
    case None => (ms, None)
    case Some(k) => (ms[k := ms[k].(isDefault := true)], Some(ms[k].id))
  }

  // ---------------------------------------------------------------- properties

  /** Clearing one method's default flag changes nothing else and keeps at most one default. */
  lemma ClearDefaultKeeps(ms: seq<PaymentMethod>, at: Option<nat>)
    requires at.Some? ==> at.value < |ms|
    requires OneDefault(ms)
    ensures OneDefault(ClearDefault(ms, at))
    ensures forall i :: 0 <= i < |ms| ==> ClearDefault(ms, at)[i].(isDefault := ms[i].isDefault) == ms[i]
    ensures forall i :: 0 <= i < |ms| && ClearDefault(ms, at)[i].isDefault ==> ms[i].isDefault
  {
  }

  /** Clearing the member's first default leaves the member without one. */
  lemma ClearFirstDefaultLeavesNone(ms: seq<PaymentMethod>, memberId: int)
    requires OneDefault(ms)
    ensures var c := ClearDefault(ms, FirstDefault(ms, memberId));
      forall i :: 0 <= i < |c| && Owned(c[i], memberId) ==> !c[i].isDefault
  {
  }

  /**
   * Storing a new method after its member's default gave up the role keeps at most one default per
   * member, and a new default is then its member's only one.
   */
  lemma {:induction false} TakeDefaultKeeps(ms: seq<PaymentMethod>, m: PaymentMethod)
    requires OneDefault(ms)
    ensures OneDefault(TakeDefault(ms, m) + [m])
    ensures forall i :: 0 <= i < |ms| ==> TakeDefault(ms, m)[i].(isDefault := ms[i].isDefault) == ms[i]
    ensures m.isDefault ==> forall i :: 0 <= i < |ms| && Owned(TakeDefault(ms, m)[i], m.memberId) ==> !TakeDefault(ms, m)[i].isDefault
  {
    var c := TakeDefault(ms, m);
    ClearDefaultKeeps(ms, FirstDefault(ms, m.memberId));
    ClearFirstDefaultLeavesNone(ms, m.memberId);
    var r := c + [m];
    forall i, j | 0 <= i < |r| && 0 <= j < |r| && Live(r[i]) && Live(r[j])
      && r[i].memberId == r[j].memberId && r[i].isDefault && r[j].isDefault
      ensures i == j
    {
      if i < |ms| && j < |ms| {
        assert r[i] == c[i] && r[j] == c[j];
      }
      if i < |ms| { assert r[i] == c[i]; }
      if j < |ms| { assert r[j] == c[j]; }
    }
  }

  /** Storing a new well-formed method under the next id keeps the invariants. */
  lemma InsertKeepsValid(st: MethodStore, m: PaymentMethod)
    requires Valid(st) && m.id == st.nextId && Exclusive(m)
    ensures Valid(MethodStore(st.members, TakeDefault(st.methods, m) + [m], st.nextId + 1))
  {
    TakeDefaultKeeps(st.methods, m);
    var c := TakeDefault(st.methods, m);
    assert forall i :: 0 <= i < |c| ==> c[i].id == st.methods[i].id && Exclusive(c[i]);
  }

  /** `create` keeps every invariant. */
  lemma CreateKeepsValid(st: MethodStore, memberId: int, req: CreateRequest, now: int)
    requires Valid(st)
    ensures var r := Create(st, memberId, req, now); r.Success? ==> Valid(r.value.0)
  {
    var r := Create(st, memberId, req, now);
    if r.Success? {
      InsertKeepsValid(st, r.value.0.methods[|st.methods|]);
    }
  }

  /** A new default method is the member's only default afterwards. */
  lemma NewDefaultIsOnlyDefault(st: MethodStore, memberId: int, req: CreateRequest, now: int)
    requires Valid(st)
    ensures var r := Create(st, memberId, req, now);
      r.Success? && r.value.0.methods[|st.methods|].isDefault ==>
        forall i :: 0 <= i < |st.methods| && Owned(r.value.0.methods[i], memberId) ==> !r.value.0.methods[i].isDefault
  {
    var r := Create(st, memberId, req, now);
    if r.Success? {
      TakeDefaultKeeps(st.methods, r.value.0.methods[|st.methods|]);
    }
  }

  /** `edit` keeps every invariant. */
  lemma {:induction false} EditKeepsValid(st: MethodStore, memberId: int, methodId: int, req: EditRequest)
    requires Valid(st)
    ensures var r := Edit(st, memberId, methodId, req); r.Success? ==> Valid(r.value.0)
  {
    var r := Edit(st, memberId, methodId, req);
    if r.Success? {
      var i := FindOwned(st.methods, memberId, methodId).value;
      var ms := st.methods;
      var n := Normalize(req);
      var d := FirstDefault(ms, memberId);
      var others := if n.isDefault == Some(true) && d.Some? && d.value != i then ClearDefault(ms, d) else ms;
      ClearDefaultKeeps(ms, d);
      ClearFirstDefaultLeavesNone(ms, memberId);
      var m3 := r.value.0.methods[i];
      assert r.value.0.methods == others[i := m3];
      assert m3.id == ms[i].id && m3.memberId == ms[i].memberId && m3.deleted == ms[i].deleted && Exclusive(m3);
      assert m3.isDefault && !ms[i].isDefault ==> n.isDefault == Some(true);
      SetKeepsValid(st, others, i, m3, memberId);
    }
  }

  /**
   * Replacing method `i` of the member by an edited copy keeps the invariants, given that a newly
   * default copy is the member's only default among the other methods.
   */
  lemma SetKeepsValid(st: MethodStore, others: seq<PaymentMethod>, i: nat, m: PaymentMethod, memberId: int)
    requires Valid(st) && i < |st.methods| && |others| == |st.methods| && OneDefault(others)
    requires forall j :: 0 <= j < |others| ==> others[j].(isDefault := st.methods[j].isDefault) == st.methods[j]
    requires forall j :: 0 <= j < |others| && others[j].isDefault ==> st.methods[j].isDefault
    requires Owned(st.methods[i], memberId)
    requires m.id == st.methods[i].id && m.memberId == memberId && m.deleted == st.methods[i].deleted && Exclusive(m)
    requires m.isDefault && !st.methods[i].isDefault ==>
      forall j :: 0 <= j < |others| && Owned(others[j], memberId) ==> !others[j].isDefault
    ensures Valid(st.(methods := others[i := m]))
  {
    var ms' := others[i := m];
    forall o | 0 <= o < |ms'| && o != i && Owned(ms'[o], memberId) && m.isDefault
      ensures !ms'[o].isDefault
    {
      assert ms'[o] == others[o];
    }
    forall a, b | 0 <= a < |ms'| && 0 <= b < |ms'| && Live(ms'[a]) && Live(ms'[b])
      && ms'[a].memberId == ms'[b].memberId && ms'[a].isDefault && ms'[b].isDefault
      ensures a == b
    {
      if a != i && b != i {
        assert ms'[a] == others[a] && ms'[b] == others[b];
      }
    }
    forall j | 0 <= j < |ms'| ensures Exclusive(ms'[j]) && ms'[j].id == st.methods[j].id {
      if j != i {
        assert Exclusive(st.methods[j]);
      }
    }
  }

  /** Removing a method keeps the invariants. */
  lemma RemoveKeepsValid(st: MethodStore, i: nat)
    requires Valid(st) && i < |st.methods|
    ensures Valid(st.(methods := Remove(st.methods, i)))
  {
    var r := Remove(st.methods, i);
    forall a, b | 0 <= a < b < |r| ensures r[a].id != r[b].id {
      var a0 := if a < i then a else a + 1;
      var b0 := if b < i then b else b + 1;
      assert r[a] == st.methods[a0] && r[b] == st.methods[b0];
    }
    forall a, b | 0 <= a < |r| && 0 <= b < |r| && Live(r[a]) && Live(r[b])
      && r[a].memberId == r[b].memberId && r[a].isDefault && r[b].isDefault
      ensures a == b
    {
      var a0 := if a < i then a else a + 1;
      var b0 := if b < i then b else b + 1;
      assert r[a] == st.methods[a0] && r[b] == st.methods[b0];
    }
  }

  /**
   * When the member has no default left, promotion makes the member's newest method the member's only
   * default and reports its id; the invariants are kept.
   */
  lemma PromoteNewestKeeps(st: MethodStore, memberId: int)
    requires Valid(st)
    requires forall j :: 0 <= j < |st.methods| && Owned(st.methods[j], memberId) ==> !st.methods[j].isDefault
    ensures var (ms, id) := PromoteNewest(st.methods, memberId);
      && Valid(st.(methods := ms))
      && (id.Some? ==>
            exists k :: 0 <= k < |ms| && Owned(ms[k], memberId) && ms[k].isDefault && ms[k].id == id.value
              && (forall j :: 0 <= j < |ms| && Owned(ms[j], memberId) ==> ms[j].createDate <= ms[k].createDate)
              && (forall j :: 0 <= j < |ms| && j != k && Owned(ms[j], memberId) ==> !ms[j].isDefault))
  {
    match Newest(st.methods, memberId)
    case None =>
    case Some(k) =>
      var ms := PromoteNewest(st.methods, memberId).0;
      assert forall j :: 0 <= j < |ms| && j != k ==> ms[j] == st.methods[j];
      assert Owned(ms[k], memberId) && ms[k].isDefault;
  }

  /** Once the member's default is removed, none of the member's remaining methods is the default. */
  lemma RemovedDefaultLeavesNone(st: MethodStore, i: nat, memberId: int)
    requires Valid(st) && i < |st.methods| && Owned(st.methods[i], memberId) && st.methods[i].isDefault
    ensures var rest := Remove(st.methods, i);
      forall j :: 0 <= j < |rest| && Owned(rest[j], memberId) ==> !rest[j].isDefault
  {
    var rest := Remove(st.methods, i);
    forall j | 0 <= j < |rest| && Owned(rest[j], memberId) ensures !rest[j].isDefault {
      var j0 := if j < i then j else j + 1;
      assert rest[j] == st.methods[j0];
    }
  }

  /** `deleteAndReport` keeps every invariant, and a deleted default passes the role to the newest remaining method. */
  lemma DeleteKeepsValid(st: MethodStore, memberId: int, methodId: int)
    requires Valid(st)
    ensures var r := Delete(st, memberId, methodId); r.Success? ==> Valid(r.value.0)
    ensures var r := Delete(st, memberId, methodId);
      r.Success? && r.value.1.wasDefault && r.value.1.newDefaultId.Some? ==>
        var ms := r.value.0.methods;
        exists k :: 0 <= k < |ms| && Owned(ms[k], memberId) && ms[k].isDefault && ms[k].id == r.value.1.newDefaultId.value
          && (forall j :: 0 <= j < |ms| && Owned(ms[j], memberId) ==> ms[j].createDate <= ms[k].createDate)
          && (forall j :: 0 <= j < |ms| && j != k && Owned(ms[j], memberId) ==> !ms[j].isDefault)
  {
    var r := Delete(st, memberId, methodId);
    if r.Success? {
      var i := FindOwned(st.methods, memberId, methodId).value;
      RemoveKeepsValid(st, i);
      var rest := Remove(st.methods, i);
      if st.methods[i].isDefault {
        RemovedDefaultLeavesNone(st, i, memberId);
        PromoteNewestKeeps(st.(methods := rest), memberId);
        var pr := PromoteNewest(rest, memberId);
        assert r.value.0.methods == pr.0 && r.value.1.newDefaultId == pr.1;
      } else {
        assert r.value.0 == st.(methods := rest);
      }
    }
  }
}

=== FILE: presence.dfy ===
/**
 * User presence: which members are online, kept as a map from WebSocket session to e-mail in
 * memory, plus a per-user key with a five-minute lifetime and a set of online e-mails in the store.
 */
module Presence {

  import opened Wrappers

  /** Five minutes, in seconds: the lifetime of a user's online key. */
  const ONLINE_STATUS_TTL: int := 300

  /** A stored key's value and the time it expires. */
  datatype Entry = Entry(value: string, expiresAt: int)

  /**
   * The presence state: the session map, the per-user keys (by e-mail; the store adds the
   * "online:user:" prefix) and the online set.
   */
  datatype Presence = Presence(sessions: map<string, string>, keys: map<string, Entry>, online: set<string>)

  const Empty: Presence := Presence(map[], map[], {})

  /** The e-mails some session maps to. */
  function Mapped(sessions: map<string, string>): set<string> {
    set s | s in sessions :: sessions[s]
  }

  /** `setUserOnline`: the key gets the session id and a fresh lifetime, the e-mail joins the set, the session maps to it. */
  function SetUserOnline(p: Presence, userEmail: string, sessionId: string, now: int): (q: Presence)
    ensures q.sessions == p.sessions[sessionId := userEmail]
    ensures q.online == p.online + {userEmail}
    ensures IsUserOnline(q, userEmail, now)
    ensures forall e :: e != userEmail ==> (e in q.keys <==> e in p.keys) && (e in q.keys ==> q.keys[e] == p.keys[e])
  {
    Presence(p.sessions[sessionId := userEmail], p.keys[userEmail := Entry(sessionId, now + ONLINE_STATUS_TTL)],
             p.online + {userEmail})
  }

  /**
   * `setUserOffline`: the session is forgotten; when no other session maps to its e-mail, the
   * e-mail's key and set entry go too. An unknown session changes nothing.
   */
  function SetUserOffline(p: Presence, sessionId: string): (q: Presence)
    ensures sessionId !in p.sessions ==> q == p
    ensures q.sessions == p.sessions - {sessionId}
    ensures sessionId in p.sessions ==>
      var e := p.sessions[sessionId];
      (e in Mapped(q.sessions) ==> q.online == p.online && q.keys == p.keys)
      && (e !in Mapped(q.sessions) ==> q.online == p.online - {e} && e !in q.keys)
  {
    if sessionId !in p.sessions then p
    else
      var userEmail := p.sessions[sessionId];
      var rest := p.sessions - {sessionId};
      var hasOtherSessions := exists s :: s in rest && rest[s] == userEmail;
      if hasOtherSessions then p.(sessions := rest)
      else Presence(rest, p.keys - {userEmail}, p.online - {userEmail})
  }

  /** `isUserOnline`: the user's key exists and has not expired. */
  predicate IsUserOnline(p: Presence, userEmail: string, now: int) {
    userEmail in p.keys && now < p.keys[userEmail].expiresAt
  }

  /** `getOnlineUsers`. */
  function GetOnlineUsers(p: Presence): (r: set<string>)
    ensures forall e :: e in r <==> e in p.online
  {
    p.online
  }

  /** `refreshUserOnlineStatus`: a user still online gets a fresh lifetime; anyone else is left alone. */
  function RefreshUserOnlineStatus(p: Presence, userEmail: string, now: int): (q: Presence)
    ensures !IsUserOnline(p, userEmail, now) ==> q == p
    ensures IsUserOnline(p, userEmail, now) ==> userEmail in q.keys && q.keys[userEmail] == Entry("active", now + ONLINE_STATUS_TTL)
    ensures q.sessions == p.sessions && q.online == p.online
    ensures forall e :: IsUserOnline(q, e, now) <==> IsUserOnline(p, e, now)
  {
    if IsUserOnline(p, userEmail, now) then p.(keys := p.keys[userEmail := Entry("active", now + ONLINE_STATUS_TTL)])
    else p
  }

  /** `getUserEmailBySessionId`. */
  function GetUserEmailBySessionId(p: Presence, sessionId: string): (r: Option<string>)
    ensures r.Some? <==> sessionId in p.sessions
    ensures r.Some? ==> r.value == p.sessions[sessionId]
  {
    if sessionId in p.sessions then Some(p.sessions[sessionId]) else None
  }

  /** `clearAllOnlineStatus`: the keys of every online user, the online set and the session map are emptied. */
  function ClearAllOnlineStatus(p: Presence): (q: Presence)
    ensures q.sessions == map[] && q.online == {}
    ensures forall e :: e in p.online ==> e !in q.keys
    ensures forall e :: e !in p.online ==> (e in q.keys <==> e in p.keys)
  {
    Presence(map[], p.keys - p.online, {})
  }

  // ---------------------------------------------------------------- properties

  /** Every e-mail a session maps to is in the online set. */
  predicate Covered(p: Presence) {
    Mapped(p.sessions) <= p.online
  }

  /** The online set is exactly the e-mails with a session. */
  predicate Exact(p: Presence) {
    Mapped(p.sessions) == p.online
  }

  lemma MappedUpdate(sessions: map<string, string>, s: string, e: string)
    ensures Mapped(sessions[s := e]) <= Mapped(sessions) + {e}
    ensures s !in sessions ==> Mapped(sessions[s := e]) == Mapped(sessions) + {e}
  {
    var m := sessions[s := e];
    forall x | x in Mapped(m) ensures x in Mapped(sessions) + {e} {
      var t :| t in m && m[t] == x;
      if t != s { assert sessions[t] == x; }
    }
    if s !in sessions {
      forall x | x in Mapped(sessions) ensures x in Mapped(m) {
        var t :| t in sessions && sessions[t] == x;
        assert m[t] == x;
      }
      assert m[s] == e;
    }
  }

  lemma MappedRemove(sessions: map<string, string>, s: string)
    requires s in sessions
    ensures Mapped(sessions - {s}) + {sessions[s]} == Mapped(sessions)
  {
    var rest := sessions - {s};
    forall x | x in Mapped(sessions) ensures x in Mapped(rest) + {sessions[s]} {
      var t :| t in sessions && sessions[t] == x;
      if t != s { assert rest[t] == x; }
    }
    forall x | x in Mapped(rest) ensures x in Mapped(sessions) {
      var t :| t in rest && rest[t] == x;
      assert sessions[t] == x;
    }
  }

  /** Going online and offline never leaves a session's e-mail out of the online set. */
  lemma OperationsKeepCovered(p: Presence, userEmail: string, sessionId: string, now: int)
    requires Covered(p)
    ensures Covered(SetUserOnline(p, userEmail, sessionId, now))
    ensures Covered(SetUserOffline(p, sessionId))
    ensures Covered(RefreshUserOnlineStatus(p, userEmail, now))
    ensures Covered(ClearAllOnlineStatus(p))
  {
    MappedUpdate(p.sessions, sessionId, userEmail);
    if sessionId in p.sessions {
      MappedRemove(p.sessions, sessionId);
      var rest := p.sessions - {sessionId};
      var e := p.sessions[sessionId];
      if e !in Mapped(rest) {
        assert Mapped(rest) <= p.online - {e};
      }
    }
    assert Mapped(map[]) == {};
  }

  /**
   * With a new session id each time, the online set is exactly the e-mails with an open session:
   * a user goes offline with the last of their sessions and not before.
   */
  lemma FreshSessionsKeepExact(p: Presence, userEmail: string, sessionId: string, now: int)
    requires Exact(p)
    ensures sessionId !in p.sessions ==> Exact(SetUserOnline(p, userEmail, sessionId, now))
    ensures Exact(SetUserOffline(p, sessionId))
  {
    MappedUpdate(p.sessions, sessionId, userEmail);
    if sessionId in p.sessions {
      MappedRemove(p.sessions, sessionId);
    }
  }

  /** Two sessions of one user: closing one keeps the user online, closing both takes them offline. */
  lemma LastSessionTakesUserOffline(userEmail: string, s1: string, s2: string, now: int)
    requires s1 != s2
    ensures var p := SetUserOnline(SetUserOnline(Empty, userEmail, s1, now), userEmail, s2, now);
      && userEmail in SetUserOffline(p, s1).online
      && IsUserOnline(SetUserOffline(p, s1), userEmail, now)
      && userEmail !in SetUserOffline(SetUserOffline(p, s1), s2).online
      && !IsUserOnline(SetUserOffline(SetUserOffline(p, s1), s2), userEmail, now)
  {
    var p := SetUserOnline(SetUserOnline(Empty, userEmail, s1, now), userEmail, s2, now);
    assert p.sessions == map[s1 := userEmail, s2 := userEmail];
    var q := SetUserOffline(p, s1);
    assert q.sessions == map[s2 := userEmail];
    assert q.sessions[s2] == userEmail;
    var q2 := SetUserOffline(q, s2);
    assert q2.sessions == map[];
  }

  /** A user with no live key cannot bring themselves back by a heartbeat. */
  lemma RefreshDoesNotRevive(p: Presence, userEmail: string, now: int)
    requires !IsUserOnline(p, userEmail, now)
    ensures !IsUserOnline(RefreshUserOnlineStatus(p, userEmail, now), userEmail, now)
  {
  }
}

=== FILE: product_enums.dfy ===
/** The product enums: categories, durations, auction and sale statuses, delivery methods and sort types. */
module ProductEnums {

  import opened Wrappers

  // ---------------------------------------------------------------- categories

  datatype ProductCategory =
    | DIGITAL_ELECTRONICS | FASHION_CLOTHING | BEAUTY | HOME_LIVING | SPORTS_LEISURE | BOOKS_MEDIA
    | PET_SUPPLIES | BABY_KIDS | FOOD_HEALTH | AUTOMOTIVE | HOBBY_COLLECTIBLES | ETC
  {
    function Id(): int {
      match this
      case DIGITAL_ELECTRONICS => 1
      case FASHION_CLOTHING => 2
      case BEAUTY => 3
      case HOME_LIVING => 4
      case SPORTS_LEISURE => 5
      case BOOKS_MEDIA => 6
      case PET_SUPPLIES => 7
      case BABY_KIDS => 8
      case FOOD_HEALTH => 9
      case AUTOMOTIVE => 10
      case HOBBY_COLLECTIBLES => 11
      case ETC => 12
    }

    /** `name()`: the constant's identifier. */
    function Name(): string {
      match this
      case DIGITAL_ELECTRONICS => "DIGITAL_ELECTRONICS"
      case FASHION_CLOTHING => "FASHION_CLOTHING"
      case BEAUTY => "BEAUTY"
      case HOME_LIVING => "HOME_LIVING"
      case SPORTS_LEISURE => "SPORTS_LEISURE"
      case BOOKS_MEDIA => "BOOKS_MEDIA"
      case PET_SUPPLIES => "PET_SUPPLIES"
      case BABY_KIDS => "BABY_KIDS"
      case FOOD_HEALTH => "FOOD_HEALTH"
      case AUTOMOTIVE => "AUTOMOTIVE"
      case HOBBY_COLLECTIBLES => "HOBBY_COLLECTIBLES"
      case ETC => "ETC"
    }
  }

  /** `values()`, in declaration order. */
  const Categories: seq<ProductCategory> := [
    DIGITAL_ELECTRONICS, FASHION_CLOTHING, BEAUTY, HOME_LIVING, SPORTS_LEISURE, BOOKS_MEDIA,
    PET_SUPPLIES, BABY_KIDS, FOOD_HEALTH, AUTOMOTIVE, HOBBY_COLLECTIBLES, ETC]

  /** The first of `cs` whose id is `id`. */
  function FirstWithId(cs: seq<ProductCategory>, id: int): (r: Option<ProductCategory>)
    ensures r.Some? ==> r.value in cs && r.value.Id() == id
    ensures r.None? ==> forall c :: c in cs ==> c.Id() != id
  {
    if |cs| == 0 then None
    else if cs[0].Id() == id then Some(cs[0])
    else FirstWithId(cs[1..], id)
  }

  /** `fromId`: the category with that id; `None` is the IllegalArgumentException for any other id. */
  function CategoryFromId(id: int): (r: Option<ProductCategory>)
    ensures r.Some? ==> r.value.Id() == id
  {
    FirstWithId(Categories, id)
  }

  /** The ids are exactly 1..12, one per category. */
  lemma CategoryIdsDistinct(a: ProductCategory, b: ProductCategory)
    ensures 1 <= a.Id() <= 12
    ensures a.Id() == b.Id() ==> a == b
  {
  }

  /** Looking up a category's own id gives the category back. */
  lemma CategoryFromIdOfId(c: ProductCategory)
    ensures CategoryFromId(c.Id()) == Some(c)
  {
    assert c in Categories;
    CategoryIdsDistinct(c, CategoryFromId(c.Id()).value);
  }

  /** `fromId` succeeds exactly on 1..12. */
  lemma {:induction false} CategoryFromIdDomain(id: int)
    ensures CategoryFromId(id).Some? <==> 1 <= id <= 12
  {
    if 1 <= id <= 12 {
      var c := Categories[id - 1];
      assert c.Id() == id;
      CategoryFromIdOfId(c);
    } else {
      var r := CategoryFromId(id);
      if r.Some? {
        CategoryIdsDistinct(r.value, r.value);
      }
    }
  }

  // ---------------------------------------------------------------- durations

  const DURATION_24: string := "24시간"
  const DURATION_48: string := "48시간"

  /** `AuctionDuration.fromValue`: the hours of the duration labelled `value`; `None` is the IllegalArgumentException. */
  function DurationFromValue(value: string): (r: Option<int>)
    ensures r.Some? ==> r.value == 24 || r.value == 48
    ensures r == Some(24) <==> value == DURATION_24
    ensures r == Some(48) <==> value == DURATION_48
  {
    if value == DURATION_24 then Some(24)
    else if value == DURATION_48 then Some(48)
    else None
  }

  // ---------------------------------------------------------------- statuses

  /** The life-cycle of an auction. A product stores the status's display name; the names are distinct, so the enum stands for it. */
  datatype AuctionStatus = BEFORE_START | BIDDING | SUCCESSFUL | FAILED

  /** The customer-facing sale status. */
  datatype SaleStatus = SALE_BEFORE_START | SELLING | SOLD | SALE_FAILED

  /** `SaleStatus.fromSaleStatus`; a null argument (`None`) is the IllegalArgumentException. */
  function FromSaleStatus(s: Option<SaleStatus>): (r: Option<AuctionStatus>)
    ensures r.Some? <==> s.Some?
  {
    match s
    case None => None
    case Some(SELLING) => Some(BIDDING)
    case Some(SOLD) => Some(SUCCESSFUL)
    case Some(SALE_FAILED) => Some(FAILED)
    case Some(SALE_BEFORE_START) => Some(BEFORE_START)
  }

  /** The status an auction status is shown as to customers. */
  function ToSaleStatus(a: AuctionStatus): SaleStatus {
    match a
    case BIDDING => SELLING
    case SUCCESSFUL => SOLD
    case FAILED => SALE_FAILED
    case BEFORE_START => SALE_BEFORE_START
  }

  /** `fromSaleStatus` is a bijection: it inverts the customer view in both directions. */
  lemma FromSaleStatusBijective(s: SaleStatus, a: AuctionStatus)
    ensures FromSaleStatus(Some(ToSaleStatus(a))) == Some(a)
    ensures FromSaleStatus(Some(s)) == Some(a) <==> ToSaleStatus(a) == s
  {
  }

  /** Distinct sale statuses map to distinct auction statuses. */
  lemma FromSaleStatusInjective(s1: SaleStatus, s2: SaleStatus)
    requires FromSaleStatus(Some(s1)) == FromSaleStatus(Some(s2))
    ensures s1 == s2
  {
  }

  // ---------------------------------------------------------------- delivery

  datatype DeliveryMethod = TRADE | DELIVERY | BOTH {
    function Name(): string {
      match this
      case TRADE => "TRADE"
      case DELIVERY => "DELIVERY"
      case BOTH => "BOTH"
    }

    /** Whether the seller meets the buyer in person, which needs a location. */
    predicate NeedsLocation() {
      this == TRADE || this == BOTH
    }
  }

  // ---------------------------------------------------------------- sorting

  datatype Direction = ASC | DESC

  /** One sort key: a property and a direction. */
  datatype Order = Order(property: string, direction: Direction)

  datatype ProductSearchSortType = LATEST | PRICE_HIGH | PRICE_LOW | ENDING_SOON | POPULAR {
    function FieldName(): string {
      match this
      case LATEST => "createDate"
      case PRICE_HIGH => "currentPrice"
      case PRICE_LOW => "currentPrice"
      case ENDING_SOON => "endTime"
      case POPULAR => "bidderCount"
    }

    function Direct(): string {
      match this
      case PRICE_LOW => "ASC"
      case ENDING_SOON => "ASC"
      case _ => "DESC"
    }

    /** `toSort()`: one order on the field, ascending exactly when the direction text is "ASC". */
    function ToSort(): (s: seq<Order>)
      ensures |s| == 1 && s[0].property == FieldName()
      ensures s[0].direction == ASC <==> Direct() == "ASC"
    {
      [Order(FieldName(), if Direct() == "ASC" then ASC else DESC)]
    }
  }

  /** The two price orders sort the same field in opposite directions; newest and most popular are descending, ending-soon ascending. */
  lemma SortTypeOrders()
    ensures PRICE_HIGH.ToSort() == [Order("currentPrice", DESC)] && PRICE_LOW.ToSort() == [Order("currentPrice", ASC)]
    ensures LATEST.ToSort() == [Order("createDate", DESC)]
    ensures ENDING_SOON.ToSort() == [Order("endTime", ASC)]
    ensures POPULAR.ToSort() == [Order("bidderCount", DESC)]
  {
  }
}

=== FILE: product_rules.dfy ===
/**
 * The product services' rules: where a location is needed, which uploaded images are accepted, how
 * a modify request is reduced to its changes (the JPA service) or completed from the product (the
 * Kakao service), which image deletions are allowed, and when a product may no longer change.
 */
module ProductRules {

  import opened Wrappers
  import opened Strings
  import opened ProductEnums
  import opened Products
  import E = Exceptions
  import F = Files

  // ---------------------------------------------------------------- location

  /** `validateLocation`: meeting in person (TRADE or BOTH) needs a non-blank location; no method asks for nothing. */
  function ValidateLocation(location: Option<string>, deliveryMethod: Option<DeliveryMethod>): (o: Outcome<E.ProductError>)
    ensures o.Fail? ==> o.error == E.LocationRequired
    ensures o.Pass? <==> deliveryMethod.None? || deliveryMethod.value == DELIVERY || (location.Some? && !IsBlank(location.value))
  {
    if deliveryMethod.Some? && deliveryMethod.value.NeedsLocation() && (location.None? || IsBlank(location.value)) then
      Fail(E.LocationRequired)
    else Pass
  }

  // ---------------------------------------------------------------- images

  const MAX_IMAGES: nat := 5
  /** Five megabytes. */
  const MAX_FILE_SIZE: nat := 5 * 1024 * 1024
  const ALLOWED_EXTENSIONS: set<string> := {".jpg", ".jpeg", ".png", ".gif", ".webp"}

  /** An uploaded file as the services see it: its size in bytes (empty at 0) and its original name. */
  datatype ImageFile = ImageFile(size: nat, originalFilename: Option<string>)

  /**
   * The checks on one file, in order: not empty (400-4), at most 5 MB (400-5), a name holding a dot
   * (400-6), and a lower-cased last extension among jpg, jpeg, png, gif and webp (400-7).
   */
  function CheckImage(img: ImageFile): (o: Outcome<E.ProductError>)
    ensures o.Fail? ==> o.error in {E.EmptyFile, E.FileTooLarge, E.InvalidFileName, E.UnsupportedFileType}
  {
    if img.size == 0 then Fail(E.EmptyFile)
    else if img.size > MAX_FILE_SIZE then Fail(E.FileTooLarge)
    else if img.originalFilename.None? || '.' !in img.originalFilename.value then Fail(E.InvalidFileName)
    else if ToLower(F.GetFileExtension(img.originalFilename)) !in ALLOWED_EXTENSIONS then Fail(E.UnsupportedFileType)
    else Pass
  }

  /** Which files pass, and which error each earlier check gives. */
  lemma CheckImageSpec(img: ImageFile)
    ensures CheckImage(img).Pass? <==> (&& img.size > 0 && img.size <= MAX_FILE_SIZE
                                        && img.originalFilename.Some? && '.' in img.originalFilename.value
                                        && ToLower(F.GetFileExtension(img.originalFilename)) in ALLOWED_EXTENSIONS)
    ensures img.size == 0 ==> CheckImage(img) == Fail(E.EmptyFile)
    ensures img.size > MAX_FILE_SIZE ==> CheckImage(img) == Fail(E.FileTooLarge)
    ensures (0 < img.size <= MAX_FILE_SIZE && (img.originalFilename.None? || '.' !in img.originalFilename.value)) ==>
      CheckImage(img) == Fail(E.InvalidFileName)
  {
  }

  /** The checks of a list in order: all pass, or the first failure is the answer. */
  function FirstFailure<T, R>(xs: seq<T>, check: T -> Outcome<R>): (o: Outcome<R>)
    ensures o.Pass? <==> forall i :: 0 <= i < |xs| ==> check(xs[i]).Pass?
  {
    if |xs| == 0 then Pass
    else if check(xs[0]).Fail? then check(xs[0])
    else
      var o := FirstFailure(xs[1..], check);
      assert forall j :: 0 < j < |xs| ==> xs[j] == xs[1..][j - 1];
      o
  }

  /** A failing element preceded only by passing ones decides the answer. */
  lemma {:induction false} FirstFailureIsFirst<T, R>(xs: seq<T>, check: T -> Outcome<R>, i: nat)
    requires i < |xs| && check(xs[i]).Fail?
    requires forall j :: 0 <= j < i ==> check(xs[j]).Pass?
    ensures FirstFailure(xs, check) == check(xs[i])
  {
    if i > 0 {
      var rest := xs[1..];
      assert check(xs[0]).Pass?;
      assert rest[i - 1] == xs[i];
      assert forall j :: 0 <= j < i - 1 ==> rest[j] == xs[j + 1];
      FirstFailureIsFirst(rest, check, i - 1);
    }
  }

  /** `validateImages`: every file passes, or the first one that does not decides the error. */
  function ValidateImages(images: seq<ImageFile>): (o: Outcome<E.ProductError>)
    ensures o.Pass? <==> forall i :: 0 <= i < |images| ==> CheckImage(images[i]).Pass?
  {
    FirstFailure(images, CheckImage)
  }

  /** The error of `validateImages` is that of the first file that fails. */
  lemma ValidateImagesFirstFailure(images: seq<ImageFile>, i: nat)
    requires i < |images| && CheckImage(images[i]).Fail?
    requires forall j :: 0 <= j < i ==> CheckImage(images[j]).Pass?
    ensures ValidateImages(images) == CheckImage(images[i])
  {
    FirstFailureIsFirst(images, CheckImage, i);
  }

  /** `validateImagesForCreate`: one to five images (400-2 for none, 400-3 for more), each acceptable. */
  function ValidateImagesForCreate(images: Option<seq<ImageFile>>): (o: Outcome<E.ProductError>)
    ensures o.Pass? <==> (&& images.Some? && 1 <= |images.value| <= MAX_IMAGES
                          && forall i :: 0 <= i < |images.value| ==> CheckImage(images.value[i]).Pass?)
    ensures (images.None? || |images.value| == 0) ==> o == Fail(E.ImageRequired)
    ensures images.Some? && |images.value| > MAX_IMAGES ==> o == Fail(E.ImageMaxCountExceeded)
  {
    if images.None? || |images.value| == 0 then Fail(E.ImageRequired)
    else if |images.value| > MAX_IMAGES then Fail(E.ImageMaxCountExceeded)
    else ValidateImages(images.value)
  }

  /**
   * `validateImagesForModify`: no new images means nothing to check; otherwise the product may hold
   * at most five images counting the new ones, and each new one must be acceptable.
   */
  function ValidateImagesForModify(existing: nat, images: Option<seq<ImageFile>>): (o: Outcome<E.ProductError>)
    ensures (images.None? || |images.value| == 0) ==> o.Pass?
    ensures images.Some? && |images.value| > 0 ==>
      (o.Pass? <==> existing + |images.value| <= MAX_IMAGES && ValidateImages(images.value).Pass?)
    ensures images.Some? && |images.value| > 0 && existing + |images.value| > MAX_IMAGES ==> o == Fail(E.ImageMaxCountExceeded)
  {
    if images.None? || |images.value| == 0 then Pass
    else if existing + |images.value| > MAX_IMAGES then Fail(E.ImageMaxCountExceeded)
    else ValidateImages(images.value)
  }

  /**
   * An image file named `<stem>.<ext>` with a size in range is accepted when the extension, in lower
   * case, is allowed: "photo.v2.JPG" passes as well as "photo.jpg".
   */
  lemma AcceptedImageName(size: nat, stem: string, ext: string)
    requires 0 < size <= MAX_FILE_SIZE
    requires '.' !in ext && ToLower("." + ext) in ALLOWED_EXTENSIONS
    ensures CheckImage(ImageFile(size, Some(stem + "." + ext))).Pass?
  {
    var name := stem + "." + ext;
    CheckImageSpec(ImageFile(size, Some(name)));
    F.ExtensionOfStemAndSuffix(stem, ext);
    assert name[|stem|] == '.';
  }

  // ---------------------------------------------------------------- image lists

  /** The images whose ids are not in `ids`, in their order. */
  function Without(images: seq<ProductImage>, ids: set<int>): (r: seq<ProductImage>)
    ensures |r| <= |images|
  {
    if |images| == 0 then []
    else (if images[0].id in ids then [] else [images[0]]) + Without(images[1..], ids)
  }

  /** What `Without` keeps: exactly the images whose id is not listed. */
  lemma {:induction false} WithoutMembers(images: seq<ProductImage>, ids: set<int>)
    ensures forall x :: x in Without(images, ids) <==> x in images && x.id !in ids
  {
    if |images| > 0 {
      var head := if images[0].id in ids then [] else [images[0]];
      assert Without(images, ids) == head + Without(images[1..], ids);
      WithoutMembers(images[1..], ids);
      assert forall x :: x in images <==> x == images[0] || x in images[1..];
    }
  }

  /** Removing one image is keeping the images without its id. */
  lemma {:induction false} RemoveImageIsWithout(images: seq<ProductImage>, id: int)
    ensures RemoveImage(images, id) == Without(images, {id})
  {
    if |images| > 0 {
      RemoveImageIsWithout(images[1..], id);
    }
  }

  /** Removing two sets of ids one after the other is removing their union. */
  lemma {:induction false} WithoutTwice(images: seq<ProductImage>, a: set<int>, b: set<int>)
    ensures Without(Without(images, a), b) == Without(images, a + b)
  {
    if |images| > 0 {
      WithoutTwice(images[1..], a, b);
      var head := if images[0].id in a then [] else [images[0]];
      assert Without(images, a) == head + Without(images[1..], a);
      WithoutConcat(head, Without(images[1..], a), b);
    }
  }

  lemma {:induction false} WithoutConcat(xs: seq<ProductImage>, ys: seq<ProductImage>, ids: set<int>)
    ensures Without(xs + ys, ids) == Without(xs, ids) + Without(ys, ids)
  {
    if |xs| > 0 {
      var head := if xs[0].id in ids then [] else [xs[0]];
      assert (xs + ys)[0] == xs[0] && (xs + ys)[1..] == xs[1..] + ys;
      assert Without(xs + ys, ids) == head + Without(xs[1..] + ys, ids);
      WithoutConcat(xs[1..], ys, ids);
      assert Without(xs, ids) == head + Without(xs[1..], ids);
    } else {
      assert xs + ys == ys;
    }
  }

  /** The ids of a deletion list, as a set. */
  function IdSet(ids: seq<int>): set<int> {
    set i | i in ids
  }

  /** Every id names a stored image of product `productId`, and no id is listed twice. */
  predicate Deletable(productId: int, repo: map<int, ProductImage>, ids: seq<int>) {
    && (forall i :: 0 <= i < |ids| ==> ids[i] in repo && repo[ids[i]].productId == productId)
    && (forall i, j :: 0 <= i < j < |ids| ==> ids[i] != ids[j])
  }

  lemma DeletableStep(productId: int, repo: map<int, ProductImage>, ids: seq<int>)
    requires |ids| > 0
    ensures Deletable(productId, repo, ids) <==>
      (&& ids[0] in repo && repo[ids[0]].productId == productId
       && Deletable(productId, repo - {ids[0]}, ids[1..]))
  {
    var rest := ids[1..];
    var repo' := repo - {ids[0]};
    if Deletable(productId, repo, ids) {
      forall i | 0 <= i < |rest|
        ensures rest[i] in repo' && repo'[rest[i]].productId == productId
      {
        assert rest[i] == ids[i + 1] && ids[0] != ids[i + 1];
      }
      forall i, j | 0 <= i < j < |rest|
        ensures rest[i] != rest[j]
      {
        assert rest[i] == ids[i + 1] && rest[j] == ids[j + 1];
      }
    }
    if ids[0] in repo && repo[ids[0]].productId == productId && Deletable(productId, repo', rest) {
      forall i | 0 <= i < |ids|
        ensures ids[i] in repo && repo[ids[i]].productId == productId
      {
        if i > 0 {
          assert ids[i] == rest[i - 1];
        }
      }
      forall i, j | 0 <= i < j < |ids|
        ensures ids[i] != ids[j]
      {
        assert ids[j] == rest[j - 1] && ids[j] in repo';
        if i > 0 {
          assert ids[i] == rest[i - 1];
        }
      }
    }
  }

  /**
   * The deletion loop: each id must name a stored image (404-2) of this product (400-9); it leaves the
   * product's list and the repository, and its URL is collected for the file service. A repeated id
   * is no longer stored the second time, so it fails as not found.
   */
  function DeleteEach(p: Product, repo: map<int, ProductImage>, ids: seq<int>): (r: Result<(Product, map<int, ProductImage>, seq<string>), E.ProductError>)
    ensures r.Failure? ==> r.error == E.ImageNotFound || r.error == E.ImageNotBelongToProduct
    ensures r.Success? ==> |r.value.2| == |ids|
    decreases |ids|
  {
    if |ids| == 0 then Success((p, repo, []))
    else
      var id := ids[0];
      if id !in repo then Failure(E.ImageNotFound)
      else if repo[id].productId != p.id then Failure(E.ImageNotBelongToProduct)
      else
        var (q, repo', urls) :- DeleteEach(p.(images := RemoveImage(p.images, id)), repo - {id}, ids[1..]);
        Success((q, repo', [repo[id].imageUrl] + urls))
  }

  /**
   * The deletion loop succeeds exactly for a deletable list, and then the product and the repository
   * have lost exactly the listed images.
   */
  lemma {:induction false} DeleteEachSpec(p: Product, repo: map<int, ProductImage>, ids: seq<int>)
    ensures DeleteEach(p, repo, ids).Success? <==> Deletable(p.id, repo, ids)
    ensures DeleteEach(p, repo, ids).Success? ==>
      && DeleteEach(p, repo, ids).value.0 == p.(images := Without(p.images, IdSet(ids)))
      && DeleteEach(p, repo, ids).value.1 == repo - IdSet(ids)
    decreases |ids|
  {
    if |ids| == 0 {
      assert IdSet(ids) == {};
      WithoutNothing(p.images);
    } else {
      var id := ids[0];
      DeletableStep(p.id, repo, ids);
      if id in repo && repo[id].productId == p.id {
        var next := p.(images := RemoveImage(p.images, id));
        var r := DeleteEach(p, repo, ids);
        var r' := DeleteEach(next, repo - {id}, ids[1..]);
        assert r.Success? <==> r'.Success?;
        DeleteEachSpec(next, repo - {id}, ids[1..]);
        if r'.Success? {
          assert r.value.0 == r'.value.0 && r.value.1 == r'.value.1;
          RemoveImageIsWithout(p.images, id);
          WithoutTwice(p.images, {id}, IdSet(ids[1..]));
          assert IdSet(ids) == {id} + IdSet(ids[1..]);
          assert (repo - {id}) - IdSet(ids[1..]) == repo - IdSet(ids);
        }
      }
    }
  }

  lemma {:induction false} WithoutNothing(images: seq<ProductImage>)
    ensures Without(images, {}) == images
  {
    if |images| > 0 {
      WithoutNothing(images[1..]);
    }
  }

  /** `deleteProductImages`: the deletion loop, after which at least one image must remain (400-2). */
  function DeleteProductImages(p: Product, repo: map<int, ProductImage>, ids: seq<int>): (r: Result<(Product, map<int, ProductImage>, seq<string>), E.ProductError>)
    ensures r.Success? <==> Deletable(p.id, repo, ids) && |Without(p.images, IdSet(ids))| > 0
    ensures r.Success? ==> r.value.0.images == Without(p.images, IdSet(ids)) && |r.value.0.images| >= 1
  {
    DeleteEachSpec(p, repo, ids);
    var (q, repo', urls) :- DeleteEach(p, repo, ids);
    if |q.images| == 0 then Failure(E.ImageRequired) else Success((q, repo', urls))
  }

  /**
   * The URLs the deletion loop hands to `deleteFile`, whether or not the request then succeeds: each
   * image that passes both checks, up to the first id that fails one. The file service is outside the
   * transaction, so these files stay deleted when the request is refused and the rows roll back.
   */
  function FilesDeleted(productId: int, repo: map<int, ProductImage>, ids: seq<int>): (urls: seq<string>)
    ensures |urls| <= |ids|
    ensures forall k :: 0 <= k < |urls| ==>
      ids[k] in repo && repo[ids[k]].productId == productId && urls[k] == repo[ids[k]].imageUrl
    ensures |urls| < |ids| ==> ids[|urls|] !in repo - IdSet(ids[..|urls|]) || repo[ids[|urls|]].productId != productId
    decreases |ids|
  {
    if |ids| == 0 then []
    else
      var id := ids[0];
      if id !in repo || repo[id].productId != productId then []
      else
        var rest := FilesDeleted(productId, repo - {id}, ids[1..]);
        var urls := [repo[id].imageUrl] + rest;
        assert forall k :: 0 < k < |urls| ==> urls[k] == rest[k - 1] && ids[k] == ids[1..][k - 1];
        if |urls| < |ids| then
          RemainingAfter(repo, ids, |rest|);
          urls
        else urls
  }

  /** The images still stored after the first `n + 1` ids are gone, seen from the rest of the list. */
  lemma RemainingAfter(repo: map<int, ProductImage>, ids: seq<int>, n: nat)
    requires n < |ids| - 1
    ensures (repo - {ids[0]}) - IdSet(ids[1..][..n]) == repo - IdSet(ids[..n + 1])
  {
    assert ids[..n + 1] == [ids[0]] + ids[1..][..n];
    assert IdSet(ids[..n + 1]) == {ids[0]} + IdSet(ids[1..][..n]);
  }

  /** When the deletion loop completes, the URLs it collects are exactly the files it deleted. */
  lemma {:induction false} FilesDeletedOnSuccess(p: Product, repo: map<int, ProductImage>, ids: seq<int>)
    requires DeleteEach(p, repo, ids).Success?
    ensures DeleteEach(p, repo, ids).value.2 == FilesDeleted(p.id, repo, ids)
    decreases |ids|
  {
    if |ids| > 0 {
      var id := ids[0];
      FilesDeletedOnSuccess(p.(images := RemoveImage(p.images, id)), repo - {id}, ids[1..]);
    }
  }

  /**
   * Deleting every image of a product is refused (400-2), yet every listed file has already been
   * deleted by then.
   */
  lemma FilesDeletedDespiteImageRequired(p: Product, repo: map<int, ProductImage>, ids: seq<int>)
    requires Deletable(p.id, repo, ids) && |Without(p.images, IdSet(ids))| == 0
    ensures DeleteProductImages(p, repo, ids) == Failure(E.ImageRequired)
    ensures |FilesDeleted(p.id, repo, ids)| == |ids|
  {
    DeleteEachSpec(p, repo, ids);
    FilesDeletedOnSuccess(p, repo, ids);
  }

  /** Listing the same image twice for deletion always fails. */
  lemma DuplicateDeletionFails(p: Product, repo: map<int, ProductImage>, ids: seq<int>, i: nat, j: nat)
    requires i < j < |ids| && ids[i] == ids[j]
    ensures DeleteProductImages(p, repo, ids).Failure?
  {
  }

  /** The images made from uploaded URLs, numbered from `nextId` and linked to product `productId`. */
  function NewImages(productId: int, nextId: int, urls: seq<string>): (r: seq<ProductImage>)
    ensures |r| == |urls|
    ensures forall k :: 0 <= k < |r| ==> r[k] == ProductImage(nextId + k, urls[k], productId)
  {
    seq(|urls|, k requires 0 <= k < |urls| => ProductImage(nextId + k, urls[k], productId))
  }

  /** The image repository: stored images by id, and the next id to hand out. */
  datatype ImageRepo = ImageRepo(images: map<int, ProductImage>, nextId: int)

  /**
   * `createProductImages`: each uploaded URL in turn becomes a stored image, numbered by the
   * repository, and is appended to the product.
   */
  function CreateImages(p: Product, repo: ImageRepo, urls: seq<string>): (r: (Product, ImageRepo))
    ensures r.0.images == p.images + NewImages(p.id, repo.nextId, urls)
    ensures r.0 == p.(images := r.0.images)
    ensures r.1.nextId == repo.nextId + |urls|
    decreases |urls|
  {
    if |urls| == 0 then
      assert p.images + [] == p.images;
      (p, repo)
    else
      var img := ProductImage(repo.nextId, urls[0], p.id);
      var p' := AddProductImage(p, img);
      var r := CreateImages(p', ImageRepo(repo.images[repo.nextId := img], repo.nextId + 1), urls[1..]);
      NewImagesCons(p.id, repo.nextId, urls);
      AppendOne(p.images, img, NewImages(p.id, repo.nextId + 1, urls[1..]));
      r
  }

  lemma AppendOne<T>(a: seq<T>, x: T, b: seq<T>)
    ensures a + ([x] + b) == (a + [x]) + b
  {
  }

  lemma NewImagesCons(productId: int, nextId: int, urls: seq<string>)
    requires |urls| > 0
    ensures NewImages(productId, nextId, urls) == [ProductImage(nextId, urls[0], productId)] + NewImages(productId, nextId + 1, urls[1..])
  {
    var a := NewImages(productId, nextId, urls);
    var b := [ProductImage(nextId, urls[0], productId)] + NewImages(productId, nextId + 1, urls[1..]);
    assert forall k :: 0 < k < |a| ==> b[k] == NewImages(productId, nextId + 1, urls[1..])[k - 1];
  }

  /** Images stored before the upload, under ids already handed out, stay as they were. */
  lemma {:induction false} CreateImagesKeeps(p: Product, repo: ImageRepo, urls: seq<string>, id: int)
    requires id in repo.images && id < repo.nextId
    ensures var r := CreateImages(p, repo, urls);
      id in r.1.images && r.1.images[id] == repo.images[id]
    decreases |urls|
  {
    if |urls| > 0 {
      var img := ProductImage(repo.nextId, urls[0], p.id);
      var repo' := ImageRepo(repo.images[repo.nextId := img], repo.nextId + 1);
      CreateImagesKeeps(AddProductImage(p, img), repo', urls[1..], id);
    }
  }

  /** Every uploaded URL is stored under the id it was given, linked to the product. */
  lemma {:induction false} CreateImagesStores(p: Product, repo: ImageRepo, urls: seq<string>, k: nat)
    requires k < |urls|
    ensures var r := CreateImages(p, repo, urls);
      repo.nextId + k in r.1.images && r.1.images[repo.nextId + k] == ProductImage(repo.nextId + k, urls[k], p.id)
    decreases |urls|
  {
    var img := ProductImage(repo.nextId, urls[0], p.id);
    var p' := AddProductImage(p, img);
    var repo' := ImageRepo(repo.images[repo.nextId := img], repo.nextId + 1);
    var stored := CreateImages(p', repo', urls[1..]).1.images;
    assert CreateImages(p, repo, urls).1.images == stored;
    if k > 0 {
      CreateImagesStores(p', repo', urls[1..], k - 1);
      assert urls[1..][k - 1] == urls[k] && p'.id == p.id;
    } else {
      CreateImagesKeeps(p', repo', urls[1..], repo.nextId);
    }
  }

  /**
   * `validateAndModifyImages` (the Kakao service's image step). A non-empty list of new images is
   * validated against the product's current count and then stored, `urls` being what the upload
   * returned for each file; a non-empty deletion list then runs the deletion loop and its
   * at-least-one-image rule. With neither list given nothing changes.
   */
  function ValidateAndModifyImages(p: Product, repo: ImageRepo, images: Option<seq<ImageFile>>, urls: seq<string>,
                                   deleteIds: Option<seq<int>>): (r: Result<(Product, ImageRepo, seq<string>), E.ProductError>)
    requires images.Some? ==> |urls| == |images.value|
    ensures (images.None? || |images.value| == 0) && (deleteIds.None? || |deleteIds.value| == 0) ==>
      r == Success((p, repo, []))
    ensures r.Success? && images.Some? && |images.value| > 0 ==>
      |p.images| + |images.value| <= MAX_IMAGES && forall i :: 0 <= i < |images.value| ==> CheckImage(images.value[i]).Pass?
    ensures r.Success? && deleteIds.Some? && |deleteIds.value| > 0 ==> |r.value.0.images| >= 1
    ensures r.Success? ==> r.value.0.images == Without(p.images + (if images.Some? && |images.value| > 0 then NewImages(p.id, repo.nextId, urls) else []),
                                                       if deleteIds.Some? then IdSet(deleteIds.value) else {})
  {
    var adding := images.Some? && |images.value| > 0;
    :- ValidateImagesForModify(|p.images|, images);
    var (p1, repo1) := if adding then CreateImages(p, repo, urls) else (p, repo);
    assert p1.images == p.images + (if adding then NewImages(p.id, repo.nextId, urls) else []);
    if deleteIds.Some? && |deleteIds.value| > 0 then
      var (p2, stored, deleted) :- DeleteProductImages(p1, repo1.images, deleteIds.value);
      Success((p2, repo1.(images := stored), deleted))
    else
      WithoutNothing(p1.images);
      assert deleteIds.Some? ==> IdSet(deleteIds.value) == {};
      Success((p1, repo1, []))
  }

  // ---------------------------------------------------------------- modify requests

  /** A product modify request; every field is optional. */
  datatype ModifyRequest = ModifyRequest(
    name: Option<string>,
    description: Option<string>,
    categoryId: Option<int>,
    initialPrice: Option<int>,
    startTime: Option<int>,
    duration: Option<string>,
    deliveryMethod: Option<DeliveryMethod>,
    location: Option<string>)

  /** How a modify request is refused: a product rule, or an unknown category id or duration label. */
  datatype ModifyError = Rejected(e: E.ProductError) | IllegalArgument

  /** The value if it differs from the current one, null when it repeats it. */
  function DropIfSame<T(==)>(v: Option<T>, current: Option<T>): (r: Option<T>)
    ensures r.Some? <==> v.Some? && v != current
    ensures r.Some? ==> r == v
  {
    if v.Some? && v == current then None else v
  }

  /**
   * The field diff of the JPA service's `validateModifyRequest`: every field equal to the product's
   * current value becomes null. A category id or duration label that names nothing throws.
   */
  function DropUnchanged(p: Product, req: ModifyRequest): (r: Result<ModifyRequest, ModifyError>)
    ensures r.Failure? <==> (|| (req.categoryId.Some? && CategoryFromId(req.categoryId.value).None?)
                             || (req.duration.Some? && DurationFromValue(req.duration.value).None?))
    ensures r.Failure? ==> r.error == IllegalArgument
    ensures r.Success? ==> (r.value.name.Some? <==> req.name.Some? && req.name.value != p.productName)
    ensures r.Success? ==> (r.value.categoryId.Some? <==> req.categoryId.Some? && CategoryFromId(req.categoryId.value) != Some(p.category))
    ensures r.Success? ==> (r.value.duration.Some? <==> req.duration.Some? && DurationFromValue(req.duration.value) != Some(p.duration))
    ensures r.Success? ==> (r.value.location.Some? <==> req.location.Some? && req.location != p.location)
  {
    if req.categoryId.Some? && CategoryFromId(req.categoryId.value).None? then Failure(IllegalArgument)
    else if req.duration.Some? && DurationFromValue(req.duration.value).None? then Failure(IllegalArgument)
    else Success(ModifyRequest(
      DropIfSame(req.name, Some(p.productName)),
      DropIfSame(req.description, Some(p.description)),
      if req.categoryId.Some? && CategoryFromId(req.categoryId.value) == Some(p.category) then None else req.categoryId,
      DropIfSame(req.initialPrice, Some(p.initialPrice)),
      DropIfSame(req.startTime, Some(p.startTime)),
      if req.duration.Some? && DurationFromValue(req.duration.value) == Some(p.duration) then None else req.duration,
      DropIfSame(req.deliveryMethod, Some(p.deliveryMethod)),
      DropIfSame(req.location, p.location)))
  }

  /**
   * The JPA service's `validateModifyRequest`: an auction whose start lies before `now` cannot be
   * changed (403-3); the request's delivery method and location must satisfy the location rule;
   * then unchanged fields are dropped.
   */
  function ValidateModifyRequest(p: Product, req: ModifyRequest, now: int): (r: Result<ModifyRequest, ModifyError>)
    ensures p.startTime < now ==> r == Failure(Rejected(E.AuctionModifyForbidden))
    ensures p.startTime >= now && ValidateLocation(req.location, req.deliveryMethod).Fail? ==> r == Failure(Rejected(E.LocationRequired))
    ensures p.startTime >= now && ValidateLocation(req.location, req.deliveryMethod).Pass? ==> r == DropUnchanged(p, req)
  {
    if p.startTime < now then Failure(Rejected(E.AuctionModifyForbidden))
    else if ValidateLocation(req.location, req.deliveryMethod).Fail? then Failure(Rejected(E.LocationRequired))
    else DropUnchanged(p, req)
  }

  /** `getDurationString`: the label of a 24-hour auction, and the 48-hour label for anything else. */
  function GetDurationString(p: Product): (s: string)
    ensures s == DURATION_24 <==> p.duration == 24
    ensures s == DURATION_24 || s == DURATION_48
  {
    if p.duration == 24 then DURATION_24 else DURATION_48
  }

  /** The label read back gives the duration, for the two durations a product can have. */
  lemma DurationStringRoundTrip(p: Product)
    requires p.duration == 24 || p.duration == 48
    ensures DurationFromValue(GetDurationString(p)) == Some(p.duration)
  {
  }

  /** The Kakao service's merge: every null field takes the product's current value. */
  function FillFrom(p: Product, req: ModifyRequest): (r: ModifyRequest)
    ensures r.name.Some? && r.description.Some? && r.categoryId.Some? && r.initialPrice.Some?
    ensures r.startTime.Some? && r.duration.Some? && r.deliveryMethod.Some?
    ensures req.name.Some? ==> r.name == req.name
    ensures req.name.None? ==> r.name == Some(p.productName)
    ensures req.categoryId.None? ==> r.categoryId == Some(p.category.Id())
    ensures req.location.None? ==> r.location == p.location
  {
    ModifyRequest(
      Some(req.name.GetOr(p.productName)),
      Some(req.description.GetOr(p.description)),
      Some(req.categoryId.GetOr(p.category.Id())),
      Some(req.initialPrice.GetOr(p.initialPrice)),
      Some(req.startTime.GetOr(p.startTime)),
      Some(req.duration.GetOr(GetDurationString(p))),
      Some(req.deliveryMethod.GetOr(p.deliveryMethod)),
      if req.location.Some? then req.location else p.location)
  }

  /** The Kakao service's `validateModifyRequest`: the same start and location guards, then the merge. */
  function MergeModifyRequest(p: Product, req: ModifyRequest, now: int): (r: Result<ModifyRequest, E.ProductError>)
    ensures p.startTime < now ==> r == Failure(E.AuctionModifyForbidden)
    ensures r.Success? <==> p.startTime >= now && ValidateLocation(req.location, req.deliveryMethod).Pass?
    ensures r.Success? ==> r.value == FillFrom(p, req)
  {
    if p.startTime < now then Failure(E.AuctionModifyForbidden)
    else
      :- ValidateLocation(req.location, req.deliveryMethod);
      Success(FillFrom(p, req))
  }

  /**
   * The two services describe the same change: completing the JPA service's reduced request from the
   * product gives what completing the original request gives.
   */
  lemma FillAfterDrop(p: Product, req: ModifyRequest)
    requires p.duration == 24 || p.duration == 48
    requires DropUnchanged(p, req).Success?
    ensures FillFrom(p, DropUnchanged(p, req).value) == FillFrom(p, req)
  {
    if req.categoryId.Some? && CategoryFromId(req.categoryId.value) == Some(p.category) {
      assert p.category.Id() == req.categoryId.value;
    }
  }

  /** Reducing an already reduced request changes nothing more. */
  lemma DropUnchangedIdempotent(p: Product, req: ModifyRequest)
    requires DropUnchanged(p, req).Success?
    ensures DropUnchanged(p, DropUnchanged(p, req).value) == DropUnchanged(p, req)
  {
  }

  /** For a request naming a known category and duration, both services accept or refuse it alike. */
  lemma ServicesAgreeOnAcceptance(p: Product, req: ModifyRequest, now: int)
    requires req.categoryId.Some? ==> CategoryFromId(req.categoryId.value).Some?
    requires req.duration.Some? ==> DurationFromValue(req.duration.value).Some?
    ensures ValidateModifyRequest(p, req, now).Success? <==> MergeModifyRequest(p, req, now).Success?
  {
  }

  // ---------------------------------------------------------------- modify and delete

  /**
   * The JPA service's `modifyProduct`, up to the entity's own update: the request is validated and
   * reduced, new images are validated against the current count and stored, and a deletion list,
   * when given at all, runs the deletion loop and the at-least-one-image rule.
   */
  function ModifyProduct(p: Product, repo: ImageRepo, req: ModifyRequest, images: Option<seq<ImageFile>>, urls: seq<string>,
                         deleteIds: Option<seq<int>>, now: int): (r: Result<(ModifyRequest, Product, ImageRepo, seq<string>), ModifyError>)
    requires images.Some? ==> |urls| == |images.value|
    ensures p.startTime < now ==> r == Failure(Rejected(E.AuctionModifyForbidden))
    ensures r.Success? <==>
      && ValidateModifyRequest(p, req, now).Success?
      && ValidateImagesForModify(|p.images|, images).Pass?
      && (deleteIds.Some? ==>
            && Deletable(p.id, Uploaded(p, repo, images, urls).1.images, deleteIds.value)
            && |Without(Uploaded(p, repo, images, urls).0.images, IdSet(deleteIds.value))| > 0)
    ensures r.Success? ==> ValidateModifyRequest(p, req, now) == Success(r.value.0)
    ensures r.Success? && deleteIds.Some? ==> |r.value.1.images| >= 1
    ensures r.Success? && images.Some? ==> |p.images| + |images.value| <= MAX_IMAGES || |images.value| == 0
    ensures r.Success? ==>
      var added := if images.Some? && |images.value| > 0 then NewImages(p.id, repo.nextId, urls) else [];
      var removed := if deleteIds.Some? then IdSet(deleteIds.value) else {};
      && r.value.1 == p.(images := Without(p.images + added, removed))
      && r.value.2 == Uploaded(p, repo, images, urls).1.(images := Uploaded(p, repo, images, urls).1.images - removed)
      && r.value.3 == (if deleteIds.Some? then FilesDeleted(p.id, Uploaded(p, repo, images, urls).1.images, deleteIds.value) else [])
  {
    var changes :- ValidateModifyRequest(p, req, now);
    var check := ValidateImagesForModify(|p.images|, images);
    if check.Fail? then Failure(Rejected(check.error))
    else
      var (p1, repo1) := Uploaded(p, repo, images, urls);
      if deleteIds.Some? then
        DeleteEachSpec(p1, repo1.images, deleteIds.value);
        match DeleteProductImages(p1, repo1.images, deleteIds.value)
        case Failure(e) => Failure(Rejected(e))
        case Success((p2, stored, deleted)) =>
          FilesDeletedOnSuccess(p1, repo1.images, deleteIds.value);
          Success((changes, p2, repo1.(images := stored), deleted))
      else
        WithoutNothing(p1.images);
        assert repo1.images - {} == repo1.images;
        Success((changes, p1, repo1, []))
  }

  /**
   * The upload step of a modify request: a non-empty list of new files is stored and appended to the
   * product, `urls` being what the upload returned for each; otherwise nothing changes.
   */
  function Uploaded(p: Product, repo: ImageRepo, images: Option<seq<ImageFile>>, urls: seq<string>): (r: (Product, ImageRepo))
    ensures r.0 == p.(images := p.images + if images.Some? && |images.value| > 0 then NewImages(p.id, repo.nextId, urls) else [])
    ensures r.1.nextId == repo.nextId + if images.Some? && |images.value| > 0 then |urls| else 0
  {
    if images.Some? && |images.value| > 0 then CreateImages(p, repo, urls)
    else
      assert p.images + [] == p.images;
      (p, repo)
  }

  /**
   * `deleteProduct`: an auction whose start lies before `now` cannot be deleted (403-4); otherwise
   * the result is the list of image URLs handed to the file service before the product goes.
   */
  function DeleteProduct(p: Product, now: int): (r: Result<seq<string>, E.ProductError>)
    ensures r.Failure? <==> p.startTime < now
    ensures r.Failure? ==> r.error == E.AuctionDeleteForbidden
    ensures r.Success? ==> |r.value| == |p.images| && forall i :: 0 <= i < |p.images| ==> r.value[i] == p.images[i].imageUrl
  {
    if p.startTime < now then Failure(E.AuctionDeleteForbidden)
    else Success(seq(|p.images|, i requires 0 <= i < |p.images| => p.images[i].imageUrl))
  }

  /** Once an auction's start has passed it can be neither modified nor deleted, by either service. */
  lemma StartedProductIsFrozen(p: Product, req: ModifyRequest, now: int)
    requires p.startTime < now
    ensures ValidateModifyRequest(p, req, now).Failure? && MergeModifyRequest(p, req, now).Failure?
    ensures DeleteProduct(p, now).Failure?
  {
  }
}

=== FILE: products.dfy ===
/** The `Product` entity: construction, bidder counting, and its image and bid lists. */
module Products {

  import opened Wrappers
  import opened ProductEnums

  /** Seconds in an hour; times are whole seconds. */
  const HOUR: int := 3600

  /** A product image; `productId` is the back-link to its product. */
  datatype ProductImage = ProductImage(id: int, imageUrl: string, productId: int)

  /**
   * A product. `bidderIds` holds the member id of each entry of the entity's bid list, in order,
   * and is `None` while that list is null, as it is on a freshly constructed product.
   */
  datatype Product = Product(
    id: int,
    productName: string,
    description: string,
    category: ProductCategory,
    initialPrice: int,
    currentPrice: int,
    startTime: int,
    endTime: int,
    duration: int,
    status: AuctionStatus,
    deliveryMethod: DeliveryMethod,
    location: Option<string>,
    sellerId: int,
    sellerNickname: string,
    bidderIds: Option<seq<int>>,
    images: seq<ProductImage>,
    createDate: int)

  /**
   * The constructor. The price starts at the initial price, the auction runs `duration` hours from
   * `startTime`, and it is already open exactly when it starts no later than `now`.
   */
  function NewProduct(id: int, productName: string, description: string, category: ProductCategory,
                      initialPrice: int, startTime: int, duration: int, deliveryMethod: DeliveryMethod,
                      location: Option<string>, sellerId: int, sellerNickname: string, now: int): (p: Product)
    ensures p.currentPrice == p.initialPrice == initialPrice
    ensures p.endTime - p.startTime == duration * HOUR && p.startTime == startTime
    ensures p.status == BIDDING <==> startTime <= now
    ensures p.status == BIDDING || p.status == BEFORE_START
    ensures p.bidderIds == None && p.images == []
    ensures p.id == id && p.sellerId == sellerId && p.location == location && p.deliveryMethod == deliveryMethod
  {
    Product(id, productName, description, category, initialPrice, initialPrice, startTime,
            startTime + duration * HOUR, duration,
            if startTime <= now then BIDDING else BEFORE_START,
            deliveryMethod, location, sellerId, sellerNickname, None, [], now)
  }

  // ---------------------------------------------------------------- bidders

  /** The number of distinct values in `s`, counting each at its last occurrence. */
  function DistinctCount(s: seq<int>): (n: nat)
    ensures n <= |s|
  {
    if |s| == 0 then 0
    else if s[|s| - 1] in s[..|s| - 1] then DistinctCount(s[..|s| - 1])
    else DistinctCount(s[..|s| - 1]) + 1
  }

  /** The values of a sequence as a set. */
  function Elements(s: seq<int>): set<int> {
    set x | x in s
  }

  /** Counting distinct values is the size of the set of values. */
  lemma {:induction false} DistinctCountIsCardinality(s: seq<int>)
    ensures DistinctCount(s) == |Elements(s)|
  {
    if |s| > 0 {
      var front := s[..|s| - 1];
      var last := s[|s| - 1];
      DistinctCountIsCardinality(front);
      assert s == front + [last];
      assert Elements(s) == Elements(front) + {last};
      if last !in front {
        assert last !in Elements(front);
      } else {
        assert last in Elements(front);
      }
    }
  }

  /** `getBiddersCount`: how many different members have bid; zero while the bid list is null. */
  function BiddersCount(p: Product): (n: nat)
    ensures p.bidderIds == None ==> n == 0
    ensures p.bidderIds.Some? ==> n == |Elements(p.bidderIds.value)|
  {
    match p.bidderIds
    case None => 0
    case Some(ids) =>
      DistinctCountIsCardinality(ids);
      DistinctCount(ids)
  }

  /** `addBid`: the bid joins the product's bid list; a null list is taken as empty. */
  function AddBid(p: Product, memberId: int): (q: Product)
    ensures q.bidderIds == Some(p.bidderIds.GetOr([]) + [memberId])
    ensures q == p.(bidderIds := q.bidderIds)
  {
    p.(bidderIds := Some(p.bidderIds.GetOr([]) + [memberId]))
  }

  /** A second bid by the same member leaves the bidder count unchanged; a first bid raises it by one. */
  lemma AddBidBiddersCount(p: Product, memberId: int)
    ensures var ids := p.bidderIds.GetOr([]);
      BiddersCount(AddBid(p, memberId)) == if memberId in ids then BiddersCount(p) else |Elements(ids)| + 1
  {
    var ids := p.bidderIds.GetOr([]);
    assert Elements(ids + [memberId]) == Elements(ids) + {memberId};
    if p.bidderIds.None? {
      assert Elements(ids) == {};
    }
  }

  // ---------------------------------------------------------------- images

  /** `addProductImage`: the image is appended and linked back to this product. */
  function AddProductImage(p: Product, img: ProductImage): (q: Product)
    ensures |q.images| == |p.images| + 1 && q.images[..|p.images|] == p.images
    ensures q.images[|p.images|] == img.(productId := p.id)
    ensures q == p.(images := q.images)
  {
    p.(images := p.images + [img.(productId := p.id)])
  }

  /** `deleteProductImage`: every entry equal to the image leaves the list; the rest keep their order. */
  function RemoveImage(images: seq<ProductImage>, imageId: int): (r: seq<ProductImage>)
    ensures |r| <= |images|
    ensures forall i :: 0 <= i < |r| ==> r[i].id != imageId && r[i] in images
    ensures forall x :: x in images && x.id != imageId ==> x in r
  {
    if |images| == 0 then []
    else if images[0].id == imageId then RemoveImage(images[1..], imageId)
    else [images[0]] + RemoveImage(images[1..], imageId)
  }
}

=== FILE: responses.dfy ===
/** The uniform response envelope `RsData` and the status table `RsStatus`. */
module Responses {

  import opened Wrappers
  import opened Strings

  /** The statuses the application names. */
  datatype RsStatus =
    | OK | CREATED | ACCEPTED
    | BAD_REQUEST | UNAUTHORIZED | FORBIDDEN | NOT_FOUND | CONFLICT
    | INTERNAL_SERVER_ERROR | SERVICE_UNAVAILABLE
  {
    predicate IsSuccess() {
      this == OK || this == CREATED || this == ACCEPTED
    }

    predicate IsClientError() {
      this == BAD_REQUEST || this == UNAUTHORIZED || this == FORBIDDEN || this == NOT_FOUND || this == CONFLICT
    }

    /** The HTTP code: success statuses are 2xx, client errors 4xx, server errors 5xx. */
    function StatusCode(): (c: int)
      ensures IsSuccess() <==> 200 <= c < 300
      ensures IsClientError() <==> 400 <= c < 500
      ensures !IsSuccess() && !IsClientError() <==> 500 <= c < 600
    {
      match this
      case OK => 200
      case CREATED => 201
      case ACCEPTED => 202
      case BAD_REQUEST => 400
      case UNAUTHORIZED => 401
      case FORBIDDEN => 403
      case NOT_FOUND => 404
      case CONFLICT => 409
      case INTERNAL_SERVER_ERROR => 500
      case SERVICE_UNAVAILABLE => 503
    }

    /** `getResultCode`: the decimal spelling of the status code, which parses back to it. */
    function ResultCode(): (r: string)
      ensures |r| == 3 && AllDigits(r)
      ensures ParseInt(r) == Some(StatusCode())
    {
      ParseIntOfNatToString(StatusCode());
      NatToString(StatusCode())
    }
  }

  /** No two statuses share a code. */
  lemma StatusCodeInjective(a: RsStatus, b: RsStatus)
    requires a.StatusCode() == b.StatusCode()
    ensures a == b
  {
  }

  /** Distinct statuses have distinct result codes. */
  lemma {:induction false} ResultCodeInjective(a: RsStatus, b: RsStatus)
    requires a.ResultCode() == b.ResultCode()
    ensures a == b
  {
    assert Some(a.StatusCode()) == ParseInt(a.ResultCode()) == Some(b.StatusCode());
    StatusCodeInjective(a, b);
  }

  /** The response body: a result code, the HTTP code derived from it, a message and an optional payload. */
  datatype RsData<T> = RsData(resultCode: string, statusCode: int, msg: string, data: Option<T>)

  /** The code the parsing constructor derives from a result code: the number before the first '-'. */
  function CodeStatus(resultCode: string): Option<int> {
    ParseInt(PrefixBefore(resultCode, '-'))
  }

  /** An envelope whose status agrees with the number its result code starts with. */
  predicate Consistent<T>(r: RsData<T>) {
    CodeStatus(r.resultCode) == Some(r.statusCode)
  }

  /** The three-argument constructor; `None` is the NumberFormatException a non-numeric prefix raises. */
  function NewRsData<T>(resultCode: string, msg: string, data: Option<T>): (r: Option<RsData<T>>)
    ensures r.Some? <==> CodeStatus(resultCode).Some?
    ensures r.Some? ==> Consistent(r.value)
    ensures r.Some? ==> r.value.resultCode == resultCode && r.value.msg == msg && r.value.data == data
  {
    match CodeStatus(resultCode)
    case None => None
    case Some(code) => Some(RsData(resultCode, code, msg, data))
  }

  /** The two-argument constructor: no payload. */
  function NewRsDataNoData<T>(resultCode: string, msg: string): (r: Option<RsData<T>>)
    ensures r.Some? ==> r.value.data == None && r.value.msg == msg && Consistent(r.value)
    ensures r.Some? <==> CodeStatus(resultCode).Some?
  {
    NewRsData(resultCode, msg, None)
  }

  /** A result code with no '-' has the code itself as its status. */
  lemma CodeStatusOfPlainCode(s: RsStatus)
    ensures CodeStatus(s.ResultCode()) == Some(s.StatusCode())
  {
    var code := s.ResultCode();
    assert forall i :: 0 <= i < |code| ==> code[i] != '-' by {
      forall i | 0 <= i < |code| ensures code[i] != '-' {
        assert IsDigit(code[i]);
      }
    }
    assert '-' !in code;
  }

  /** A detailed code "<status>-<detail>" has the status before the dash as its HTTP code. */
  lemma {:induction false} CodeStatusOfDetailedCode(s: RsStatus, detail: string)
    ensures CodeStatus(s.ResultCode() + "-" + detail) == Some(s.StatusCode())
  {
    var code := s.ResultCode();
    assert '-' !in code by {
      forall i | 0 <= i < |code| ensures code[i] != '-' {
        assert IsDigit(code[i]);
      }
    }
    PrefixBeforeConcat(code, '-', detail);
    assert code + "-" + detail == code + ['-'] + detail;
    CodeStatusOfPlainCode(s);
  }

  /** Builds an envelope directly from a status, as the static factories do. */
  function OfStatus<T>(s: RsStatus, msg: string, data: Option<T>): (r: RsData<T>)
    ensures Consistent(r)
    ensures r.statusCode == s.StatusCode() && r.msg == msg && r.data == data
    ensures Some(r) == NewRsData(s.ResultCode(), msg, data)
  {
    CodeStatusOfPlainCode(s);
    RsData(s.ResultCode(), s.StatusCode(), msg, data)
  }

  /** `ok(msg, data)`: 200, and the same envelope the parsing constructor builds from "200". */
  function Ok<T>(msg: string, data: Option<T>): (r: RsData<T>)
    ensures r.statusCode == 200 && Consistent(r)
    ensures r.msg == msg && r.data == data
  {
    OfStatus(OK, msg, data)
  }

  /** `created(msg, data)`: 201. */
  function Created<T>(msg: string, data: Option<T>): (r: RsData<T>)
    ensures r.statusCode == 201 && Consistent(r)
    ensures r.msg == msg && r.data == data
  {
    OfStatus(CREATED, msg, data)
  }

  /** `fail(msg, data)`: 400. */
  function Fail<T>(msg: string, data: Option<T>): (r: RsData<T>)
    ensures r.statusCode == 400 && Consistent(r)
    ensures r.msg == msg && r.data == data
  {
    OfStatus(BAD_REQUEST, msg, data)
  }

  /** `notFound(msg)`: 404 with no payload. */
  function NotFound<T>(msg: string): (r: RsData<T>)
    ensures r.statusCode == 404 && Consistent(r)
    ensures r.msg == msg && r.data == None
  {
    OfStatus(NOT_FOUND, msg, None)
  }

  /** `unauthorized(msg)`: 401 with no payload. */
  function Unauthorized<T>(msg: string): (r: RsData<T>)
    ensures r.statusCode == 401 && Consistent(r)
    ensures r.msg == msg && r.data == None
  {
    OfStatus(UNAUTHORIZED, msg, None)
  }

  /** `forbidden(msg)`: 403 with no payload. */
  function Forbidden<T>(msg: string): (r: RsData<T>)
    ensures r.statusCode == 403 && Consistent(r)
    ensures r.msg == msg && r.data == None
  {
    OfStatus(FORBIDDEN, msg, None)
  }
}

=== FILE: scheduler.dfy ===
/**
 * `AuctionSchedulerService`: the minute jobs that open auctions whose start has come, close
 * auctions whose end has passed, and pick the auctions about to end.
 */
module Scheduler {

  import opened Wrappers
  import opened ProductEnums
  import opened Products
  import opened Bidding

  /** Seconds in a minute. */
  const MINUTE: int := 60

  // ---------------------------------------------------------------- selection

  /** The ended-auctions query: still open, with the end time reached. */
  predicate Ended(p: Product, now: int) {
    p.status == AuctionStatus.BIDDING && p.endTime <= now
  }

  /** The ending-soon query: still open, ending between ten and eleven minutes from now, both inclusive. */
  predicate EndingSoon(p: Product, now: int) {
    p.status == AuctionStatus.BIDDING && now + 10 * MINUTE <= p.endTime <= now + 11 * MINUTE
  }

  /** The starting-auctions query: not yet open, with the start time reached. */
  predicate Starting(p: Product, now: int) {
    p.status == BEFORE_START && p.startTime <= now
  }

  /** The ids of the products a query selects. */
  function Select(products: map<int, Product>, query: Product -> bool): (ids: set<int>)
    ensures forall pid :: pid in ids <==> pid in products && query(products[pid])
  {
    set pid | pid in products && query(products[pid])
  }

  /** No product is both due to end and due to start, and an auction ending soon has not ended. */
  lemma QueriesDisjoint(p: Product, now: int)
    ensures !(Ended(p, now) && Starting(p, now))
    ensures EndingSoon(p, now) ==> !Ended(p, now)
  {
  }

  // ---------------------------------------------------------------- one product

  /**
   * `processAuctionEnd` with `highest` the highest live bid: a positive highest bid wins the auction at
   * that price; otherwise the auction fails and the price stays. Nothing else about the product changes.
   */
  function EndAuction(p: Product, highest: Option<int>): (q: Product)
    ensures highest.GetOr(0) > 0 <==> q.status == SUCCESSFUL
    ensures highest.GetOr(0) <= 0 <==> q.status == FAILED
    ensures q.currentPrice == (if q.status == SUCCESSFUL then highest.value else p.currentPrice)
    ensures q.(status := p.status, currentPrice := p.currentPrice) == p
  {
    var h := highest.GetOr(0);
    if h > 0 then p.(status := SUCCESSFUL, currentPrice := h)
    else p.(status := FAILED)
  }

  /** `processAuctionStart`: the auction opens; nothing else about the product changes. */
  function StartAuction(p: Product): (q: Product)
    ensures q.status == AuctionStatus.BIDDING
    ensures q.(status := p.status) == p
  {
    p.(status := AuctionStatus.BIDDING)
  }

  // ---------------------------------------------------------------- the batches

  /**
   * `processEndedAuctions` at `now`. The products in `failing` are those whose highest-bid lookup
   * throws; the error is logged and the batch goes on, so they stay as they were. Every other ended
   * auction is closed against its highest live bid; bids and members are untouched.
   */
  function ProcessEndedAuctions(st: Store, now: int, failing: set<int>): (st': Store)
    ensures st'.bids == st.bids && st'.members == st.members && st'.nextBidId == st.nextBidId
    ensures st'.products.Keys == st.products.Keys
    ensures forall pid :: pid in st.products && Ended(st.products[pid], now) && pid !in failing ==>
      st'.products[pid].status in {SUCCESSFUL, FAILED}
    ensures forall pid :: pid in st.products && Ended(st.products[pid], now) && pid !in failing ==>
      st'.products[pid] == EndAuction(st.products[pid], HighestBidPrice(st.bids, pid))
    ensures forall pid :: pid in st.products && (!Ended(st.products[pid], now) || pid in failing) ==>
      st'.products[pid] == st.products[pid]
  {
    var due := Select(st.products, p => Ended(p, now)) - failing;
    var products := map pid | pid in st.products ::
      if pid in due then EndAuction(st.products[pid], HighestBidPrice(st.bids, pid)) else st.products[pid];
    st.(products := products)
  }

  /**
   * `processStartingAuctions` at `now`: every product due to start opens. The status is set before the
   * start notice goes out, and a notice that throws is caught, so the opened product is still written
   * back when the transaction commits; no product of the batch is left unopened.
   */
  function ProcessStartingAuctions(st: Store, now: int): (st': Store)
    ensures st'.bids == st.bids && st'.members == st.members && st'.nextBidId == st.nextBidId
    ensures st'.products.Keys == st.products.Keys
    ensures forall pid :: pid in st.products && Starting(st.products[pid], now) ==>
      st'.products[pid].status == AuctionStatus.BIDDING
    ensures forall pid :: pid in st.products && Starting(st.products[pid], now) ==>
      st'.products[pid] == StartAuction(st.products[pid])
    ensures forall pid :: pid in st.products && !Starting(st.products[pid], now) ==>
      st'.products[pid] == st.products[pid]
  {
    var due := Select(st.products, p => Starting(p, now));
    var products := map pid | pid in st.products ::
      if pid in due then StartAuction(st.products[pid]) else st.products[pid];
    st.(products := products)
  }

  /**
   * An ended auction the batch reaches is won exactly when it has a positive highest live bid, and then
   * at that price; otherwise it fails at its old price.
   */
  lemma EndedAuctionWonIffBid(st: Store, now: int, failing: set<int>, pid: int)
    requires pid in st.products && Ended(st.products[pid], now) && pid !in failing
    ensures var q := ProcessEndedAuctions(st, now, failing).products[pid];
      var h := HighestBidPrice(st.bids, pid);
      && (q.status == SUCCESSFUL <==> h.Some? && h.value > 0)
      && (q.status == SUCCESSFUL ==> q.currentPrice == h.value)
      && (q.status == FAILED ==> q.currentPrice == st.products[pid].currentPrice)
  {
  }

  // ---------------------------------------------------------------- lifecycle

  /** How far an auction has come: not started, open, closed. */
  function Stage(s: AuctionStatus): (n: nat)
    ensures n <= 2
    ensures n == 2 <==> s == SUCCESSFUL || s == FAILED
  {
    match s
    case BEFORE_START => 0
    case BIDDING => 1
    case SUCCESSFUL => 2
    case FAILED => 2
  }

  /** Neither batch ever moves an auction backwards. */
  lemma BatchesOnlyAdvance(st: Store, now: int, failing: set<int>, pid: int)
    requires pid in st.products
    ensures Stage(ProcessEndedAuctions(st, now, failing).products[pid].status) >= Stage(st.products[pid].status)
    ensures Stage(ProcessStartingAuctions(st, now).products[pid].status) >= Stage(st.products[pid].status)
  {
  }

  /** After a closing pass without failures no open auction is past its end. */
  lemma NothingLeftToEnd(st: Store, now: int)
    ensures var st' := ProcessEndedAuctions(st, now, {});
      forall pid :: pid in st'.products ==> !Ended(st'.products[pid], now)
  {
  }

  /** After an opening pass no auction is still waiting for a start that has come. */
  lemma NothingLeftToStart(st: Store, now: int)
    ensures var st' := ProcessStartingAuctions(st, now);
      forall pid :: pid in st'.products ==> !Starting(st'.products[pid], now)
  {
  }

  /**
   * A closing pass keeps the bid invariant: a won auction's price is already its highest live bid, so
   * closing changes statuses only, never a price.
   */
  lemma {:induction false} EndingKeepsValid(st: Store, now: int, failing: set<int>)
    requires Valid(st)
    ensures var st' := ProcessEndedAuctions(st, now, failing);
      Valid(st') && forall pid :: pid in st.products ==> st'.products[pid].currentPrice == st.products[pid].currentPrice
  {
    var st' := ProcessEndedAuctions(st, now, failing);
    forall pid | pid in st.products
      ensures st'.products[pid].currentPrice == st.products[pid].currentPrice
      ensures Increasing(st'.bids, pid) && PriceTracksBids(st', pid)
    {
      assert Increasing(st.bids, pid) && PriceTracksBids(st, pid);
    }
  }

  /** An opening pass changes statuses only, so it keeps the bid invariant too. */
  lemma {:induction false} StartingKeepsValid(st: Store, now: int)
    requires Valid(st)
    ensures Valid(ProcessStartingAuctions(st, now))
  {
    var st' := ProcessStartingAuctions(st, now);
    forall pid | pid in st.products
      ensures Increasing(st'.bids, pid) && PriceTracksBids(st', pid)
    {
      assert Increasing(st.bids, pid) && PriceTracksBids(st, pid);
    }
  }

  /** Once an auction has been closed, every later bid on it is refused as not biddable. */
  lemma ClosedAuctionRefusesBids(st: Store, now: int, failing: set<int>, pid: int, bidderId: int, price: Option<int>, later: int)
    requires pid in st.products && Ended(st.products[pid], now) && pid !in failing
    requires bidderId in st.members
    ensures CreateBid(ProcessEndedAuctions(st, now, failing), pid, bidderId, price, later) == Failure(NotBiddable)
  {
  }

  /** An opened auction accepts a bid from anyone but the seller while its window lasts, given a good price. */
  lemma OpenedAuctionTakesBids(st: Store, now: int, pid: int, bidderId: int, price: int, later: int)
    requires pid in st.products && Starting(st.products[pid], now)
    requires bidderId in st.members && bidderId != st.products[pid].sellerId
    requires st.products[pid].startTime <= later <= st.products[pid].endTime
    requires price > 0 && price % BID_UNIT == 0
    requires forall i :: 0 <= i < |st.bids| && Counts(st.bids[i], pid) ==> st.bids[i].bidPrice + BID_UNIT <= price
    ensures CreateBid(ProcessStartingAuctions(st, now), pid, bidderId, Some(price), later).Success?
  {
    var st' := ProcessStartingAuctions(st, now);
    var h := HighestBidPrice(st'.bids, pid);
    if h.Some? {
      var i :| 0 <= i < |st'.bids| && Counts(st'.bids[i], pid) && st'.bids[i].bidPrice == h.value;
    }
  }
}

=== FILE: search.dfy ===
/**
 * Product search: the filters the database repositories put on a search, the member listing, the
 * sort keys they accept, the search document built from a product, and the filters and sort options
 * the search-engine repositories send.
 */
module Search {

  import opened Wrappers
  import opened Strings
  import opened ProductEnums
  import opened Products
  import opened Paging
  import opened Seqs

  /** The search form: every part optional; `category` holds category ids, `location` region names. */
  datatype ProductSearchDto = ProductSearchDto(
    keyword: Option<string>,
    category: Option<seq<int>>,
    location: Option<seq<string>>,
    isDelivery: Option<bool>,
    status: Option<AuctionStatus>)

  // ---------------------------------------------------------------- categories

  /** `ProductCategory::fromId` over the requested ids; `None` when one id is unknown, which fails the whole search. */
  function CategoriesOf(ids: seq<int>): (r: Option<seq<ProductCategory>>)
    ensures r.Some? <==> forall i :: 0 <= i < |ids| ==> CategoryFromId(ids[i]).Some?
    ensures r.Some? ==> |r.value| == |ids| && forall i :: 0 <= i < |ids| ==> r.value[i].Id() == ids[i]
  {
    if |ids| == 0 then Some([])
    else
      match CategoryFromId(ids[0])
      case None => None
      case Some(c) =>
        match CategoriesOf(ids[1..])
        case None => None
        case Some(cs) => Some([c] + cs)
  }

  // ---------------------------------------------------------------- the database filters

  /**
   * `Location.fromName`: the display name and short name of the region a name denotes, or `None`
   * for the exception it throws on an unknown name.
   */
  type LocationLookup = string -> Option<(string, string)>

  /**
   * One entry of the location filter: the product's location contains the region's display or short
   * name, or, for a name the lookup does not know, the entry itself. A product without a location
   * matches nothing.
   */
  predicate LocationEntryMatches(location: Option<string>, entry: string, lookup: LocationLookup) {
    location.Some? &&
    match lookup(entry)
    case Some(names) => Contains(location.value, names.0) || Contains(location.value, names.1)
    case None => Contains(location.value, entry)
  }

  /** The location filter: the entries are alternatives. */
  predicate LocationMatches(location: Option<string>, entries: seq<string>, lookup: LocationLookup) {
    exists i :: 0 <= i < |entries| && LocationEntryMatches(location, entries[i], lookup)
  }

  /**
   * The filters both database repositories share: a keyword the name contains ignoring case, a
   * category among the requested ones, a location among the requested ones, the status. A missing
   * or empty list is no filter.
   */
  predicate SharedFilters(p: Product, s: ProductSearchDto, cats: seq<ProductCategory>, lookup: LocationLookup) {
    && (s.keyword.None? || ContainsIgnoreCase(p.productName, s.keyword.value))
    && (s.category.None? || |s.category.value| == 0 || p.category in cats)
    && (s.location.None? || |s.location.value| == 0 || LocationMatches(p.location, s.location.value, lookup))
    && (s.status.None? || p.status == s.status.value)
  }

  /** Whether a product can be delivered: by delivery or either way. */
  predicate Deliverable(d: DeliveryMethod) {
    d == DELIVERY || d == BOTH
  }

  /** The query-object repository's delivery filter: true asks for deliverable, false for meet-in-person only. */
  predicate JpaDeliveryFilter(d: DeliveryMethod, isDelivery: Option<bool>) {
    match isDelivery
    case None => true
    case Some(true) => Deliverable(d)
    case Some(false) => d == TRADE
  }

  /** The other database repository's delivery filter: only true filters. */
  predicate PlainDeliveryFilter(d: DeliveryMethod, isDelivery: Option<bool>) {
    isDelivery != Some(true) || Deliverable(d)
  }

  /**
   * `findBySearchPaged` of the query-object repository, before ordering and paging: the products
   * passing every filter, or `None` when a category id is unknown.
   */
  function JpaSearch(ps: seq<Product>, s: ProductSearchDto, lookup: LocationLookup): (r: Option<seq<Product>>)
    ensures r.None? <==> s.category.Some? && |s.category.value| > 0 && CategoriesOf(s.category.value).None?
    ensures r.Some? ==> forall x :: x in r.value <==>
      && x in ps
      && (s.category.None? || |s.category.value| == 0 || x.category.Id() in s.category.value)
      && SharedFilters(x, s, CategoriesOf(s.category.GetOr([])).GetOr([]), lookup)
      && JpaDeliveryFilter(x.deliveryMethod, s.isDelivery)
  {
    var cats := CategoriesOf(s.category.GetOr([]));
    if s.category.Some? && |s.category.value| > 0 && cats.None? then None
    else
      CategoryFilterById(s.category.GetOr([]));
      Some(Filter(ps, (x: Product) => SharedFilters(x, s, cats.GetOr([]), lookup) && JpaDeliveryFilter(x.deliveryMethod, s.isDelivery)))
  }

  /** The other database repository's `findBySearchPaged`, before ordering and paging. */
  function PlainSearch(ps: seq<Product>, s: ProductSearchDto, lookup: LocationLookup): (r: Option<seq<Product>>)
    ensures r.None? <==> s.category.Some? && |s.category.value| > 0 && CategoriesOf(s.category.value).None?
    ensures r.Some? ==> forall x :: x in r.value <==>
      x in ps && SharedFilters(x, s, CategoriesOf(s.category.GetOr([])).GetOr([]), lookup) && PlainDeliveryFilter(x.deliveryMethod, s.isDelivery)
  {
    var cats := CategoriesOf(s.category.GetOr([]));
    if s.category.Some? && |s.category.value| > 0 && cats.None? then None
    else Some(Filter(ps, (x: Product) => SharedFilters(x, s, cats.GetOr([]), lookup) && PlainDeliveryFilter(x.deliveryMethod, s.isDelivery)))
  }

  /** A product's category is among the mapped ones exactly when its id was requested. */
  lemma CategoryFilterById(ids: seq<int>)
    requires CategoriesOf(ids).Some?
    ensures forall c :: c in CategoriesOf(ids).value <==> c.Id() in ids
  {
    var cs := CategoriesOf(ids).value;
    forall c: ProductCategory | c.Id() in ids ensures c in cs {
      var i :| 0 <= i < |ids| && ids[i] == c.Id();
      CategoryIdsDistinct(c, cs[i]);
    }
  }

  /** The two database repositories find the same products except when only meet-in-person trades are asked for. */
  lemma DatabaseSearchesAgree(ps: seq<Product>, s: ProductSearchDto, lookup: LocationLookup)
    ensures JpaSearch(ps, s, lookup).None? <==> PlainSearch(ps, s, lookup).None?
    ensures s.isDelivery != Some(false) && JpaSearch(ps, s, lookup).Some? ==>
      forall x :: x in JpaSearch(ps, s, lookup).value <==> x in PlainSearch(ps, s, lookup).value
    ensures s.isDelivery == Some(false) && JpaSearch(ps, s, lookup).Some? ==>
      forall x :: x in JpaSearch(ps, s, lookup).value <==> x in PlainSearch(ps, s, lookup).value && x.deliveryMethod == TRADE
  {
  }

  /** Asking for deliverable products and for meet-in-person products splits the unfiltered result. */
  lemma JpaDeliveryFiltersPartition(ps: seq<Product>, s: ProductSearchDto, lookup: LocationLookup, x: Product)
    requires s.isDelivery == None && JpaSearch(ps, s, lookup).Some?
    ensures x in JpaSearch(ps, s, lookup).value <==>
      x in JpaSearch(ps, s.(isDelivery := Some(true)), lookup).value || x in JpaSearch(ps, s.(isDelivery := Some(false)), lookup).value
    ensures !(x in JpaSearch(ps, s.(isDelivery := Some(true)), lookup).value && x in JpaSearch(ps, s.(isDelivery := Some(false)), lookup).value)
  {
  }

  /** A location list matches a product exactly when one of its single entries does. */
  lemma LocationListIsUnion(location: Option<string>, entries: seq<string>, lookup: LocationLookup)
    ensures LocationMatches(location, entries, lookup) <==> exists i :: 0 <= i < |entries| && LocationMatches(location, [entries[i]], lookup)
  {
    if LocationMatches(location, entries, lookup) {
      var i :| 0 <= i < |entries| && LocationEntryMatches(location, entries[i], lookup);
      assert [entries[i]][0] == entries[i];
      assert LocationMatches(location, [entries[i]], lookup);
    }
  }

  /** `findByMemberPaged`, the same in both repositories: the seller when one is given, the status when one is given. */
  function FindByMember(ps: seq<Product>, actorId: Option<int>, status: Option<AuctionStatus>): (r: seq<Product>)
    ensures forall x :: x in r <==> x in ps && (actorId.None? || x.sellerId == actorId.value) && (status.None? || x.status == status.value)
  {
    Filter(ps, (x: Product) => (actorId.None? || x.sellerId == actorId.value) && (status.None? || x.status == status.value))
  }

  /** Adding a seller narrows the member listing; without one it lists every seller's products. */
  lemma FindByMemberNarrows(ps: seq<Product>, actorId: int, status: Option<AuctionStatus>)
    ensures forall x :: x in FindByMember(ps, Some(actorId), status) ==> x in FindByMember(ps, None, status) && x.sellerId == actorId
    ensures forall x :: x in FindByMember(ps, None, status) && x.sellerId == actorId ==> x in FindByMember(ps, Some(actorId), status)
  {
  }

  // ---------------------------------------------------------------- the database sort keys

  /** The columns the database repositories sort by. */
  datatype SortKey = CreateDate | CurrentPrice | EndTime | BidderCount

  /** The property-to-column map of `applySorting`; any other property has no column. */
  function SortColumn(property: string): (k: Option<SortKey>)
    ensures k.Some? <==> property in {"createDate", "currentPrice", "endTime", "bidderCount"}
  {
    if property == "createDate" then Some(CreateDate)
    else if property == "currentPrice" then Some(CurrentPrice)
    else if property == "endTime" then Some(EndTime)
    else if property == "bidderCount" then Some(BidderCount)
    else None
  }

  /** The value a product sorts by; the bidder count is the number of distinct members who bid. */
  function SortValue(p: Product, k: SortKey): (v: int)
    ensures k == BidderCount ==> v == BiddersCount(p)
  {
    match k
    case CreateDate => p.createDate
    case CurrentPrice => p.currentPrice
    case EndTime => p.endTime
    case BidderCount => BiddersCount(p)
  }

  /** `QueryDslUtil.applySorting`: each order whose property has a column, in order; the others are skipped. */
  function OrderBy(sort: seq<Order>): (r: seq<(SortKey, Direction)>)
    ensures |r| <= |sort|
    ensures forall i :: 0 <= i < |sort| && SortColumn(sort[i].property).Some? ==>
      (SortColumn(sort[i].property).value, sort[i].direction) in r
    ensures forall e :: e in r ==> exists i :: 0 <= i < |sort| && SortColumn(sort[i].property) == Some(e.0) && sort[i].direction == e.1
    ensures (forall i :: 0 <= i < |sort| ==> SortColumn(sort[i].property).Some?) ==> |r| == |sort|
  {
    if |sort| == 0 then []
    else
      var rest := OrderBy(sort[1..]);
      match SortColumn(sort[0].property)
      case None => rest
      case Some(k) => [(k, sort[0].direction)] + rest
  }

  /** Every sort the product services build has a column, so the database never drops it. */
  lemma ServiceSortsHaveColumns(page: int, size: int, sort: ProductSearchSortType)
    ensures |OrderBy(GetPageable(page, size, sort).sort)| == 1
  {
  }

  // ---------------------------------------------------------------- the search document

  /** The search-engine document of a product. `status` is the stored display name, as on the product. */
  datatype ProductDocument = ProductDocument(
    id: string,
    productId: int,
    productName: string,
    description: string,
    category: string,
    initialPrice: int,
    currentPrice: int,
    startTime: int,
    endTime: int,
    duration: int,
    status: AuctionStatus,
    deliveryMethod: string,
    location: Option<string>,
    thumbnailUrl: Option<string>,
    sellerId: int,
    sellerNickname: string,
    bidderCount: nat,
    createDate: int)

  /** `fromEntity`: the id as text, enums by name, the seller's id and nickname, the rest copied. */
  function FromEntity(p: Product, thumbnailUrl: Option<string>): (d: ProductDocument)
    ensures d.id == IntToString(p.id) && d.productId == p.id
    ensures d.category == p.category.Name() && d.deliveryMethod == p.deliveryMethod.Name()
    ensures d.status == p.status && d.location == p.location && d.bidderCount == BiddersCount(p)
    ensures d.sellerId == p.sellerId && d.sellerNickname == p.sellerNickname && d.productName == p.productName
    ensures d.currentPrice == p.currentPrice && d.endTime == p.endTime && d.createDate == p.createDate
  {
    ProductDocument(IntToString(p.id), p.id, p.productName, p.description, p.category.Name(), p.initialPrice,
                    p.currentPrice, p.startTime, p.endTime, p.duration, p.status, p.deliveryMethod.Name(),
                    p.location, thumbnailUrl, p.sellerId, p.sellerNickname, BiddersCount(p), p.createDate)
  }

  /** Different products get different document ids. */
  lemma DocumentIdsDistinct(p: Product, q: Product, tp: Option<string>, tq: Option<string>)
    requires p.id != q.id
    ensures FromEntity(p, tp).id != FromEntity(q, tq).id
  {
    var a := IntToString(p.id);
    var b := IntToString(q.id);
    if p.id >= 0 && q.id >= 0 {
      assert DigitsValue(a) != DigitsValue(b);
    } else if p.id < 0 && q.id < 0 {
      assert a[1..] == NatToString(-p.id) && b[1..] == NatToString(-q.id);
      assert DigitsValue(a[1..]) != DigitsValue(b[1..]);
    } else if p.id < 0 {
      assert a[0] == '-' && IsDigit(b[0]);
    } else {
      assert b[0] == '-' && IsDigit(a[0]);
    }
  }

  /** A document id read back with `Long.parseLong` is the product id, for every id a Java `long` holds. */
  lemma DocumentIdRoundTrip(p: Product, t: Option<string>)
    requires LONG_MIN <= p.id <= LONG_MAX
    ensures ParseLong(FromEntity(p, t).id) == Some(p.id)
  {
    ParseInRangeOfIntToString(p.id, LONG_MIN, LONG_MAX);
  }

  // ---------------------------------------------------------------- the search-engine filters

  /** The analyzed `match` query of a text field: does the field's text match the query text. */
  type Analyzer = (string, string) -> bool

  /** Whether a search has a keyword worth matching: present and not blank. */
  predicate HasKeyword(s: ProductSearchDto) {
    s.keyword.Some? && !IsBlank(s.keyword.value)
  }

  /**
   * The bool query of the search-engine repositories (both versions send the same one): the keyword
   * must match the name; the category term is one of the requested names; one location entry
   * should match; deliverable only when delivery is asked for; the status term.
   */
  predicate EngineFilters(d: ProductDocument, s: ProductSearchDto, cats: seq<ProductCategory>, analyzer: Analyzer) {
    && (!HasKeyword(s) || analyzer(d.productName, s.keyword.value))
    && (s.category.None? || |s.category.value| == 0 || NamedIn(cats, d.category))
    && (s.location.None? || |s.location.value| == 0 ||
        exists i :: 0 <= i < |s.location.value| && d.location.Some? && analyzer(d.location.value, s.location.value[i]))
    && (s.isDelivery != Some(true) || d.deliveryMethod == "DELIVERY" || d.deliveryMethod == "BOTH")
    && (s.status.None? || d.status == s.status.value)
  }

  /** `name` is the name of one of `cats`. */
  predicate NamedIn(cats: seq<ProductCategory>, name: string) {
    exists i :: 0 <= i < |cats| && cats[i].Name() == name
  }

  /** The documents the search-engine query returns, before ordering and paging; `None` when a category id is unknown. */
  function EngineSearch(docs: seq<ProductDocument>, s: ProductSearchDto, analyzer: Analyzer): (r: Option<seq<ProductDocument>>)
    ensures r.None? <==> s.category.Some? && |s.category.value| > 0 && CategoriesOf(s.category.value).None?
    ensures r.Some? ==> forall x :: x in r.value <==> x in docs && EngineFilters(x, s, CategoriesOf(s.category.GetOr([])).GetOr([]), analyzer)
  {
    var cats := CategoriesOf(s.category.GetOr([]));
    if s.category.Some? && |s.category.value| > 0 && cats.None? then None
    else Some(Filter(docs, (x: ProductDocument) => EngineFilters(x, s, cats.GetOr([]), analyzer)))
  }

  lemma CategoryNamesDistinct(a: ProductCategory, b: ProductCategory)
    requires a.Name() == b.Name()
    ensures a == b
  {
  }

  /**
   * On the exact-match parts of a search (no keyword, no location), the search engine's filters on a
   * product's document agree with the other database repository's filters on the product itself.
   */
  lemma EngineAgreesWithDatabaseOnExactFilters(p: Product, t: Option<string>, s: ProductSearchDto, lookup: LocationLookup,
                                               analyzer: Analyzer)
    requires s.keyword.None? && s.location.None?
    requires s.category.Some? ==> CategoriesOf(s.category.value).Some?
    ensures var cats := CategoriesOf(s.category.GetOr([])).GetOr([]);
      EngineFilters(FromEntity(p, t), s, cats, analyzer) <==> SharedFilters(p, s, cats, lookup) && PlainDeliveryFilter(p.deliveryMethod, s.isDelivery)
  {
    var cats := CategoriesOf(s.category.GetOr([])).GetOr([]);
    var d := FromEntity(p, t);
    NamedInIff(cats, p.category);
    DeliverableByName(p.deliveryMethod);
    assert d.category == p.category.Name() && d.deliveryMethod == p.deliveryMethod.Name() && d.status == p.status;
  }

  /** A category's name is among the names of `cats` exactly when the category is. */
  lemma NamedInIff(cats: seq<ProductCategory>, c: ProductCategory)
    ensures NamedIn(cats, c.Name()) <==> c in cats
  {
    if NamedIn(cats, c.Name()) {
      var i :| 0 <= i < |cats| && cats[i].Name() == c.Name();
      CategoryNamesDistinct(cats[i], c);
    }
    if c in cats {
      var i :| 0 <= i < |cats| && cats[i] == c;
      assert cats[i].Name() == c.Name();
    }
  }

  lemma DeliverableByName(m: DeliveryMethod)
    ensures m.Name() == "DELIVERY" || m.Name() == "BOTH" <==> Deliverable(m)
  {
  }

  // ---------------------------------------------------------------- the search-engine sort options

  /** A sort option of the search engine: by a field, or by relevance score, descending. */
  datatype SortOption = FieldSort(field: string, direction: Direction) | ScoreDesc

  /** The last option of every search-engine sort: the product id, descending. */
  const TIEBREAKER: SortOption := FieldSort("productId", DESC)

  function FieldSorts(sort: seq<Order>): (r: seq<SortOption>)
    ensures |r| == |sort|
    ensures forall i :: 0 <= i < |sort| ==> r[i] == FieldSort(sort[i].property, sort[i].direction)
  {
    if |sort| == 0 then [] else [FieldSort(sort[0].property, sort[0].direction)] + FieldSorts(sort[1..])
  }

  /**
   * `applySorting` of the current search-engine repository: the requested orders in order, or
   * relevance first when nothing is requested and there is a keyword; the tiebreaker always last.
   */
  function EngineSorting(sort: seq<Order>, hasKeyword: bool): (r: seq<SortOption>)
    ensures |r| > 0 && r[|r| - 1] == TIEBREAKER
    ensures |sort| > 0 ==> r == FieldSorts(sort) + [TIEBREAKER]
    ensures ScoreDesc in r <==> |sort| == 0 && hasKeyword
    ensures |sort| == 0 ==> |r| == if hasKeyword then 2 else 1
  {
    if |sort| > 0 then FieldSorts(sort) + [TIEBREAKER]
    else if hasKeyword then [ScoreDesc, TIEBREAKER]
    else [TIEBREAKER]
  }

  /** `applySorting` of the earlier search-engine repository: the requested orders, and the tiebreaker only after some. */
  function LegacyEngineSorting(sort: seq<Order>): (r: seq<SortOption>)
    ensures |r| == 0 <==> |sort| == 0
    ensures ScoreDesc !in r
    ensures |sort| > 0 ==> |r| == |sort| + 1 && r[|sort|] == TIEBREAKER && r[..|sort|] == FieldSorts(sort)
  {
    if |sort| == 0 then [] else FieldSorts(sort) + [TIEBREAKER]
  }

  /** The two versions differ only on an unsorted request, where the earlier one sends no sort at all. */
  lemma EngineSortingVersionsAgree(sort: seq<Order>, hasKeyword: bool)
    ensures |sort| > 0 ==> EngineSorting(sort, hasKeyword) == LegacyEngineSorting(sort)
    ensures |sort| == 0 ==> LegacyEngineSorting(sort) == [] && EngineSorting(sort, hasKeyword) != []
  {
  }

  /**
   * The search service always asks for a sort, so the search engine sorts by the requested field and
   * then by product id, and relevance ordering is never used, with or without a keyword.
   */
  lemma ServiceSearchNeverSortsByScore(page: int, size: int, sortType: ProductSearchSortType, hasKeyword: bool)
    ensures var r := EngineSorting(GetPageable(page, size, sortType).sort, hasKeyword);
      && ScoreDesc !in r
      && r == [FieldSort(sortType.FieldName(), if sortType.Direct() == "ASC" then ASC else DESC), TIEBREAKER]
  {
    var sort := GetPageable(page, size, sortType).sort;
    assert FieldSorts(sort) == [FieldSort(sort[0].property, sort[0].direction)];
  }

  // ---------------------------------------------------------------- the search service

  /** `searchProducts`: the clamped page request, and the documents the engine query finds. */
  function SearchProducts(docs: seq<ProductDocument>, page: int, size: int, sortType: ProductSearchSortType,
                          s: ProductSearchDto, analyzer: Analyzer): (r: (PageRequest, Option<seq<ProductDocument>>))
    ensures r.0 == GetPageable(page, size, sortType)
    ensures 1 <= r.0.size <= MAX_PAGE_SIZE && (page > 0 ==> r.0.pageIndex == page - 1)
    ensures r.1.None? <==> s.category.Some? && |s.category.value| > 0 && CategoriesOf(s.category.value).None?
    ensures r.1.Some? ==> forall x :: x in r.1.value <==>
      x in docs && EngineFilters(x, s, CategoriesOf(s.category.GetOr([])).GetOr([]), analyzer)
  {
    (GetPageable(page, size, sortType), EngineSearch(docs, s, analyzer))
  }

  /** `searchProductsByMember`: the same clamped page request, and the member's id and the sale status passed on unchanged. */
  function SearchProductsByMember(page: int, size: int, sortType: ProductSearchSortType, actorId: int,
                                  status: Option<SaleStatus>): (r: (PageRequest, int, Option<SaleStatus>))
    ensures r.1 == actorId && r.2 == status
    ensures r.0 == SearchProducts([], page, size, sortType, ProductSearchDto(None, None, None, None, None), (a, b) => true).0
  {
    (GetPageable(page, size, sortType), actorId, status)
  }
}

=== FILE: seqs.dfy ===
/** Sequence helpers shared by the repository queries. */
module Seqs {

  /** The elements of `xs` that pass `keep`, in their order: what a `WHERE` clause selects from a table. */
  function Filter<T(==,!new)>(xs: seq<T>, keep: T -> bool): (r: seq<T>)
    ensures forall x :: x in r <==> x in xs && keep(x)
    ensures |r| <= |xs|
  {
    if |xs| == 0 then []
    else (if keep(xs[0]) then [xs[0]] else []) + Filter(xs[1..], keep)
  }

  /** Filtering a table split in two filters each part and keeps them in order. */
  lemma {:induction false} FilterAppend<T(!new)>(xs: seq<T>, ys: seq<T>, keep: T -> bool)
    ensures Filter(xs + ys, keep) == Filter(xs, keep) + Filter(ys, keep)
  {
    if |xs| > 0 {
      assert (xs + ys)[1..] == xs[1..] + ys;
      FilterAppend(xs[1..], ys, keep);
    } else {
      assert xs + ys == ys;
    }
  }
}

=== FILE: strings.dfy ===
/** The parts of `java.lang.String` and `Integer` the services rely on, over `seq<char>`. */
module Strings {

  import opened Wrappers

  /** Bounds of a Java `int`. */
  const INT_MIN: int := -0x8000_0000
  const INT_MAX: int := 0x7FFF_FFFF
  /** Bounds of a Java `long`. */
  const LONG_MIN: int := -0x8000_0000_0000_0000
  const LONG_MAX: int := 0x7FFF_FFFF_FFFF_FFFF

  // ---------------------------------------------------------------- blanks and trim

  /** `Character.isWhitespace`: the Unicode space separators except the no-break ones, plus the ASCII controls 0x09-0x0D and 0x1C-0x1F. */
  predicate IsJavaWhitespace(c: char) {
    var k := c as int;
    (0x09 <= k <= 0x0D) || (0x1C <= k <= 0x20) || k == 0x1680
    || (0x2000 <= k <= 0x2006) || (0x2008 <= k <= 0x200A)
    || k == 0x2028 || k == 0x2029 || k == 0x205F || k == 0x3000
  }

  /** `String.isBlank`: empty or made of whitespace only. */
  predicate IsBlank(s: string) {
    forall i :: 0 <= i < |s| ==> IsJavaWhitespace(s[i])
  }

  /** `s != null && !s.isBlank()` for a nullable string. */
  predicate HasText(s: Option<string>) {
    s.Some? && !IsBlank(s.value)
  }

  /** The characters `String.trim` strips: every code point up to U+0020. */
  predicate IsTrimmable(c: char) {
    c <= ' '
  }

  function TrimStart(s: string): (r: string)
    ensures |r| <= |s| && r == s[|s| - |r|..]
    ensures forall i :: 0 <= i < |s| - |r| ==> IsTrimmable(s[i])
    ensures |r| > 0 ==> !IsTrimmable(r[0])
  {
    if |s| > 0 && IsTrimmable(s[0]) then TrimStart(s[1..]) else s
  }

  function TrimEnd(s: string): (r: string)
    ensures |r| <= |s| && r == s[..|r|]
    ensures forall i :: |r| <= i < |s| ==> IsTrimmable(s[i])
    ensures |r| > 0 ==> !IsTrimmable(r[|r| - 1])
  {
    if |s| > 0 && IsTrimmable(s[|s| - 1]) then TrimEnd(s[..|s| - 1]) else s
  }

  /** `String.trim`. */
  function Trim(s: string): (r: string)
    ensures |r| <= |s|
    ensures |r| > 0 ==> !IsTrimmable(r[0]) && !IsTrimmable(r[|r| - 1])
  {
    TrimEnd(TrimStart(s))
  }

  /** A trimmed string lies inside the original. */
  lemma {:induction false} TrimIsInfix(s: string)
    ensures exists k :: OccursAt(s, Trim(s), k)
  {
    var a := TrimStart(s);
    var k := |s| - |a|;
    assert a == s[k..];
    assert Trim(s) == a[..|Trim(s)|];
    assert OccursAt(s, Trim(s), k);
  }

  /** Trimming twice is trimming once. */
  lemma TrimIdempotent(s: string)
    ensures Trim(Trim(s)) == Trim(s)
  {
    var t := Trim(s);
    if |t| > 0 {
      assert TrimStart(t) == t;
      assert TrimEnd(t) == t;
    }
  }

  /** A string that neither starts nor ends with a trimmable character is its own trim. */
  lemma TrimOfTrimmed(s: string)
    requires |s| > 0 && !IsTrimmable(s[0]) && !IsTrimmable(s[|s| - 1])
    ensures Trim(s) == s
  {
  }

  /** Trimming leaves nothing exactly when every character is trimmable. */
  lemma TrimEmptyIff(s: string)
    ensures |Trim(s)| == 0 <==> forall i :: 0 <= i < |s| ==> IsTrimmable(s[i])
  {
    var a := TrimStart(s);
    if |Trim(s)| == 0 {
    } else {
      var k := |s| - |a|;
      assert !IsTrimmable(a[0]) && a[0] == s[k];
    }
  }

  // ---------------------------------------------------------------- ASCII case

  function UpperChar(c: char): (u: char)
    ensures 'a' <= c <= 'z' ==> 'A' <= u <= 'Z'
    ensures !('a' <= c <= 'z') ==> u == c
  {
    if 'a' <= c <= 'z' then (c as int - 32) as char else c
  }

  function LowerChar(c: char): (l: char)
    ensures 'A' <= c <= 'Z' ==> 'a' <= l <= 'z'
    ensures !('A' <= c <= 'Z') ==> l == c
  {
    if 'A' <= c <= 'Z' then (c as int + 32) as char else c
  }

  /** `toUpperCase`, restricted to the ASCII letters. */
  function ToUpper(s: string): (r: string)
    ensures |r| == |s|
    ensures forall i :: 0 <= i < |s| ==> r[i] == UpperChar(s[i])
    decreases |s|
  {
    if |s| == 0 then [] else [UpperChar(s[0])] + ToUpper(s[1..])
  }

  /** `toLowerCase`, restricted to the ASCII letters. */
  function ToLower(s: string): (r: string)
    ensures |r| == |s|
    ensures forall i :: 0 <= i < |s| ==> r[i] == LowerChar(s[i])
    decreases |s|
  {
    if |s| == 0 then [] else [LowerChar(s[0])] + ToLower(s[1..])
  }

  lemma UpperLowerInverse(c: char)
    requires 'a' <= c <= 'z'
    ensures LowerChar(UpperChar(c)) == c
  {
  }

  // ---------------------------------------------------------------- searching

  predicate StartsWith(s: string, prefix: string) {
    |prefix| <= |s| && s[..|prefix|] == prefix
  }

  /** `s.contains(t)`. */
  predicate Contains(s: string, t: string)
    decreases |s|
  {
    StartsWith(s, t) || (|s| > 0 && Contains(s[1..], t))
  }

  /** `t` occurs in `s` at position `k`. */
  predicate OccursAt(s: string, t: string, k: int) {
    0 <= k && k + |t| <= |s| && s[k..k + |t|] == t
  }

  /** Containment as the existence of an occurrence position. */
  lemma {:induction false} ContainsIff(s: string, t: string)
    ensures Contains(s, t) <==> exists k :: OccursAt(s, t, k)
    decreases |s|
  {
    if StartsWith(s, t) {
      assert OccursAt(s, t, 0);
    } else if |s| > 0 {
      ContainsIff(s[1..], t);
      if exists k :: OccursAt(s, t, k) {
        var k :| OccursAt(s, t, k);
        assert k != 0;
        assert OccursAt(s[1..], t, k - 1);
      }
      if Contains(s[1..], t) {
        var k :| OccursAt(s[1..], t, k);
        assert OccursAt(s, t, k + 1);
      }
    }
  }

  /** `s.toLowerCase().contains(t.toLowerCase())`, the database's case-insensitive LIKE. */
  predicate ContainsIgnoreCase(s: string, t: string) {
    Contains(ToLower(s), ToLower(t))
  }

  /** `s.indexOf(c)`, as an option. */
  function IndexOf(s: string, c: char): (r: Option<nat>)
    ensures r.Some? ==> r.value < |s| && s[r.value] == c && c !in s[..r.value]
    ensures r.None? ==> c !in s
  {
    if |s| == 0 then None
    else if s[0] == c then Some(0)
    else
      match IndexOf(s[1..], c)
      case None => None
      case Some(k) => Some(k + 1)
  }

  /** `s.lastIndexOf(c)`, as an option. */
  function LastIndexOf(s: string, c: char): (r: Option<nat>)
    ensures r.Some? ==> r.value < |s| && s[r.value] == c && c !in s[r.value + 1..]
    ensures r.None? ==> c !in s
  {
    if |s| == 0 then None
    else if s[|s| - 1] == c then Some(|s| - 1)
    else LastIndexOf(s[..|s| - 1], c)
  }

  /** `s.split(String.valueOf(c), 2)[0]`: everything before the first `c`. */
  function PrefixBefore(s: string, c: char): (r: string)
    ensures c !in r
    ensures r == s <==> c !in s
    ensures StartsWith(s, r)
  {
    match IndexOf(s, c)
    case None => s
    case Some(k) => s[..k]
  }

  /** Splitting at the first separator recovers the part written before it. */
  lemma PrefixBeforeConcat(a: string, c: char, b: string)
    requires c !in a
    ensures PrefixBefore(a + [c] + b, c) == a
  {
    var s := a + [c] + b;
    assert s[|a|] == c && s[..|a|] == a;
    assert s[..|a| + 1] == a + [c];
  }

  // ---------------------------------------------------------------- replace

  /** `s.replace(t, rep)` for an empty `t`: `rep` before every character and at the end. */
  function InsertEverywhere(s: string, rep: string): (r: string)
    ensures |r| == |s| + (|s| + 1) * |rep|
  {
    if |s| == 0 then rep else rep + [s[0]] + InsertEverywhere(s[1..], rep)
  }

  /** `s.replace(t, rep)`: every non-overlapping occurrence of `t`, scanned left to right. */
  function ReplaceAll(s: string, t: string, rep: string): (r: string)
    ensures !Contains(s, t) && |t| > 0 ==> r == s
    decreases |s|
  {
    if |t| == 0 then InsertEverywhere(s, rep)
    else if |s| < |t| then s
    else if s[..|t|] == t then rep + ReplaceAll(s[|t|..], t, rep)
    else [s[0]] + ReplaceAll(s[1..], t, rep)
  }

  /** When `s` begins with `t`, the replacement begins with `rep`. */
  lemma ReplaceAllPrefix(t: string, rest: string, rep: string)
    requires |t| > 0
    ensures ReplaceAll(t + rest, t, rep) == rep + ReplaceAll(rest, t, rep)
  {
    var s := t + rest;
    assert s[..|t|] == t;
    assert s[|t|..] == rest;
  }

  // ---------------------------------------------------------------- numbers

  predicate IsDigit(c: char) {
    '0' <= c <= '9'
  }

  predicate AllDigits(s: string) {
    forall i :: 0 <= i < |s| ==> IsDigit(s[i])
  }

  function DigitChar(d: nat): (c: char)
    requires d < 10
    ensures IsDigit(c)
  {
    ('0' as int + d) as char
  }

  /** The value of a string of decimal digits (leading zeros allowed). */
  function DigitsValue(s: string): nat
    requires AllDigits(s)
  {
    if |s| == 0 then 0 else DigitsValue(s[..|s| - 1]) * 10 + (s[|s| - 1] as int - '0' as int)
  }

  /** `String.valueOf(n)` for a non-negative number: shortest decimal, no leading zero. */
  function NatToString(n: nat): (r: string)
    ensures |r| > 0 && AllDigits(r)
    ensures DigitsValue(r) == n
    ensures |r| > 1 ==> r[0] != '0'
  {
    if n < 10 then [DigitChar(n)]
    else
      var front := NatToString(n / 10);
      var r := front + [DigitChar(n % 10)];
      assert r[..|r| - 1] == front;
      r
  }

  /** `String.valueOf(n)` for any integer. */
  function IntToString(n: int): (r: string)
    ensures |r| > 0
  {
    if n < 0 then "-" + NatToString(-n) else NatToString(n)
  }

  /** A signed decimal over ASCII digits, refused (`None`, a NumberFormatException) outside `lo..hi`. */
  function ParseInRange(s: string, lo: int, hi: int): (r: Option<int>)
    ensures r.Some? ==> lo <= r.value <= hi
  {
    if |s| == 0 then None
    else
      var signed := s[0] == '-' || s[0] == '+';
      var digits := if signed then s[1..] else s;
      if |digits| == 0 || !AllDigits(digits) then None
      else
        var v: int := if s[0] == '-' then 0 - DigitsValue(digits) as int else DigitsValue(digits) as int;
        if lo <= v <= hi then Some(v) else None
  }

  /** `Integer.parseInt(s)`. */
  function ParseInt(s: string): (r: Option<int>)
    ensures r.Some? ==> INT_MIN <= r.value <= INT_MAX
  {
    ParseInRange(s, INT_MIN, INT_MAX)
  }

  /** `Long.parseLong(s)`. */
  function ParseLong(s: string): (r: Option<int>)
    ensures r.Some? ==> LONG_MIN <= r.value <= LONG_MAX
  {
    ParseInRange(s, LONG_MIN, LONG_MAX)
  }

  /** `String.valueOf(n)` read back within any range holding `n` gives `n`, negative or not. */
  lemma ParseInRangeOfIntToString(n: int, lo: int, hi: int)
    requires lo <= n <= hi
    ensures ParseInRange(IntToString(n), lo, hi) == Some(n)
  {
    var s := IntToString(n);
    if n < 0 {
      var d := NatToString(-n);
      assert s[1..] == d;
      assert IsDigit(d[0]);
    } else {
      assert IsDigit(s[0]);
    }
  }

  /** Printing a number and parsing it back gives the number. */
  lemma ParseIntOfNatToString(n: nat)
    requires n <= INT_MAX
    ensures ParseInt(NatToString(n)) == Some(n)
  {
    ParseInRangeOfIntToString(n, INT_MIN, INT_MAX);
  }

  /** A '-' anywhere after the first character makes the string unparsable. */
  lemma ParseIntRejectsInnerDash(s: string, i: nat)
    requires 0 < i < |s| && s[i] == '-'
    ensures ParseInt(s) == None
  {
    if s[0] == '-' || s[0] == '+' {
      assert s[1..][i - 1] == '-';
    }
  }

  /** `String.format("%0<width>d", n)` for a non-negative number. */
  function ZeroPad(n: nat, width: nat): (r: string)
    ensures |r| >= width && |r| >= |NatToString(n)|
    ensures r[|r| - |NatToString(n)|..] == NatToString(n)
    ensures forall i :: 0 <= i < |r| - |NatToString(n)| ==> r[i] == '0'
  {
    var digits := NatToString(n);
    if |digits| >= width then digits
    else seq(width - |digits|, _ => '0') + digits
  }

  /** Leading zeros do not change the value of a digit string. */
  lemma {:induction false} DigitsValueLeadingZeros(k: nat, s: string)
    requires AllDigits(s)
    ensures AllDigits(seq(k, _ => '0') + s)
    ensures DigitsValue(seq(k, _ => '0') + s) == DigitsValue(s)
    decreases k + |s|
  {
    var z := seq(k, _ => '0');
    var r := z + s;
    assert AllDigits(r) by {
      forall i | 0 <= i < |r| ensures IsDigit(r[i]) {
        if i >= k { assert r[i] == s[i - k]; }
      }
    }
    if |s| == 0 {
      if k > 0 {
        assert r[..|r| - 1] == seq(k - 1, _ => '0') + [];
        DigitsValueLeadingZeros(k - 1, []);
      }
    } else {
      var front := s[..|s| - 1];
      assert r[..|r| - 1] == z + front;
      DigitsValueLeadingZeros(k, front);
    }
  }

  /** A zero-padded number parses back to the number. */
  lemma ParseIntOfZeroPad(n: nat, width: nat)
    requires n <= INT_MAX
    ensures ParseInt(ZeroPad(n, width)) == Some(n)
  {
    var digits := NatToString(n);
    if |digits| >= width {
      ParseIntOfNatToString(n);
    } else {
      var k := width - |digits|;
      DigitsValueLeadingZeros(k, digits);
      var r := ZeroPad(n, width);
      assert r == seq(k, _ => '0') + digits;
      assert r[0] == '0';
    }
  }
}

=== FILE: tracker.dfy ===
/** `ProductChangeTracker`: a snapshot of a product before a change, and the events that describe the change. */
module Tracker {

  import opened ProductEnums
  import opened Products

  /** The snapshot taken before a change. */
  datatype ChangeTracker = ChangeTracker(productId: int, oldPrice: int, oldStatus: AuctionStatus, oldBidderCount: nat)

  /** The events published after a change. */
  datatype ProductEvent =
    | PriceChanged(productId: int, oldPrice: int, newPrice: int)
    | StatusChanged(productId: int, oldStatus: AuctionStatus, newStatus: AuctionStatus)
    | BidderCountChanged(productId: int, oldCount: nat, newCount: nat)

  /** `ProductChangeTracker.of`: records id, price, status and bidder count as they are now. */
  function Snapshot(p: Product): (t: ChangeTracker)
    ensures t.productId == p.id && t.oldPrice == p.currentPrice && t.oldStatus == p.status
    ensures t.oldBidderCount == BiddersCount(p)
  {
    ChangeTracker(p.id, p.currentPrice, p.status, BiddersCount(p))
  }

  /** `publishChanges`: price, status and bidder-count events, in that order, each only for a field that changed. */
  function PublishChanges(t: ChangeTracker, p: Product): (es: seq<ProductEvent>)
    ensures |es| <= 3
    ensures (exists e :: e in es && e.PriceChanged?) <==> t.oldPrice != p.currentPrice
    ensures (exists e :: e in es && e.StatusChanged?) <==> t.oldStatus != p.status
    ensures (exists e :: e in es && e.BidderCountChanged?) <==> t.oldBidderCount != BiddersCount(p)
    ensures forall e :: e in es ==> e.productId == t.productId
    ensures forall e :: e in es && e.PriceChanged? ==> e.oldPrice == t.oldPrice && e.newPrice == p.currentPrice
    ensures forall e :: e in es && e.StatusChanged? ==> e.oldStatus == t.oldStatus && e.newStatus == p.status
    ensures forall e :: e in es && e.BidderCountChanged? ==> e.oldCount == t.oldBidderCount && e.newCount == BiddersCount(p)
  {
    var price := if t.oldPrice != p.currentPrice then [PriceChanged(t.productId, t.oldPrice, p.currentPrice)] else [];
    var status := if t.oldStatus != p.status then [StatusChanged(t.productId, t.oldStatus, p.status)] else [];
    var count := if t.oldBidderCount != BiddersCount(p) then [BidderCountChanged(t.productId, t.oldBidderCount, BiddersCount(p))] else [];
    var es := price + status + count;
    assert |price| == 1 ==> es[0] == price[0];
    assert |status| == 1 ==> es[|price|] == status[0];
    assert |count| == 1 ==> es[|price| + |status|] == count[0];
    es
  }

  /** A product compared with its own snapshot produces no events. */
  lemma NoChangeNoEvents(p: Product)
    ensures PublishChanges(Snapshot(p), p) == []
  {
  }

  /** Only a change of price, status or bidder count produces events; other fields are invisible to the tracker. */
  lemma UntrackedFieldsProduceNoEvents(p: Product, q: Product)
    requires q.currentPrice == p.currentPrice && q.status == p.status && BiddersCount(q) == BiddersCount(p)
    ensures PublishChanges(Snapshot(p), q) == []
  {
  }
}

=== FILE: wrappers.dfy ===
/** Option and Result: the model's stand-ins for Java's null and for thrown exceptions. */
module Wrappers {

  /** A value that may be absent; `None` plays the role of Java's null. */
  datatype Option<+T> = None | Some(value: T) {

    predicate IsFailure() {
      None?
    }

    function PropagateFailure<U>(): Option<U>
      requires None?
    {
      None
    }

    function Extract(): T
      requires Some?
    {
      value
    }

    /** The value, or `default` when absent (Java's `Optional.orElse`). */
    function GetOr(default: T): T {
      match this
      case Some(v) => v
      case None => default
    }

    /** The value as a success, or a failure with `error` when absent (`orElseThrow`). */
    function ToResult<E>(error: E): (r: Result<T, E>)
      ensures r.Success? <==> Some?
      ensures r.Success? ==> r.value == value
      ensures r.Failure? ==> r.error == error
    {
      match this
      case Some(v) => Success(v)
      case None => Failure(error)
    }
  }

  /** The outcome of an operation that either returns a value or throws `error`. */
  datatype Result<+R, +E> = Success(value: R) | Failure(error: E) {

    predicate IsFailure() {
      Failure?
    }

    function PropagateFailure<U>(): Result<U, E>
      requires Failure?
    {
      Failure(error)
    }

    function Extract(): R
      requires Success?
    {
      value
    }
  }

  /** Absence of failure, or the failure that stops an operation (a validation step). */
  datatype Outcome<+E> = Pass | Fail(error: E) {

    predicate IsFailure() {
      Fail?
    }

    function PropagateFailure<U>(): Result<U, E>
      requires Fail?
    {
      Failure(error)
    }
  }

  /** Passes when `condition` holds and otherwise fails with `error`. */
  function Need<E>(condition: bool, error: E): (o: Outcome<E>)
    ensures o.Pass? <==> condition
    ensures o.Fail? ==> o.error == error
  {
    if condition then Pass else Fail(error)
  }
}
